=== FILE: README.md ===
# airline: a Dafny model of the wide-event logger

`airline` is a small Python library for "wide event" logging. A program opens one event per unit of work. While it runs, it adds context to the event:

- plain fields, where the last write wins;
- rollup fields, which are summed;
- timer fields, which are summed milliseconds.

At the end the event is written to stderr as one JSON record. Its dotted field names (`exception.message`) become nested objects (`{"exception": {"message": …}}`). `skyline/` is an older copy of the same library.

This project models the sequential core of both copies and proves properties of it.

- **`dots_to_deep`** (`Flatten`). A dict with dotted keys becomes a tree, or the call fails on a structural collision. It is modelled over an insertion-ordered dict (`Dict`, a sequence of pairs) and a JSON-like `Value`.
- **Events** (`AirlineEvent`, `SkylineEvent`). These hold the three kinds of field and the name normalisers. `fields()` merges them.
- **Clients** (`AirlineClient`, `SkylineClient`). A client is the state machine over the current event: `start`, the forwarding mutators, `done`, `evented`, and the payload built by `send` (`Wire.BuildPayload`).
- **Module-level API** (`Airline`, `Skyline`). The process-wide client slot is modelled as `Option<Client>`. It covers `init`, `done`, the no-op-when-uninitialised mutators, `timer`, the `evented` decorator, `success`, `error` and `_log`.

## How the model is built

Each operation is a pure function from a state to a `Wire.Step`. A step holds:

- the new state;
- the payloads written to stderr;
- the lines printed to stdout;
- the `Outcome`: a return value, or the exception that escapes.

Some exceptions escape the Python code because of defects. They are modelled as they happen, and the model does not exclude them with preconditions. In the model they are `Wire.Error` values:

- `done()` with no current event dereferences `None` (`NoCurrentEvent`).
- A nested `evented` reaches an unbound local (`UnboundEvent`).
- The airline `evented` calls `attach_exception`, which the event class lacks (`MissingAttribute`).
- `remove_context_field` calls a method the client lacks (`MissingAttribute`).
- The skyline `timer` calls `add_timer_field`, which the skyline event lacks (`MissingAttribute`). The skyline client lacks that method too.

A block of user code (the body of a `with`, or a decorated function) is a `Wire.Body`. It holds the mutators the block calls, in order, and how the block ends (`Completed` or `Threw`). A mutator (`Wire.Op`) is `add_context_field`, `add_context`, `add_rollup_field`, or a timed block: `with timer(name):` or `with add_timer_field(name):` around mutators of its own. Under the airline client a timed block runs its mutators and then adds its elapsed milliseconds to the timer. The skyline client and the skyline event have no `add_timer_field`. There, with a current event, a timed block raises `AttributeError` before its mutators run, and that exception ends the enclosing block (`SkylineClient.BlockExit`). A user exception raised inside a timed block is written as that timed block being the block's last mutator, with the exception as the block's exit. Under the airline client the `finally` clause adds the time before the exception leaves, so the two give the same result.

Clock readings are `real` parameters; the creation timestamp (a `Timestamp`) and the library version (a `string`) are parameters too.

### Where the code and its description disagree

In each of these cases the model follows the code.

- **Insertion order in `dots_to_deep`.** The collision rule is usually described as order-independent. It is order-independent for non-dict values: `Flatten.CollisionFails` and `Flatten.OrderIndependent` prove this. When a value is itself a dict, the outcome does depend on insertion order:
  - `{'a': {'b': 1}, 'a.c': 2}` succeeds. The later key is written into the dict value (`Flatten.DictValueFirstSucceeds`).
  - The same entries in the reverse order fail (`Flatten.DictValueLastFails`).
- **`done()` does not always clear the slot.** The module-level `done()` is meant to leave no client installed. When the client's own `done` raises, `_SKL = None` is never reached and the client stays (`Airline.Done`). The client's `done` raises when there is no current event, or when the fields collide.
- **`init` and `evented` followed by `done` cannot succeed.** After `init`, one `@evented` call, then `done()`, the final `done` always raises (`Airline.InitEventedDone`). The decorated call has already sent and cleared its event, or left behind an event whose fields collide.
- **The airline `evented` hides the user's exception.** On its error path it sets `status`, then raises `AttributeError` from the missing `attach_exception`, and the user's exception is lost. The skyline `evented` writes the exception fields and re-raises the original exception.

The skyline `dots_to_deep` (skyline/client.py:101-118) is a verbatim copy of the airline one. It is modelled once, in `Flatten`. skyline/__init__.py imports a `threadlocal_client` module that this model does not cover; the model assumes it behaves like airline/threadlocal_client.py.

## Model

| member | source | states |
|---|---|---|
| `Dict.Set` | airline/event.py:28-29 | `d[k] = v`: afterwards `k` maps to `v` and every other key keeps its value; a new key goes to the end, and an existing key keeps its place with every other key in its own |
| `Dict.SetKeepsPlace` | airline/event.py:28-29 | writing a key the dict already has leaves the length and the key at every position as they were |
| `Dict.Update` | airline/event.py:25-26 | `d.update(e)`: a key of `e` takes the value of its last entry in `e` and every other key keeps its value in `d`; the keys of `d` keep their places and the keys new to `d` follow, each once, in the order they first occur in `e` (`Dict.FreshKeys`) |
| `Flatten.Insert` | airline/client.py:124-136 | one loop turn: when it succeeds, nothing already in the tree is lost or replaced, and the value sits at the key's path |
| `Flatten.DotsToDeep` | airline/client.py:121-138 | on success, every entry's value (or a dict grown from it) is found at the path `k.split('.')` spells |
| `Flatten.FailurePersists` | airline/client.py:123-134 | once a prefix of the input has raised, the whole call raises |
| `Flatten.CollisionFails` | airline/client.py:126-134 | when one key's path is a prefix of, or equal to, another's and the shorter key holds a non-dict, the call fails in either insertion order |
| `Flatten.DotsToDeepFlat` | airline/client.py:121-138 | for non-dict values the call succeeds exactly when no key's path is a prefix of another's; the result's leaves are then the input values, each at the path of exactly the key that held it |
| `Flatten.OrderIndependent` | airline/client.py:121-138 | two flat dicts with the same contents give the same result, whatever their insertion order |
| `Flatten.NoDotsIdentity` | tests/test_dots_to_deep.py:5-6 | a dict without dotted keys comes back unchanged |
| `Flatten.SingleKey` | airline/client.py:123-136 | a single dot-free key is stored as it is |
| `Flatten.ExampleTwoLevel` | tests/test_dots_to_deep.py:13-14 | `{'a.b': 1, 'c': 2}` becomes `{'a': {'b': 1}, 'c': 2}` |
| `Flatten.ExampleThreeLevel` | tests/test_dots_to_deep.py:17-18 | `{'a.b.c': 1, 'c': 2}` becomes `{'a': {'b': {'c': 1}}, 'c': 2}` |
| `Flatten.ExampleCollision` | tests/test_dots_to_deep.py:21-28 | `a` and `a.b` collide in both orders |
| `Flatten.ExampleDeepCollision` | tests/test_dots_to_deep.py:31-38 | `a.b` and `a.b.c` collide in both orders |
| `Flatten.ExampleDictValueCollision` | tests/test_dots_to_deep.py:41-48 | a dict value is walked into, so `{'a': {'b': 1}, 'a.b.c': 1}` fails |
| `Flatten.DictValueFirstSucceeds` | airline/client.py:126-136 | a dotted key written after a dict value is merged into that dict |
| `Flatten.DictValueLastFails` | airline/client.py:133-134 | the same entries in the other order fail: the plain key finds its name taken |
| `Wire.EventTime` | airline/client.py:83-85 | the ISO text, with "Z" appended exactly when the timestamp is naive |
| `Wire.BuildPayload` | airline/client.py:81-98 | the payload is built exactly when `dots_to_deep(fields)` succeeds and is a nesting error otherwise. It has the event time, the dataset, `airline/` plus the version, the converted fields (every field at its dotted path), and indent 2 exactly in debug mode |
| `Wire.PayloadLeaves` | airline/client.py:87-92 | for non-dict fields, the payload's `data` holds each field at its path and nothing else |
| `AirlineEvent.New` | airline/event.py:12-23 | the dataset is the client's, or `''` without a client; accumulators start empty; each plain field takes the last value given for it |
| `AirlineEvent.Add` | airline/event.py:25-26 | every entry of the argument is written in, later entries winning; keys not in it and the other namespaces are untouched |
| `AirlineEvent.AddField` | airline/event.py:28-29 | the field holds the new value; all other fields are unchanged |
| `AirlineEvent.LastWriteWins` | tests/test_event.py:11-14 | a second `add_field` on a name replaces the first entirely |
| `AirlineEvent.AddFieldVisible` | tests/test_event.py:11-14 | a field written with `add_field` is what `fields()` reports, unless a rollup or timer of that name shadows it |
| `AirlineEvent.Accumulate` | airline/event.py:22-23 | `defaultdict` `+=`: the total of the name grows by the amount from a start of 0 and other totals are unchanged; a new name is appended with the amount, and an existing name keeps its place, which decides the alias `rollup_fields()` reports |
| `AirlineEvent.AddRollupField` | airline/event.py:31-32 | the rollup total of the name grows by the amount; nothing else changes |
| `AirlineEvent.AddTimerField` | airline/event.py:34-41 | the timer total grows by `(stop - start) * 1000` whether the block completes or raises, and the block's exit passes through |
| `AirlineEvent.RollupName` | airline/event.py:66-70 | the result starts with `rollup.` and ends with the name, adding the prefix at most once |
| `AirlineEvent.RollupNameNormal` | airline/event.py:66-70 | a name is left alone exactly when it already has the prefix, so normalising is idempotent |
| `AirlineEvent.RollupNameAliases` | tests/test_event.py:23-27 | two names share a rollup field exactly when they are equal or differ by a leading `rollup.` |
| `AirlineEvent.TimerName` | airline/event.py:73-79 | the result starts with `timers.` and ends with `_ms`, adding each part at most once |
| `AirlineEvent.TimerNameNormal` | airline/event.py:73-79 | a name is left alone exactly when it has both parts, so normalising is idempotent |
| `AirlineEvent.TimerNameExamples` | tests/test_event.py:46-51 | `example`, `timers.example`, `example_ms` and `timers.example_ms` all become `timers.example_ms` |
| `AirlineEvent.Renamed` | airline/event.py:56-57 | the renamed totals have no repeated key; a key appears exactly when some accumulated name normalises to it, and it holds the total of the last-inserted name that does |
| `AirlineEvent.RollupFields` | airline/event.py:56-57 | every reported rollup key carries the `rollup.` prefix |
| `AirlineEvent.TimerFields` | airline/event.py:62-63 | every reported timer key carries `timers.` and `_ms` |
| `AirlineEvent.FieldsGet` | airline/event.py:59-60 | `fields()` precedence: a timer beats a rollup, which beats a plain field of the same name |
| `AirlineEvent.RollupTimerDisjoint` | airline/event.py:66-79 | a normalised rollup name never equals a normalised timer name |
| `AirlineEvent.FieldsOfNew` | tests/test_event.py:17-20 | with no rollups or timers, `fields()` is exactly the merged plain data |
| `AirlineEvent.RollupTotalInFields` | airline/event.py:56-60 | `fields()` reports a rollup's summed total under its normalised name when no other rollup aliases it |
| `AirlineEvent.TimerTotalInFields` | airline/event.py:59-63 | `fields()` reports a timer's summed milliseconds under its normalised name when no other timer aliases it |
| `AirlineEvent.RollupsAccumulateExample` | tests/test_event.py:23-34 | two rollups of 1 on `foo` give `{'rollup.foo': 2}`; one on `rollup.foo` gives `{'rollup.foo': 1}` |
| `AirlineEvent.RollupAliasNotSummed` | airline/event.py:56-57 | rollups on `foo` and `rollup.foo` total 3, but `fields()` reports only the later one, 2 |
| `AirlineEvent.TimersWorkExample` | tests/test_event.py:37-43 | a block timed from 0 s to 5 s is reported as `{'timers.five_ms': 5000.0}` |
| `AirlineEvent.Send` | airline/event.py:50-54 | without a client, sending raises; with one, the payload exists exactly when the fields convert and carries the event's time and dataset, the client string, the converted fields and the owner's indent |
| `AirlineClient.Log` | airline/client.py:100-102 | a message is printed exactly in debug mode |
| `AirlineClient.NewEvent` | airline/client.py:78-79 | the new event carries the client's dataset and settings, and reports exactly the data it was given |
| `AirlineClient.Start` | airline/client.py:67-72 | the given event, or a fresh empty one with the client's dataset, becomes current and is returned |
| `AirlineClient.Send` | airline/client.py:81-98 | the payload exists exactly when the event's fields convert; it has the event's dataset and time, `airline/` plus the version, the converted fields, and indent 2 exactly in debug mode |
| `AirlineClient.EventSendIsClientSend` | airline/event.py:50-52 | `event.send()` on an event a client created writes exactly that client's `send(event)` payload |
| `AirlineClient.Done` | airline/client.py:74-76 | with no current event it raises; it succeeds exactly when the current event converts, and then writes that one payload and clears the event; on failure nothing changes |
| `AirlineClient.StartThenDone` | tests/test_client.py:16-19 | `start()` then `done()` writes one payload for an empty event of the client's dataset and leaves no current event |
| `AirlineClient.ApplyOp` | airline/client.py:15-40 | one mutator keeps the event's dataset, time and owner and its dicts duplicate-free; `add_context_field` sets that field and leaves the others, `add_context` applies update semantics, `add_rollup_field` grows that total and leaves the others, and none of them touches the other dicts; only a timed block reaches the timers, and it leaves exactly what its own mutators left, plus its elapsed milliseconds on its timer |
| `AirlineClient.Perform` | airline/client.py:15-40 | a block's mutators keep the event's dataset, time and owner and its dicts duplicate-free; a block with no timed block leaves the timers alone |
| `AirlineClient.PerformAppend` | airline/client.py:15-40 | running two blocks one after the other is running their concatenation |
| `AirlineClient.Idle` | airline/client.py:15-40 | with no current event, each mutator call, a timed block's own call included, logs "No event found" once in debug mode |
| `AirlineClient.AddContextField` | airline/client.py:15-19 | forwarded unchanged to the current event; without one, only logged |
| `AirlineClient.AddContext` | airline/client.py:21-25 | forwarded unchanged to the current event; without one, only logged |
| `AirlineClient.AddRollupField` | airline/client.py:27-31 | forwarded unchanged to the current event; without one, only logged |
| `AirlineClient.AddTimerField` | airline/client.py:33-40 | the block runs once and its exit passes through. With a current event, the block's mutators reach it and its elapsed milliseconds are added to the timer, with no other timer changed. Without one, the call and each of the block's mutators only log |
| `AirlineClient.AttachException` | airline/client.py:42-46 | with a current event it raises, because the event has no `attach_exception`; without one, only logged |
| `AirlineClient.Finished` | airline/client.py:53-64 | the event `evented` sends carries the client's dataset and `duration_ms`, and `status: ERROR` when the block raised an `Exception`; everything else is what the block's mutators wrote into a fresh event: the same rollups and timers, and the same value under every other field name (`status` included when the block did not raise an `Exception`) |
| `AirlineClient.Pending` | airline/client.py:57-60 | after the `except` clause, the error pending is the `AttributeError`, not the user's exception; a `BaseException` passes unchanged |
| `AirlineClient.Close` | airline/client.py:61-65 | the `finally` clause sends the event exactly when it converts; otherwise the nesting error replaces whatever was pending and the event stays current |
| `AirlineClient.Evented` | airline/client.py:48-65 | not nested: exactly one payload when the fields convert, then no current event, and on the error path the user's exception never escapes: once the payload is written, the `AttributeError` of the missing `attach_exception` is what the caller sees. Nested: nothing is sent, `UnboundLocalError` escapes, and "Event already created" is logged |
| `AirlineClient.FinishedFields` | airline/client.py:58-64 | `fields()` of the sent event reports `duration_ms` and, on the error path, `status` with the values written |
| `AirlineClient.SentField` | airline/client.py:87-92 | a payload has each dot-free, non-dict field at the top level of `data` |
| `AirlineClient.EventedPayload` | airline/client.py:48-65 | what `evented` sends has the client's dataset and `duration_ms`, plus `status: ERROR` on the error path |
| `Airline.Log` | airline/__init__.py:149-151 | printed exactly when a client exists and is in debug mode |
| `Airline.Init` | airline/__init__.py:23-29 | creates a client only when none exists; otherwise the client is kept and a warning is printed whatever the debug flag |
| `Airline.InitOnce` | airline/__init__.py:23-29 | a second `init`, with any settings, leaves the first client in place |
| `Airline.AddContext` | airline/__init__.py:32-42 | with a client and a current event, the data reaches the event; otherwise nothing changes and only `_log` prints |
| `Airline.AddContextField` | airline/__init__.py:45-57 | with a current event the field then holds the value; otherwise a logged no-op |
| `Airline.RemoveContextField` | airline/__init__.py:60-73 | raises exactly when a client and an event exist (the client has no such method); otherwise a logged no-op |
| `Airline.AddRollupField` | airline/__init__.py:76-87 | with a current event the rollup total grows by the amount; otherwise a logged no-op |
| `Airline.ApplyOp` | airline/__init__.py:32-104 | one module-level mutator, a timed block included, does to the current event what the client's does; with no client or event it changes nothing and logs once per call it makes |
| `Airline.RunOps` | airline/__init__.py:32-104 | the mutators reach the current event in order when there is one; otherwise they change nothing and each call, nested ones included, logs at most once |
| `Airline.ForwardsToClient` | airline/__init__.py:45-104 | each module-level mutator, `timer` included, leaves the same client as the client's method of that name |
| `Airline.Timer` | airline/__init__.py:90-104 | the block runs exactly once and its exit passes through; with a current event its mutators, nested timed blocks included, reach the event and then its elapsed milliseconds are added to the timer |
| `Airline.Done` | airline/__init__.py:107-113 | without a client, nothing happens. After it returns, no client is installed. When it raises, the client stays. It raises with no current event, and writes a payload exactly when the current event converts |
| `Airline.DoneThenInit` | airline/__init__.py:23-29 | after a successful `done`, `init` installs a fresh client with the new settings |
| `Airline.InitThenDone` | airline/__init__.py:107-113 | `init` then `done` raises for want of an event and leaves the client installed |
| `Airline.Evented` | airline/__init__.py:116-132 | without a client the function just runs and its result or exception passes through; with one it runs inside the client's `evented`, keeping the client and writing at most one payload |
| `Airline.InitEventedDone` | airline/__init__.py:107-132 | after `init` and one decorated call, `done` always raises, writes nothing and leaves the client installed |
| `Airline.Success` | airline/__init__.py:135-139 | with a current event, `status` becomes `SUCCESS`; otherwise a logged no-op |
| `Airline.Error` | airline/__init__.py:142-146 | with a current event, `status` becomes `ERROR`; otherwise a logged no-op |
| `SkylineEvent.New` | skyline/event.py:8-18 | the dataset is the client's, or `''` without one; rollups start empty; each field takes the last value given |
| `SkylineEvent.Add` | skyline/event.py:20-21 | every entry is merged in, later entries winning |
| `SkylineEvent.AddField` | skyline/event.py:23-24 | overwrite one field; all others unchanged |
| `SkylineEvent.AddRollupField` | skyline/event.py:26-27 | the rollup total grows by the amount from a start of 0 |
| `SkylineEvent.RollupName` | skyline/event.py:44-48 | the result starts with `rollup.` or `timers.` and ends with the name, gaining the `rollup.` prefix at most once |
| `SkylineEvent.RollupNameNormal` | skyline/event.py:44-48 | a name is left alone exactly when it has either prefix, so normalising is idempotent |
| `SkylineEvent.RollupNameVersusAirline` | skyline/event.py:44-48 | the two versions agree except on `timers.` names, which only the airline version prefixes again |
| `SkylineEvent.TimerName` | skyline/event.py:50-56 | the result starts with `timers.` and ends with `_ms`, and a name is left alone exactly when it already does, so it is idempotent |
| `SkylineEvent.RollupFields` | skyline/event.py:38-39 | every reported rollup key carries one of the two prefixes |
| `SkylineEvent.FieldsGet` | skyline/event.py:41-42 | `fields()` precedence: a rollup beats a plain field of the same name |
| `SkylineEvent.RollupTotalInFields` | skyline/event.py:38-42 | `fields()` reports a rollup's summed total under its normalised name when no other rollup aliases it |
| `SkylineEvent.FieldsOfNew` | skyline/event.py:8-18 | with no rollups, `fields()` is exactly the data given |
| `SkylineEvent.TimerNamedRollupExample` | skyline/event.py:44-48 | a rollup named `timers.db_ms` is reported under that very name |
| `SkylineEvent.Send` | skyline/event.py:32-36 | without a client, sending raises; with one, the payload exists exactly when the fields convert and carries the event's time and dataset, the client string, the converted fields and the owner's indent |
| `SkylineClient.Log` | skyline/client.py:80-82 | a message is printed exactly in debug mode |
| `SkylineClient.NewEvent` | skyline/client.py:58-59 | the new event carries the client's dataset and reports exactly the data given |
| `SkylineClient.Send` | skyline/client.py:61-78 | the payload exists exactly when the fields convert, with the event's dataset and time, `airline/` plus the version, the converted fields, and indent 2 exactly in debug mode |
| `SkylineClient.EventSendIsClientSend` | skyline/event.py:32-34 | `event.send()` on an event a client created writes exactly that client's `send(event)` payload |
| `SkylineClient.Done` | skyline/client.py:54-56 | raises without a current event; succeeds exactly when the event converts, then writes one payload and clears it |
| `SkylineClient.AddContextField` | skyline/client.py:15-19 | forwarded to the current event, or only logged |
| `SkylineClient.AddContext` | skyline/client.py:21-25 | forwarded to the current event, or only logged |
| `SkylineClient.AddRollupField` | skyline/client.py:27-31 | forwarded to the current event, or only logged |
| `SkylineClient.ApplyOp` | skyline/client.py:15-31 | one forwarded mutator: `add_context_field` sets that field and leaves the others, `add_context` applies update semantics, `add_rollup_field` grows that total and leaves the others, none of them touches the other namespace; a timed block leaves the event unchanged, since `Perform` stops before it and `BlockExit` raises its `AttributeError` |
| `SkylineClient.Perform` | skyline/client.py:10-31 | a block's mutators touch only the event's fields and keep its dicts duplicate-free |
| `SkylineClient.StopsAtTimer` | skyline/client.py:10-42 | the client has no `add_timer_field`, so the block ends at its first timed block: nothing after it reaches the event |
| `SkylineClient.BlockExit` | skyline/client.py:10-42 | a block containing a timed block ends with that `AttributeError`; any other block ends as it says |
| `SkylineClient.Annotate` | skyline/client.py:43-46 | `status: ERROR`, the exception's message and its class name are written; no other field changes |
| `SkylineClient.Finished` | skyline/client.py:38-51 | the sent event carries the dataset and `duration_ms`, and the three exception fields when the block raised an `Exception` (a timed block's `AttributeError` included); everything else is what the block's mutators wrote into a fresh event: the same rollups and the same value under every other field name |
| `SkylineClient.Close` | skyline/client.py:48-52 | the `finally` clause sends exactly when the event converts and then lets the pending result or exception through; otherwise the nesting error escapes |
| `SkylineClient.Evented` | skyline/client.py:33-52 | not nested: one payload when the fields convert, then no current event and the block's result or exception (a timed block's `AttributeError` included) passes through unchanged. Nested: nothing sent, `UnboundLocalError`, logged |
| `SkylineClient.FinishedDuration` | skyline/client.py:48-51 | `fields()` of the sent event reports the `duration_ms` written |
| `SkylineClient.FinishedException` | skyline/client.py:43-46 | on the error path `fields()` reports the three exception fields as written |
| `SkylineClient.FinishedErrorPayload` | skyline/client.py:43-52 | the payload has `status` at the top level and `message` and `type` under `exception` |
| `SkylineClient.EventedPayload` | skyline/client.py:33-52 | what `evented` sends has the client's dataset and `duration_ms` at the top level |
| `Skyline.Log` | skyline/__init__.py:149-151 | printed exactly when a client exists and is in debug mode |
| `Skyline.Init` | skyline/__init__.py:23-29 | creates a client only when none exists; otherwise keeps it and prints a warning |
| `Skyline.InitOnce` | skyline/__init__.py:23-29 | a repeated `init` keeps the existing client |
| `Skyline.AddContext` | skyline/__init__.py:32-42 | reaches the current event, or a logged no-op |
| `Skyline.AddContextField` | skyline/__init__.py:45-57 | with a current event the field then holds the value; otherwise a logged no-op |
| `Skyline.RemoveContextField` | skyline/__init__.py:60-73 | raises exactly when a client and an event exist; otherwise a logged no-op |
| `Skyline.AddRollupField` | skyline/__init__.py:76-87 | with a current event the rollup total grows; otherwise a logged no-op |
| `Skyline.ApplyOp` | skyline/__init__.py:32-104 | with a current event a mutator reaches it as the client's would, and a timed block raises `AttributeError` instead; without a client or event nothing changes, nothing raises, and each call logs at most once |
| `Skyline.RunOps` | skyline/__init__.py:32-104 | with a current event the mutators reach it in order up to the first timed block, and the run raises exactly when there is one; otherwise nothing changes and each call, nested ones included, logs at most once |
| `Skyline.ForwardsToClient` | skyline/__init__.py:45-104 | each module-level mutator leaves the same client as the client's method; a timed block raises and changes nothing |
| `Skyline.Timer` | skyline/__init__.py:90-104 | with a current event the missing `add_timer_field` raises before the block runs and nothing changes; otherwise the block runs once and its exit passes through |
| `Skyline.TimerNeverTimes` | skyline/__init__.py:99-104 | the state never changes, and the missing-`add_timer_field` `AttributeError` is raised exactly when an event is current |
| `Skyline.Done` | skyline/__init__.py:107-113 | after it returns, no client is installed; when the client's `done` raises, the client stays |
| `Skyline.DoneThenInit` | skyline/__init__.py:23-29 | after a successful `done`, `init` installs a fresh client |
| `Skyline.InitThenDone` | skyline/__init__.py:107-113 | `init` then `done` raises and leaves the client installed |
| `Skyline.Evented` | skyline/__init__.py:116-132 | without a client the function just runs; with one it runs inside the client's `evented` |
| `Skyline.InitEventedDone` | skyline/__init__.py:107-132 | after `init` and one decorated call, `done` always raises and leaves the client installed |
| `Skyline.Success` | skyline/__init__.py:135-139 | with a current event, `status` becomes `SUCCESS`; otherwise a logged no-op |
| `Skyline.Error` | skyline/__init__.py:142-146 | with a current event, `status` becomes `ERROR`; otherwise a logged no-op |

## Left out

- airline/awsbatch.py, skyline/awslambda.py and airline/format_exception.py are integration glue: environment variables, HTTP, retries, Lambda context and traceback extraction. They are not part of this model.
- airline/threadlocal_client.py keeps the current event per thread. The model is one thread's view: the current event is an `Option`, absent until `start`. A plain `Client` that was never started has no `_event` attribute at all. The model treats that the same as no event.
- The JSON text. The model does not cover `json.dumps`, the trailing newline, the write to stderr, `_json_default_handler` (`str`/`repr` of unknown values, `fields()` of an embedded event), or `__str__`/`__repr__`. A payload is a record, and printed lines are strings.
- `time.perf_counter` and `datetime.utcnow()` are not modelled. Clock readings and the creation timestamp are parameters. In the source, the timestamp default is evaluated once, when the module is imported. The library version comes from a `version` module that is not part of this model, so it is a parameter too.
- Numbers are `real`. The model does not distinguish Python `int` from `float`, and does not model `defaultdict(int)` versus `defaultdict(float)`.
- `dots_to_deep` walks into dict values and mutates them in place, so the caller's dict is changed. Values are immutable in the model.
- `Flatten.DotsToDeep`: every failure is `None`. The model does not distinguish `RuntimeError` from the `TypeError` raised when a non-dict sits two or more levels above a key, and it does not model the error message text.
- `AirlineEvent.TimerFields`: the totals are not rounded with `round(…, 3)`, because rounding binary floats is not modelled.
- `AirlineClient.Finished`: `duration_ms` is not rounded with `round(…, 3)`, for the same reason.
- `SkylineClient.Finished`: `duration_ms` is not rounded with `round(…, 3)`, for the same reason.
- `Airline.Init`: only the fixed start of the warning is modelled. The `%s`/`%r` rendering of the client and the dataset is not.
- `Skyline.Init`: only the fixed start of the warning is modelled, as for `Airline.Init`; the `%s`/`%r` rendering is not.
- `Airline.Log`: the `message % args` formatting is not modelled, because the library never passes arguments.
- `Skyline.Log`: the `message % args` formatting is not modelled, for the same reason.
- `AirlineClient.Log`: the `message % args` formatting is not modelled, for the same reason.
- `SkylineClient.Log`: the `message % args` formatting is not modelled, for the same reason.
- The `AttributeError` of a missing method has two forms in the model. Raised directly by the library, it is `MissingAttribute(name)`. Raised inside a block of user code and recorded by the skyline `evented`, it is the exception `Wire.MissingMethod(name)` that ends the block, carried as `Thrown`, because `evented` writes its class name and message into the event. The message of that exception is the method's name alone. Python's text also names the class (`'Client' object has no attribute 'add_timer_field'`), and the skyline `evented` writes that text into `exception.message`.
- Order independence of `dots_to_deep` is proved only for non-dict values, because with dict values it does not hold (see above).

=== FILE: client.dfy ===
/** The client of airline/client.py as one thread sees it through
    `ThreadLocalClient`: the settings it was built with and the thread's current
    event, which is absent until `start` installs one and again after `done`. */
module AirlineClient {
  import opened Wrappers
  import opened Dict
  import opened Json
  import opened Wire
  import opened AirlineEvent

  datatype Client = Client(config: Config, current: Option<Event>)

  const NoEventFound := "No event found"
  const EventAlreadyCreated := "Event already created"

  /** `log(message)`: printed only when the client is in debug mode. */
  function Log(c: Client, message: string): (printed: seq<string>)
    ensures printed == [] || printed == [message]
    ensures printed != [] <==> c.config.debug
  {
    if c.config.debug then [message] else []
  }

  /** `new_event(data)`: an event owned by this client. */
  function NewEvent(c: Client, data: Dict<Value>, createdAt: Timestamp): (e: Event)
    ensures e.dataset == c.config.dataset && e.owner == Some(c.config)
    ensures e.rollups == [] && e.timers == []
    ensures NoDupKeys(data) ==> Fields(e) == data
  {
    var e := New(data, createdAt, Some(c.config));
    assert NoDupKeys(data) ==> Fields(e) == data by {
      if NoDupKeys(data) { FieldsOfNew(data, createdAt, Some(c.config)); }
    }
    e
  }

  /** `start(event=None)`: install the given event, or a fresh empty one, as the
      current event and return it.  An event that was current before is dropped
      without being sent. */
  function Start(c: Client, given: Option<Event>, createdAt: Timestamp): (r: (Client, Event))
    ensures r.0.config == c.config && r.0.current == Some(r.1)
    ensures given.Some? ==> r.1 == given.value
    ensures given.None? ==> r.1.dataset == c.config.dataset && r.1.owner == Some(c.config) && Fields(r.1) == []
  {
    var e := if given.Some? then given.value else NewEvent(c, [], createdAt);
    (c.(current := Some(e)), e)
  }

  /** `send(ev)` up to the `print`: the payload of `ev`, formatted with this
      client's debug setting. */
  function Send(c: Client, e: Event, version: string): (r: Result<Payload, Error>)
    ensures r.Success? <==> Flatten.DotsToDeep(Fields(e)).Some?
    ensures r.Success? ==> r.value.dataset == e.dataset && r.value.time == EventTime(e.createdAt)
    ensures r.Success? ==> (r.value.indent == Some(2) <==> c.config.debug)
    ensures r.Success? ==> r.value.client == ClientPrefix + version
    ensures r.Success? ==> Some(r.value.data) == Flatten.DotsToDeep(Fields(e))
  {
    BuildPayload(e.createdAt, e.dataset, Fields(e), c.config.debug, version)
  }

  /** `done()`: send the current event, then forget it.  Without a current event
      `send(None)` raises; when the fields collide `send` raises before the event
      is forgotten, so it stays current. */
  function Done(c: Client, version: string): (r: Step<Client, ()>)
    ensures r.printed == []
    ensures r.state.config == c.config
    ensures c.current.None? ==> r == Step(c, [], [], Raised(NoCurrentEvent))
    ensures r.outcome.Returned? <==> c.current.Some? && Send(c, c.current.value, version).Success?
    ensures r.outcome.Returned? ==>
      r.state.current.None? && r.emitted == [Send(c, c.current.value, version).value]
    ensures r.outcome.Raised? ==> r.state == c && r.emitted == []
  {
    match c.current
    case None => Step(c, [], [], Raised(NoCurrentEvent))
    case Some(e) =>
      match Send(c, e, version)
      case Failure(err) => Step(c, [], [], Raised(err))
      case Success(p) => Step(c.(current := None), [p], [], Returned(()))
  }

  /** What one mutator does to the current event.  A timed block runs its own
      mutators, then adds its elapsed milliseconds to the timer `name` and
      touches nothing else. */
  function ApplyOp(e: Event, op: Op): (r: Event)
    ensures r.dataset == e.dataset && r.createdAt == e.createdAt && r.owner == e.owner
    ensures WellFormed(e) ==> WellFormed(r)
    ensures !op.Time? ==> r.timers == e.timers
    ensures op.SetField? ==> r.rollups == e.rollups && Get(r.data, op.name) == Some(op.value)
    ensures op.SetField? ==> forall k :: k != op.name ==> Get(r.data, k) == Get(e.data, k)
    ensures op.Merge? ==> r.rollups == e.rollups
    ensures op.Merge? ==>
      forall k :: Get(r.data, k) == if HasKey(op.data, k) then Last(op.data, k) else Get(e.data, k)
    ensures op.Rollup? ==> r.data == e.data
    ensures op.Rollup? ==>
      AirlineEvent.Total(r.rollups, op.name) == AirlineEvent.Total(e.rollups, op.name) + op.amount
    ensures op.Rollup? ==> forall k :: k != op.name ==> Get(r.rollups, k) == Get(e.rollups, k)
    ensures op.Time? ==> r == Perform(e, op.ops).(timers := r.timers)
    ensures op.Time? ==>
      Total(r.timers, op.name) == Total(Perform(e, op.ops).timers, op.name) + (op.stop - op.start) * 1000.0
    ensures op.Time? ==> forall k :: k != op.name ==> Get(r.timers, k) == Get(Perform(e, op.ops).timers, k)
    decreases op
  {
    match op
    case SetField(n, v) => AddField(e, n, v)
    case Merge(d) => Add(e, d)
    case Rollup(n, x) => AirlineEvent.AddRollupField(e, n, x)
    case Time(n, start, stop, inner) => AirlineEvent.AddTimerField(Perform(e, inner), n, start, stop, Completed(Null)).0
  }

  /** The mutators of a block applied to an event in order.  Only timed blocks
      reach the timers. */
  function Perform(e: Event, ops: seq<Op>): (r: Event)
    ensures r.dataset == e.dataset && r.createdAt == e.createdAt && r.owner == e.owner
    ensures WellFormed(e) ==> WellFormed(r)
    ensures !OpensTimer(ops) ==> r.timers == e.timers
    decreases ops
  {
    if |ops| == 0 then e
    else
      OpensTimerCons(ops);
      Perform(ApplyOp(e, ops[0]), ops[1..])
  }

  /** Running two blocks one after the other is running their concatenation. */
  lemma {:induction false} PerformAppend(e: Event, a: seq<Op>, b: seq<Op>)
    ensures Perform(e, a + b) == Perform(Perform(e, a), b)
    decreases a
  {
    if |a| == 0 {
      assert a + b == b;
    } else {
      assert (a + b)[0] == a[0];
      assert (a + b)[1..] == a[1..] + b;
      PerformAppend(ApplyOp(e, a[0]), a[1..], b);
    }
  }

  /** The lines a block's mutators print when there is no current event: every
      call, a timed block's own included, logs "No event found". */
  function Idle(c: Client, ops: seq<Op>): (printed: seq<string>)
    ensures |printed| == if c.config.debug then Calls(ops) else 0
    ensures forall i :: 0 <= i < |printed| ==> printed[i] == NoEventFound
    decreases ops
  {
    if |ops| == 0 then []
    else
      var own := Log(c, NoEventFound) + (if ops[0].Time? then Idle(c, ops[0].ops) else []);
      own + Idle(c, ops[1..])
  }

  /** `add_context_field(name, value)`: forwarded to the current event, or only
      logged when there is none. */
  function AddContextField(c: Client, name: string, value: Value): (r: Step<Client, ()>)
    ensures r.emitted == [] && r.outcome == Returned(()) && r.state.config == c.config
    ensures c.current.Some? ==> r.printed == [] && r.state.current == Some(AddField(c.current.value, name, value))
    ensures c.current.None? ==> r.state == c && r.printed == Log(c, NoEventFound)
  {
    match c.current
    case Some(e) => Step(c.(current := Some(AddField(e, name, value))), [], [], Returned(()))
    case None => Step(c, [], Log(c, NoEventFound), Returned(()))
  }

  /** `add_context(data)`. */
  function AddContext(c: Client, data: Dict<Value>): (r: Step<Client, ()>)
    ensures r.emitted == [] && r.outcome == Returned(()) && r.state.config == c.config
    ensures c.current.Some? ==> r.printed == [] && r.state.current == Some(Add(c.current.value, data))
    ensures c.current.None? ==> r.state == c && r.printed == Log(c, NoEventFound)
  {
    match c.current
    case Some(e) => Step(c.(current := Some(Add(e, data))), [], [], Returned(()))
    case None => Step(c, [], Log(c, NoEventFound), Returned(()))
  }

  /** `add_rollup_field(name, value)`. */
  function AddRollupField(c: Client, name: string, amount: real): (r: Step<Client, ()>)
    ensures r.emitted == [] && r.outcome == Returned(()) && r.state.config == c.config
    ensures c.current.Some? ==> r.printed == [] && r.state.current == Some(AirlineEvent.AddRollupField(c.current.value, name, amount))
    ensures c.current.None? ==> r.state == c && r.printed == Log(c, NoEventFound)
  {
    match c.current
    case Some(e) => Step(c.(current := Some(AirlineEvent.AddRollupField(e, name, amount))), [], [], Returned(()))
    case None => Step(c, [], Log(c, NoEventFound), Returned(()))
  }

  /** `with add_timer_field(name): <block>`: the block runs once and its exit
      passes through.  With a current event its mutators reach the event and its
      elapsed time is added to the timer `name`; without one, the call and every
      mutator of the block only log. */
  function AddTimerField(c: Client, name: string, start: real, stop: real, body: Body): (r: Step<Client, Value>)
    ensures r.emitted == [] && r.outcome == Propagate(body.exit) && r.state.config == c.config
    ensures c.current.Some? ==> r.printed == [] && r.state.current.Some?
    ensures c.current.Some? ==>
      var worked := Perform(c.current.value, body.ops);
      && r.state.current.value == worked.(timers := r.state.current.value.timers)
      && Total(r.state.current.value.timers, name) == Total(worked.timers, name) + (stop - start) * 1000.0
      && forall k :: k != name ==> Get(r.state.current.value.timers, k) == Get(worked.timers, k)
    ensures c.current.None? ==> r.state == c && r.printed == Log(c, NoEventFound) + Idle(c, body.ops)
  {
    match c.current
    case Some(e) =>
      var (e', o) := AirlineEvent.AddTimerField(Perform(e, body.ops), name, start, stop, body.exit);
      Step(c.(current := Some(e')), [], [], o)
    case None => Step(c, [], Log(c, NoEventFound) + Idle(c, body.ops), Propagate(body.exit))
  }

  /** `attach_exception(err)`: the event class has no such method, so with a
      current event the call raises. */
  function AttachException(c: Client): (r: Step<Client, ()>)
    ensures r.state == c && r.emitted == []
    ensures c.current.Some? <==> r.outcome == Raised(MissingAttribute("attach_exception"))
    ensures c.current.None? ==> r.printed == Log(c, NoEventFound) && r.outcome == Returned(())
  {
    if c.current.Some? then Step(c, [], [], Raised(MissingAttribute("attach_exception")))
    else Step(c, [], Log(c, NoEventFound), Returned(()))
  }

  /** The event `evented` hands to `done` when it created the event itself: the
      block's mutators applied, `status` set to "ERROR" when the block raised an
      `Exception`, and the elapsed milliseconds (unrounded) as `duration_ms`. */
  function Finished(c: Client, body: Body, createdAt: Timestamp, start: real, stop: real): (e: Event)
    ensures e.dataset == c.config.dataset && e.owner == Some(c.config)
    ensures Get(e.data, "duration_ms") == Some(Num((stop - start) * 1000.0))
    ensures body.exit.Threw? && body.exit.exc.isException ==> Get(e.data, "status") == Some(Str("ERROR"))
    ensures var w := Perform(NewEvent(c, [], createdAt), body.ops);
      && e.rollups == w.rollups && e.timers == w.timers
      && (forall k :: k != "duration_ms" && k != "status" ==> Get(e.data, k) == Get(w.data, k))
      && (!(body.exit.Threw? && body.exit.exc.isException) ==> Get(e.data, "status") == Get(w.data, "status"))
  {
    var worked := Perform(NewEvent(c, [], createdAt), body.ops);
    var annotated :=
      if body.exit.Threw? && body.exit.exc.isException then AirlineEvent.AddField(worked, "status", Str("ERROR"))
      else worked;
    AirlineEvent.AddField(annotated, "duration_ms", Num((stop - start) * 1000.0))
  }

  /** The `finally` clause of `evented` when it opened the event itself: `done()`
      on the annotated event.  The exception pending from the block (or its
      result) survives unless `done` raises. */
  function Close(c: Client, sent: Event, pending: Outcome<Value>, version: string): (r: Step<Client, Value>)
    ensures r.printed == [] && r.state.config == c.config
    ensures r.emitted != [] <==> Send(c, sent, version).Success?
    ensures r.emitted != [] ==> r.emitted == [Send(c, sent, version).value]
    ensures r.emitted != [] ==> r.state.current.None? && r.outcome == pending
    ensures r.emitted == [] ==> r.outcome == Raised(NestingCollision) && r.state.current == Some(sent)
  {
    var d := Done(c.(current := Some(sent)), version);
    Step(d.state, d.emitted, [], if d.outcome.Raised? then Raised(d.outcome.error) else pending)
  }

  /** The error `evented` has pending after its `except` clause, before `finally`. */
  function Pending(exit: Exit): (o: Outcome<Value>)
    ensures exit.Completed? ==> o == Returned(exit.result)
    ensures exit.Threw? && exit.exc.isException ==> o == Raised(MissingAttribute("attach_exception"))
    ensures exit.Threw? && !exit.exc.isException ==> o == Raised(Thrown(exit.exc))
  {
    match exit
    case Completed(v) => Returned(v)
    case Threw(x) => if x.isException then Raised(MissingAttribute("attach_exception")) else Raised(Thrown(x))
  }

  /** `with client.evented(): <block>`, the clock read as `start` after the event is
      opened and `stop` in the `finally`.  The outcome carries the block's result so
      that the module-level decorator can return it.

      Entered with no current event, it opens one, runs the block, and whatever
      happens sends exactly the `Finished` event once (if its fields convert).  On
      the error path the `except` clause sets `status`, then calls the missing
      `attach_exception`, so the caller sees that `AttributeError` rather than the
      block's exception; an exception raised by `done` replaces either.

      Entered with an event already current, the local `event` is never bound: the
      `finally` clause raises `UnboundLocalError` before it can send anything. */
  function Evented(c: Client, body: Body, createdAt: Timestamp, start: real, stop: real, version: string)
    : (r: Step<Client, Value>)
    ensures r.state.config == c.config
    ensures c.current.Some? ==>
      && r.outcome == Raised(UnboundEvent) && r.emitted == []
      && r.state.current == Some(Perform(c.current.value, body.ops))
      && r.printed == Log(c, EventAlreadyCreated)
    ensures c.current.None? ==>
      var sent := Finished(c, body, createdAt, start, stop);
      && r.printed == []
      && (r.emitted != [] <==> Send(c, sent, version).Success?)
      && (r.emitted != [] ==> r.emitted == [Send(c, sent, version).value] && r.state.current.None?)
      && (r.emitted != [] && body.exit.Completed? ==> r.outcome == Returned(body.exit.result))
      && (r.emitted != [] && body.exit.Threw? && !body.exit.exc.isException ==> r.outcome == Raised(Thrown(body.exit.exc)))
      && (body.exit.Threw? && body.exit.exc.isException ==> r.outcome.Raised? && r.outcome.error != Thrown(body.exit.exc))
      && (r.emitted != [] && body.exit.Threw? && body.exit.exc.isException ==>
            r.outcome == Raised(MissingAttribute("attach_exception")))
  {
    if c.current.Some? then
      Step(c.(current := Some(Perform(c.current.value, body.ops))), [], Log(c, EventAlreadyCreated), Raised(UnboundEvent))
    else
      Close(c, Finished(c, body, createdAt, start, stop), Pending(body.exit), version)
  }

  /** `start()` then `done()` writes exactly one payload, for an empty event of the
      client's dataset, and leaves no current event. */
  lemma StartThenDone(c: Client, createdAt: Timestamp, version: string)
    ensures var r := Done(Start(c, None, createdAt).0, version);
      && r.outcome == Returned(())
      && r.state == c.(current := None)
      && r.emitted == [Payload(EventTime(createdAt), c.config.dataset, ClientPrefix + version, map[],
                               if c.config.debug then Some(2) else None)]
  {
    var e := Start(c, None, createdAt).1;
    assert Fields(e) == [];
    assert Flatten.DotsToDeep([]) == Some(map[]);
  }

  /** A plain field named `name` that neither a rollup nor a timer can shadow is
      reported by `fields()` with its plain value. */
  lemma PlainFieldReported(e: Event, name: string)
    requires !StartsWithEither(name)
    ensures Get(Fields(e), name) == Get(e.data, name)
  {
    FieldsGet(e, name);
  }

  predicate StartsWithEither(name: string) {
    Strings.StartsWith(name, RollupPrefix) || Strings.StartsWith(name, TimerPrefix)
  }

  /** The event `evented` sends reports `duration_ms`, and `status` on the error
      path, with the values it wrote: no rollup or timer name can shadow them. */
  lemma FinishedFields(c: Client, body: Body, createdAt: Timestamp, start: real, stop: real)
    ensures var sent := Finished(c, body, createdAt, start, stop);
      && Get(Fields(sent), "duration_ms") == Some(Num((stop - start) * 1000.0))
      && (body.exit.Threw? && body.exit.exc.isException ==> Get(Fields(sent), "status") == Some(Str("ERROR")))
  {
    ReportsPlain(Finished(c, body, createdAt, start, stop));
  }

  /** `duration_ms` and `status` are names no rollup or timer can take. */
  lemma ReportsPlain(e: Event)
    ensures Get(Fields(e), "duration_ms") == Get(e.data, "duration_ms")
    ensures Get(Fields(e), "status") == Get(e.data, "status")
  {
    Strings.DiffersAt("duration_ms", RollupPrefix, 0);
    Strings.DiffersAt("duration_ms", TimerPrefix, 0);
    Strings.DiffersAt("status", RollupPrefix, 1);
    Strings.DiffersAt("status", TimerPrefix, 0);
    PlainFieldReported(e, "duration_ms");
    PlainFieldReported(e, "status");
  }

  /** A sent payload has each dot-free, non-dict field at the top level of `data`. */
  lemma SentField(c: Client, e: Event, version: string, name: string)
    requires Send(c, e, version).Success?
    requires Strings.NoDot(name) && Get(Fields(e), name).Some? && IsLeaf(Get(Fields(e), name).value)
    ensures Json.Lookup(Obj(Send(c, e, version).value.data), [name]) == Get(Fields(e), name)
  {
    TopLevelField(Fields(e), Send(c, e, version).value.data, name);
  }

  /** The payload of the event `evented` sends, when its fields convert: the
      client's dataset and the measured `duration_ms`... */
  lemma FinishedPayload(c: Client, body: Body, createdAt: Timestamp, start: real, stop: real, version: string)
    ensures var r := Send(c, Finished(c, body, createdAt, start, stop), version);
      r.Success? ==>
        && r.value.dataset == c.config.dataset
        && Json.Lookup(Obj(r.value.data), ["duration_ms"]) == Some(Num((stop - start) * 1000.0))
  {
    if Send(c, Finished(c, body, createdAt, start, stop), version).Success? {
      FinishedFields(c, body, createdAt, start, stop);
      SentPlain(c, Finished(c, body, createdAt, start, stop), version, "duration_ms", Num((stop - start) * 1000.0));
    }
  }

  /** ...and, when the block raised an `Exception`, `status: "ERROR"`. */
  lemma FinishedErrorPayload(c: Client, body: Body, createdAt: Timestamp, start: real, stop: real, version: string)
    requires body.exit.Threw? && body.exit.exc.isException
    ensures var r := Send(c, Finished(c, body, createdAt, start, stop), version);
      r.Success? ==> Json.Lookup(Obj(r.value.data), ["status"]) == Some(Str("ERROR"))
  {
    if Send(c, Finished(c, body, createdAt, start, stop), version).Success? {
      FinishedFields(c, body, createdAt, start, stop);
      SentPlain(c, Finished(c, body, createdAt, start, stop), version, "status", Str("ERROR"));
    }
  }

  /** `duration_ms` and `status` reach the top level of any payload whose event
      reports them. */
  lemma SentPlain(c: Client, e: Event, version: string, name: string, v: Value)
    requires name == "duration_ms" || name == "status"
    requires Send(c, e, version).Success? && Get(Fields(e), name) == Some(v) && IsLeaf(v)
    ensures Json.Lookup(Obj(Send(c, e, version).value.data), [name]) == Some(v)
  {
    PlainNames();
    SentField(c, e, version, name);
  }

  lemma PlainNames()
    ensures Strings.NoDot("duration_ms") && Strings.NoDot("status")
  {
  }

  /** What `evented` sends when it opened the event itself: the client's dataset,
      `duration_ms` at the top level of `data`, and on the error path
      `status: "ERROR"` as well. */
  lemma EventedPayload(c: Client, body: Body, createdAt: Timestamp, start: real, stop: real, version: string)
    requires c.current.None?
    ensures var r := Evented(c, body, createdAt, start, stop, version);
      r.emitted != [] ==>
        && r.emitted[0].dataset == c.config.dataset
        && Json.Lookup(Obj(r.emitted[0].data), ["duration_ms"]) == Some(Num((stop - start) * 1000.0))
        && (body.exit.Threw? && body.exit.exc.isException ==>
              Json.Lookup(Obj(r.emitted[0].data), ["status"]) == Some(Str("ERROR")))
  {
    FinishedPayload(c, body, createdAt, start, stop, version);
    if body.exit.Threw? && body.exit.exc.isException {
      FinishedErrorPayload(c, body, createdAt, start, stop, version);
    }
  }

  /** `event.send()` on an event this client created writes exactly the payload
      of the client's own `send(event)`. */
  lemma EventSendIsClientSend(c: Client, e: Event, version: string)
    requires e.owner == Some(c.config)
    ensures AirlineEvent.Send(e, version) == Send(c, e, version)
  {
  }

  /** A dot-free field whose value is not a dict sits at the top level of the
      converted data. */
  lemma TopLevelField(fields: Dict<Value>, data: Flatten.Tree, name: string)
    requires Strings.NoDot(name) && Get(fields, name).Some? && IsLeaf(Get(fields, name).value)
    requires forall i :: 0 <= i < |fields| ==> Flatten.Found(data, Strings.Split(fields[i].0), fields[i].1)
    ensures Json.Lookup(Obj(data), [name]) == Get(fields, name)
  {
    var v := Get(fields, name).value;
    var i :| 0 <= i < |fields| && fields[i] == (name, v);
    Strings.SplitSingle(name);
    assert Flatten.Found(data, Strings.Split(fields[i].0), fields[i].1);
  }
}

=== FILE: dict.dfy ===
/** Python dicts as the logger uses them: insertion-ordered association lists with
    unique keys.  Order matters to the model because `dots_to_deep` walks a dict in
    insertion order and its outcome can depend on that order. */
module Dict {
  import opened Wrappers

  type Dict<V> = seq<(string, V)>

  predicate HasKey<V>(d: Dict<V>, k: string) {
    exists i :: 0 <= i < |d| && d[i].0 == k
  }

  /** The keys of a dict in insertion order: what iterating over it yields. */
  function Keys<V>(d: Dict<V>): seq<string> {
    seq(|d|, i requires 0 <= i < |d| => d[i].0)
  }

  /** The set of keys of a dict. */
  function KeySet<V>(d: Dict<V>): set<string> {
    set x | x in Keys(d)
  }

  /** The keys of `e` outside `seen`, each once, in the order they first occur in
      `e`: the keys that writing `e` into a dict with keys `seen` adds at its end. */
  function FreshKeys<V>(seen: set<string>, e: Dict<V>): seq<string>
    decreases |e|
  {
    if |e| == 0 then []
    else if e[0].0 in seen then FreshKeys(seen, e[1..])
    else [e[0].0] + FreshKeys(seen + {e[0].0}, e[1..])
  }

  lemma KeySetHasKey<V>(d: Dict<V>, k: string)
    ensures k in KeySet(d) <==> HasKey(d, k)
  {
    if HasKey(d, k) {
      var i :| 0 <= i < |d| && d[i].0 == k;
      assert Keys(d)[i] == k;
    }
    if k in KeySet(d) {
      var i :| 0 <= i < |d| && Keys(d)[i] == k;
    }
  }

  /** The invariant every Python dict keeps: no key appears twice. */
  predicate NoDupKeys<V>(d: Dict<V>) {
    forall i, j :: 0 <= i < j < |d| ==> d[i].0 != d[j].0
  }

  /** `d.get(k)`: the value stored under `k`, if any. */
  function Get<V>(d: Dict<V>, k: string): (r: Option<V>)
    ensures r.Some? <==> HasKey(d, k)
    ensures r.Some? ==> (k, r.value) in d
  {
    if |d| == 0 then None
    else if d[0].0 == k then Some(d[0].1)
    else
      HasKeyCons(d, k);
      Get(d[1..], k)
  }

  /** `d[k] = v`: an existing key keeps its place and takes the new value, a new key
      goes to the end. */
  function Set<V>(d: Dict<V>, k: string, v: V): (r: Dict<V>)
    ensures Get(r, k) == Some(v)
    ensures forall k' :: k' != k ==> Get(r, k') == Get(d, k')
    ensures !HasKey(d, k) ==> r == d + [(k, v)]
    ensures HasKey(d, k) ==> Keys(r) == Keys(d)
  {
    if |d| == 0 then [(k, v)]
    else if d[0].0 == k then
      var r := [(k, v)] + d[1..];
      assert r[1..] == d[1..];
      SameKeys(r, d);
      r
    else
      var tail := Set(d[1..], k, v);
      var r := [d[0]] + tail;
      assert r[1..] == tail;
      HasKeyCons(d, k);
      if HasKey(d, k) then
        SetKeysInPlace(d, tail);
        r
      else r
  }

  /** Writing an existing key leaves every key where it was. */
  lemma SetKeepsPlace<V>(d: Dict<V>, k: string, v: V)
    requires HasKey(d, k)
    ensures |Set(d, k, v)| == |d|
    ensures forall i :: 0 <= i < |d| ==> Set(d, k, v)[i].0 == d[i].0
  {
    var r := Set(d, k, v);
    assert |Keys(r)| == |r| && |Keys(d)| == |d|;
    forall i | 0 <= i < |d| ensures r[i].0 == d[i].0 {
      assert Keys(r)[i] == Keys(d)[i];
    }
  }

  /** Putting the first entry back in front of a tail with the same keys gives a
      dict with the same keys. */
  lemma SetKeysInPlace<V>(d: Dict<V>, tail: Dict<V>)
    requires |d| > 0 && Keys(tail) == Keys(d[1..])
    ensures Keys([d[0]] + tail) == Keys(d)
  {
    var r := [d[0]] + tail;
    assert |tail| == |Keys(tail)|;
    forall i | 0 < i < |d| ensures r[i].0 == d[i].0 {
      assert r[i] == tail[i - 1] && d[1..][i - 1] == d[i];
      assert Keys(tail)[i - 1] == Keys(d[1..])[i - 1];
    }
    SameKeys(r, d);
  }

  /** The value of the LAST entry for `k`: what a dict built from `e` in order keeps. */
  function Last<V>(e: Dict<V>, k: string): (r: Option<V>)
    ensures r.Some? <==> HasKey(e, k)
    ensures r.Some? ==> (k, r.value) in e
  {
    if |e| == 0 then None
    else
      var r := Last(e[1..], k);
      HasKeyCons(e, k);
      if r.Some? then r
      else if e[0].0 == k then Some(e[0].1)
      else None
  }

  /** `d.update(e)`: every entry of `e` written into `d` in order, later ones winning;
      the keys of `d` keep their places and the new keys follow in order. */
  function Update<V>(d: Dict<V>, e: Dict<V>): (r: Dict<V>)
    ensures forall k :: Get(r, k) == if HasKey(e, k) then Last(e, k) else Get(d, k)
    ensures Keys(r) == Keys(d) + FreshKeys(KeySet(d), e)
    decreases |e|
  {
    if |e| == 0 then d
    else
      var d' := Set(d, e[0].0, e[0].1);
      SetKeysStep(d, e);
      var r := Update(d', e[1..]);
      assert forall k :: HasKey(e, k) <==> (e[0].0 == k || HasKey(e[1..], k)) by {
        forall k ensures HasKey(e, k) <==> (e[0].0 == k || HasKey(e[1..], k)) {
          HasKeyCons(e, k);
        }
      }
      r
  }

  /** One write of `d.update(e)` moves the first key of `e` from the fresh keys
      to the keys of the dict. */
  lemma SetKeysStep<V>(d: Dict<V>, e: Dict<V>)
    requires |e| > 0
    ensures var d' := Set(d, e[0].0, e[0].1);
      Keys(d) + FreshKeys(KeySet(d), e) == Keys(d') + FreshKeys(KeySet(d'), e[1..])
  {
    var k := e[0].0;
    KeySetHasKey(d, k);
    if !HasKey(d, k) {
      var d' := d + [e[0]];
      assert Keys(d') == Keys(d) + [k];
      assert KeySet(d') == KeySet(d) + {k};
      FreshStepKeys(Keys(d), KeySet(d), e);
    }
  }

  lemma SameKeys<V>(a: Dict<V>, b: Dict<V>)
    requires |a| == |b| && forall i :: 0 <= i < |a| ==> a[i].0 == b[i].0
    ensures Keys(a) == Keys(b) && KeySet(a) == KeySet(b)
  {
  }

  lemma FreshStepKeys<V>(ks: seq<string>, seen: set<string>, e: Dict<V>)
    requires |e| > 0 && e[0].0 !in seen
    ensures ks + FreshKeys(seen, e) == (ks + [e[0].0]) + FreshKeys(seen + {e[0].0}, e[1..])
  {
    var k, rest := e[0].0, FreshKeys(seen + {e[0].0}, e[1..]);
    assert FreshKeys(seen, e) == [k] + rest;
    assert ks + ([k] + rest) == (ks + [k]) + rest;
  }

  /** The dict as a mathematical map (order forgotten). */
  function ToMap<V>(d: Dict<V>): (m: map<string, V>)
    ensures forall k :: k in m <==> HasKey(d, k)
    ensures forall k :: k in m ==> Get(d, k) == Some(m[k])
  {
    if |d| == 0 then map[]
    else
      var m := ToMap(d[1..])[d[0].0 := d[0].1];
      assert forall k :: HasKey(d, k) <==> (d[0].0 == k || HasKey(d[1..], k)) by {
        forall k ensures HasKey(d, k) <==> (d[0].0 == k || HasKey(d[1..], k)) {
          HasKeyCons(d, k);
        }
      }
      m
  }

  /** Each key of `d` renamed by `f`; the result may repeat keys. */
  function MapKeys<V>(d: Dict<V>, f: string -> string): (r: Dict<V>)
    ensures |r| == |d|
    ensures forall i :: 0 <= i < |d| ==> r[i] == (f(d[i].0), d[i].1)
  {
    if |d| == 0 then [] else [(f(d[0].0), d[0].1)] + MapKeys(d[1..], f)
  }

  lemma HasKeyCons<V>(d: Dict<V>, k: string)
    requires |d| > 0
    ensures HasKey(d, k) <==> (d[0].0 == k || HasKey(d[1..], k))
  {
    if HasKey(d, k) && d[0].0 != k {
      var i :| 0 <= i < |d| && d[i].0 == k;
      assert d[1..][i - 1].0 == k;
    }
    if HasKey(d[1..], k) {
      var i :| 0 <= i < |d[1..]| && d[1..][i].0 == k;
      assert d[i + 1].0 == k;
    }
  }

  lemma NoDupTail<V>(d: Dict<V>)
    requires |d| > 0 && NoDupKeys(d)
    ensures NoDupKeys(d[1..])
    ensures !HasKey(d[1..], d[0].0)
  {
    forall i, j | 0 <= i < j < |d[1..]| ensures d[1..][i].0 != d[1..][j].0 {
      assert d[1..][i] == d[i + 1] && d[1..][j] == d[j + 1];
    }
    forall i | 0 <= i < |d[1..]| ensures d[1..][i].0 != d[0].0 {
      assert d[1..][i] == d[i + 1];
    }
  }

  /** Writing into a dict keeps its keys unique. */
  lemma {:induction false} SetNoDup<V>(d: Dict<V>, k: string, v: V)
    requires NoDupKeys(d)
    ensures NoDupKeys(Set(d, k, v))
  {
    if |d| > 0 {
      var r := Set(d, k, v);
      NoDupTail(d);
      if d[0].0 == k {
        assert r == [(k, v)] + d[1..];
        forall i, j | 0 <= i < j < |r| ensures r[i].0 != r[j].0 {
          assert r[j] == d[j];
        }
      } else {
        SetNoDup(d[1..], k, v);
        var tail := Set(d[1..], k, v);
        assert r == [d[0]] + tail;
        assert Get(tail, d[0].0) == Get(d[1..], d[0].0);
        assert !HasKey(tail, d[0].0);
        forall j | 0 < j < |r| ensures r[0].0 != r[j].0 {
          assert r[j] == tail[j - 1];
        }
      }
    }
  }

  lemma SetKeepsNoDup<V>(d: Dict<V>, k: string, v: V)
    ensures NoDupKeys(d) ==> NoDupKeys(Set(d, k, v))
  {
    if NoDupKeys(d) {
      SetNoDup(d, k, v);
    }
  }

  lemma UpdateKeepsNoDup<V>(d: Dict<V>, e: Dict<V>)
    ensures NoDupKeys(d) ==> NoDupKeys(Update(d, e))
  {
    if NoDupKeys(d) {
      UpdateNoDup(d, e);
    }
  }

  /** Updating a dict keeps its keys unique. */
  lemma {:induction false} UpdateNoDup<V>(d: Dict<V>, e: Dict<V>)
    requires NoDupKeys(d)
    ensures NoDupKeys(Update(d, e))
    decreases |e|
  {
    if |e| > 0 {
      SetNoDup(d, e[0].0, e[0].1);
      UpdateNoDup(Set(d, e[0].0, e[0].1), e[1..]);
    }
  }

  /** In a dict without repeated keys the last entry for a key is the only one. */
  lemma {:induction false} LastIsGet<V>(e: Dict<V>, k: string)
    requires NoDupKeys(e)
    ensures Last(e, k) == Get(e, k)
  {
    if |e| > 0 {
      NoDupTail(e);
      LastIsGet(e[1..], k);
    }
  }

  /** Writing a key twice is the same as writing only the second value. */
  lemma {:induction false} SetTwice<V>(d: Dict<V>, k: string, v1: V, v2: V)
    ensures Set(Set(d, k, v1), k, v2) == Set(d, k, v2)
  {
    if |d| > 0 && d[0].0 != k {
      SetTwice(d[1..], k, v1, v2);
      assert Set(d, k, v1)[1..] == Set(d[1..], k, v1);
    }
  }

  /** Updating with entries whose keys are all new appends them in order; in
      particular building a dict from a duplicate-free `e` gives back `e`. */
  lemma {:induction false} UpdateFresh<V>(d: Dict<V>, e: Dict<V>)
    requires NoDupKeys(e)
    requires forall k :: HasKey(e, k) ==> !HasKey(d, k)
    ensures Update(d, e) == d + e
    decreases |e|
  {
    if |e| > 0 {
      FreshStep(d, e);
      UpdateFresh(d + [e[0]], e[1..]);
      AppendHead(d, e);
    }
  }

  lemma AppendHead<V>(d: Dict<V>, e: Dict<V>)
    requires |e| > 0
    ensures (d + [e[0]]) + e[1..] == d + e
  {
    assert e == [e[0]] + e[1..];
  }

  lemma FreshStep<V>(d: Dict<V>, e: Dict<V>)
    requires |e| > 0 && NoDupKeys(e)
    requires forall k :: HasKey(e, k) ==> !HasKey(d, k)
    ensures Update(d, e) == Update(d + [e[0]], e[1..])
    ensures NoDupKeys(e[1..])
    ensures forall k :: HasKey(e[1..], k) ==> !HasKey(d + [e[0]], k)
  {
    HasKeyCons(e, e[0].0);
    assert Set(d, e[0].0, e[0].1) == d + [e[0]];
    NoDupTail(e);
    forall k | HasKey(e[1..], k) ensures !HasKey(d + [e[0]], k) {
      HasKeyCons(e, k);
      AppendFresh(d, e[0], k);
    }
  }

  lemma AppendFresh<V>(d: Dict<V>, entry: (string, V), x: string)
    requires !HasKey(d, x) && entry.0 != x
    ensures !HasKey(d + [entry], x)
  {
    var d' := d + [entry];
    forall j | 0 <= j < |d'| ensures d'[j].0 != x {
      if j < |d| {
        assert d'[j] == d[j];
      }
    }
  }

  /** `{**d, **e}` as maps: `e` wins on a shared key. */
  lemma UpdateToMap<V>(d: Dict<V>, e: Dict<V>)
    requires NoDupKeys(e)
    ensures ToMap(Update(d, e)) == ToMap(d) + ToMap(e)
  {
    var r := Update(d, e);
    var m, m' := ToMap(r), ToMap(d) + ToMap(e);
    forall k | k in m ensures k in m' && m[k] == m'[k] {
      LastIsGet(e, k);
    }
    forall k | k in m' ensures k in m {
      LastIsGet(e, k);
    }
    assert m == m';
  }

  /** A renamed dict keeps the value of `n` under `f(n)` provided no other key is
      renamed onto the same name. */
  lemma {:induction false} LastMapKeys<V>(d: Dict<V>, f: string -> string, n: string)
    requires NoDupKeys(d)
    requires HasKey(d, n)
    requires forall i :: 0 <= i < |d| && d[i].0 != n ==> f(d[i].0) != f(n)
    ensures Last(MapKeys(d, f), f(n)) == Get(d, n)
  {
    var r := MapKeys(d, f);
    assert r[1..] == MapKeys(d[1..], f);
    NoDupTail(d);
    HasKeyCons(d, n);
    if d[0].0 == n {
      forall i | 0 <= i < |r[1..]| ensures r[1..][i].0 != f(n) {
        assert r[1..][i] == r[i + 1];
      }
    } else {
      LastMapKeys(d[1..], f, n);
    }
  }

  /** The last entry for a key is the one no later entry repeats. */
  lemma {:induction false} LastAt<V>(e: Dict<V>, i: nat)
    requires i < |e|
    requires forall j :: i < j < |e| ==> e[j].0 != e[i].0
    ensures Last(e, e[i].0) == Some(e[i].1)
  {
    if i == 0 {
      forall j | 0 <= j < |e[1..]| ensures e[1..][j].0 != e[0].0 {
        assert e[1..][j] == e[j + 1];
      }
    } else {
      assert e[1..][i - 1] == e[i];
      forall j | i - 1 < j < |e[1..]| ensures e[1..][j].0 != e[i].0 {
        assert e[1..][j] == e[j + 1];
      }
      LastAt(e[1..], i - 1);
    }
  }

  /** Looking a key up after appending an entry. */
  lemma {:induction false} GetSnoc<V>(p: Dict<V>, e: (string, V), k: string)
    ensures Get(p + [e], k) == if HasKey(p, k) then Get(p, k) else if e.0 == k then Some(e.1) else None
  {
    if |p| > 0 {
      assert (p + [e])[1..] == p[1..] + [e];
      HasKeyCons(p, k);
      GetSnoc(p[1..], e, k);
    } else {
      assert p + [e] == [e];
    }
  }

  /** In a duplicate-free dict the entry at index `i` is what `Get` finds. */
  lemma {:induction false} GetAt<V>(d: Dict<V>, i: nat)
    requires NoDupKeys(d) && i < |d|
    ensures Get(d, d[i].0) == Some(d[i].1)
  {
    if i > 0 {
      NoDupTail(d);
      assert d[1..][i - 1] == d[i];
      GetAt(d[1..], i - 1);
    }
  }

  /** Appending a fresh key to a dict adds exactly that key to its map. */
  lemma ToMapAppend<V>(d: Dict<V>, p: Dict<V>, e: (string, V))
    requires d == p + [e] && !HasKey(p, e.0)
    ensures ToMap(d) == ToMap(p)[e.0 := e.1]
  {
    var m, m' := ToMap(d), ToMap(p)[e.0 := e.1];
    forall k | k in m ensures k in m' && m[k] == m'[k] {
      GetSnoc(p, e, k);
    }
    forall k | k in m' ensures k in m {
      GetSnoc(p, e, k);
    }
  }

  /** The last key of a duplicate-free dict does not occur before it. */
  lemma LastFresh<V>(d: Dict<V>)
    requires |d| > 0 && NoDupKeys(d)
    ensures !HasKey(d[..|d| - 1], d[|d| - 1].0)
  {
    var pre, e := d[..|d| - 1], d[|d| - 1];
    forall j | 0 <= j < |pre| ensures pre[j].0 != e.0 {
      assert pre[j] == d[j];
    }
  }
}

=== FILE: event.dfy ===
/** The wide event of airline/event.py: plain fields (last write wins), rollup
    fields (summed) and timer fields (summed milliseconds), merged by `fields()`
    into one dict, with the rollup and timer names normalised on the way out. */
module AirlineEvent {
  import opened Wrappers
  import opened Strings
  import opened Dict
  import opened Json
  import opened Wire

  const TimerPrefix := "timers."
  const TimerSuffix := "_ms"
  const RollupPrefix := "rollup."

  /** `_data`, `_rollup_fields` and `_timer_fields` are insertion-ordered dicts;
      `owner` is the client the event was created by (`_client`), if any. */
  datatype Event = Event(
    data: Dict<Value>,
    rollups: Dict<real>,
    timers: Dict<real>,
    dataset: string,
    createdAt: Timestamp,
    owner: Option<Config>)

  /** `Event(data, created_at, client)`: the dataset is the client's, or empty
      without one; both accumulators start empty. */
  function New(data: Dict<Value>, createdAt: Timestamp, owner: Option<Config>): (e: Event)
    ensures owner.None? ==> e.dataset == ""
    ensures owner.Some? ==> e.dataset == owner.value.dataset
    ensures e.owner == owner && e.createdAt == createdAt
    ensures e.rollups == [] && e.timers == []
    ensures forall k :: Get(e.data, k) == Last(data, k)
    ensures WellFormed(e)
  {
    var dataset := if owner.Some? then owner.value.dataset else "";
    Add(Event([], [], [], dataset, createdAt, owner), data)
  }

  /** `add(data)`: every entry of `data` written in, later entries winning; nothing
      but the plain fields changes. */
  function Add(e: Event, data: Dict<Value>): (r: Event)
    ensures r == e.(data := r.data)
    ensures forall k :: Get(r.data, k) == if HasKey(data, k) then Last(data, k) else Get(e.data, k)
    ensures WellFormed(e) ==> WellFormed(r)
  {
    UpdateKeepsNoDup(e.data, data);
    e.(data := Update(e.data, data))
  }

  /** `add_field(name, value)`: overwrite one plain field. */
  function AddField(e: Event, name: string, value: Value): (r: Event)
    ensures r == e.(data := r.data)
    ensures Get(r.data, name) == Some(value)
    ensures forall k :: k != name ==> Get(r.data, k) == Get(e.data, k)
    ensures WellFormed(e) ==> WellFormed(r)
  {
    SetKeepsNoDup(e.data, name, value);
    e.(data := Set(e.data, name, value))
  }

  /** The running total of a `defaultdict` accumulator: 0 for a name never added to. */
  function Total(acc: Dict<real>, name: string): real {
    match Get(acc, name)
    case Some(t) => t
    case None => 0.0
  }

  /** `acc[name] += amount` on a `defaultdict`: a new name is appended with the
      amount, an existing one keeps its place. */
  function Accumulate(acc: Dict<real>, name: string, amount: real): (r: Dict<real>)
    ensures HasKey(r, name)
    ensures Total(r, name) == Total(acc, name) + amount
    ensures forall k :: k != name ==> Get(r, k) == Get(acc, k)
    ensures NoDupKeys(acc) ==> NoDupKeys(r)
    ensures !HasKey(acc, name) ==> r == acc + [(name, amount)]
    ensures HasKey(acc, name) ==> Keys(r) == Keys(acc)
  {
    var total := Total(acc, name) + amount;
    SetKeepsNoDup(acc, name, total);
    Set(acc, name, total)
  }

  /** `add_rollup_field(name, value)`: add to the rollup total of `name`. */
  function AddRollupField(e: Event, name: string, amount: real): (r: Event)
    ensures r == e.(rollups := r.rollups)
    ensures Total(r.rollups, name) == Total(e.rollups, name) + amount
    ensures forall k :: k != name ==> Get(r.rollups, k) == Get(e.rollups, k)
    ensures WellFormed(e) ==> WellFormed(r)
  {
    e.(rollups := Accumulate(e.rollups, name, amount))
  }

  /** `with add_timer_field(name): <block>`, the clock read as `start` before the
      block and `stop` after it: the elapsed milliseconds are added to the timer
      total of `name` whether the block completes or raises, and the block's
      exit passes through unchanged. */
  function AddTimerField(e: Event, name: string, start: real, stop: real, exit: Exit): (r: (Event, Outcome<Value>))
    ensures r.0 == e.(timers := r.0.timers)
    ensures Total(r.0.timers, name) == Total(e.timers, name) + (stop - start) * 1000.0
    ensures forall k :: k != name ==> Get(r.0.timers, k) == Get(e.timers, k)
    ensures WellFormed(e) ==> WellFormed(r.0)
    ensures r.1 == Propagate(exit)
  {
    (e.(timers := Accumulate(e.timers, name, (stop - start) * 1000.0)), Propagate(exit))
  }

  /** `_rollup_name`: prefix "rollup." unless the name already starts with it. */
  function RollupName(name: string): (r: string)
    ensures StartsWith(r, RollupPrefix)
    ensures EndsWith(r, name)
    ensures r == name || r == RollupPrefix + name
  {
    if StartsWith(name, RollupPrefix) then name else RollupPrefix + name
  }

  /** `_timer_name`: prefix "timers." unless present, then suffix "_ms" unless
      present. */
  function TimerName(name: string): (r: string)
    ensures StartsWith(r, TimerPrefix) && EndsWith(r, TimerSuffix)
    ensures r == name || r == TimerPrefix + name || r == name + TimerSuffix || r == TimerPrefix + name + TimerSuffix
  {
    var prefixed := if StartsWith(name, TimerPrefix) then name else TimerPrefix + name;
    PrefixKept(TimerPrefix, prefixed, TimerSuffix);
    if EndsWith(prefixed, TimerSuffix) then prefixed else prefixed + TimerSuffix
  }

  lemma PrefixKept(p: string, s: string, t: string)
    requires StartsWith(s, p)
    ensures StartsWith(s + t, p)
  {
    assert (s + t)[..|p|] == s[..|p|];
  }

  /** Accumulated totals as JSON numbers, each under its normalised name.  Names
      that normalise alike collapse into one entry holding the value of the one
      inserted LAST; they are not summed. */
  function Renamed(acc: Dict<real>, rename: string -> string): (r: Dict<Value>)
    ensures NoDupKeys(r)
    ensures forall k :: HasKey(r, k) <==> exists i :: 0 <= i < |acc| && rename(acc[i].0) == k
    ensures forall i :: 0 <= i < |acc| && LastAlias(acc, rename, i) ==>
      Get(r, rename(acc[i].0)) == Some(Num(acc[i].1))
  {
    var entries := MapKeys(Numbers(acc), rename);
    UpdateNoDup([], entries);
    var r := Update([], entries);
    assert forall k :: HasKey(r, k) <==> HasKey(entries, k);
    forall i | 0 <= i < |acc| && LastAlias(acc, rename, i)
      ensures Get(r, rename(acc[i].0)) == Some(Num(acc[i].1))
    {
      RenamedAt(acc, rename, entries, i);
    }
    r
  }

  lemma RenamedAt(acc: Dict<real>, rename: string -> string, entries: Dict<Value>, i: nat)
    requires entries == MapKeys(Numbers(acc), rename)
    requires i < |acc| && LastAlias(acc, rename, i)
    ensures Get(Update([], entries), rename(acc[i].0)) == Some(Num(acc[i].1))
  {
    assert entries[i] == (rename(acc[i].0), Num(acc[i].1));
    LastAt(entries, i);
    assert HasKey(entries, entries[i].0);
  }

  /** No entry after the `i`-th normalises to the same name. */
  predicate LastAlias(acc: Dict<real>, rename: string -> string, i: nat)
    requires i < |acc|
  {
    forall j :: i < j < |acc| ==> rename(acc[j].0) != rename(acc[i].0)
  }

  /** Each total as a JSON number. */
  function Numbers(d: Dict<real>): (r: Dict<Value>)
    ensures |r| == |d|
    ensures forall i :: 0 <= i < |d| ==> r[i] == (d[i].0, Num(d[i].1))
  {
    if |d| == 0 then [] else [(d[0].0, Num(d[0].1))] + Numbers(d[1..])
  }

  /** `rollup_fields()`. */
  function RollupFields(e: Event): (r: Dict<Value>)
    ensures NoDupKeys(r)
    ensures forall k :: HasKey(r, k) ==> StartsWith(k, RollupPrefix)
  {
    Renamed(e.rollups, RollupName)
  }

  /** `timer_fields()`, with the totals left unrounded. */
  function TimerFields(e: Event): (r: Dict<Value>)
    ensures NoDupKeys(r)
    ensures forall k :: HasKey(r, k) ==> StartsWith(k, TimerPrefix) && EndsWith(k, TimerSuffix)
  {
    Renamed(e.timers, TimerName)
  }

  /** `fields()`: `{**data, **rollup_fields(), **timer_fields()}`. */
  function Fields(e: Event): Dict<Value> {
    Update(Update(e.data, RollupFields(e)), TimerFields(e))
  }

  /** `send()`: hand the event to its client, which writes the payload; without a
      client, raise. */
  function Send(e: Event, version: string): (r: Result<Payload, Error>)
    ensures e.owner.None? ==> r == Failure(NoClient)
    ensures e.owner.Some? ==> (r.Success? <==> Flatten.DotsToDeep(Fields(e)).Some?)
    ensures e.owner.Some? && r.Failure? ==> r.error == NestingCollision
    ensures r.Success? ==>
      && r.value.time == EventTime(e.createdAt) && r.value.dataset == e.dataset
      && r.value.client == ClientPrefix + version
      && Some(r.value.data) == Flatten.DotsToDeep(Fields(e))
      && (r.value.indent.Some? <==> e.owner.value.debug)
  {
    match e.owner
    case None => Failure(NoClient)
    case Some(c) => BuildPayload(e.createdAt, e.dataset, Fields(e), c.debug, version)
  }

  /** Every dict of the event is a proper dict: no key appears twice. */
  predicate WellFormed(e: Event) {
    NoDupKeys(e.data) && NoDupKeys(e.rollups) && NoDupKeys(e.timers)
  }

  /** The merge order of `fields()`: a timer field overrides a rollup field, which
      overrides a plain field of the same name. */
  lemma FieldsGet(e: Event, k: string)
    ensures Get(Fields(e), k) ==
      if HasKey(TimerFields(e), k) then Get(TimerFields(e), k)
      else if HasKey(RollupFields(e), k) then Get(RollupFields(e), k)
      else Get(e.data, k)
  {
    LastIsGet(TimerFields(e), k);
    LastIsGet(RollupFields(e), k);
  }

  /** Normalised rollup and timer names never coincide, so in practice a timer
      never overrides a rollup; only plain fields can be overridden. */
  lemma RollupTimerDisjoint(a: string, b: string)
    ensures RollupName(a) != TimerName(b)
  {
    PrefixesDisjoint(RollupName(a));
  }

  lemma PrefixesDisjoint(k: string)
    ensures !(StartsWith(k, RollupPrefix) && StartsWith(k, TimerPrefix))
  {
    if StartsWith(k, TimerPrefix) {
      DiffersAt(k, RollupPrefix, 0);
    }
  }

  /** A field written with `add_field` is what `fields()` reports for it, unless a
      rollup or timer of the same normalised name shadows it. */
  lemma AddFieldVisible(e: Event, name: string, value: Value)
    requires !HasKey(RollupFields(e), name) && !HasKey(TimerFields(e), name)
    ensures Get(Fields(AddField(e, name, value)), name) == Some(value)
  {
    FieldsGet(AddField(e, name, value), name);
  }

  /** A later `add_field` on the same name replaces the earlier one entirely. */
  lemma LastWriteWins(e: Event, name: string, v1: Value, v2: Value)
    ensures AddField(AddField(e, name, v1), name, v2) == AddField(e, name, v2)
  {
    SetTwice(e.data, name, v1, v2);
  }

  lemma RenamedEmpty(rename: string -> string)
    ensures Renamed([], rename) == []
  {
    assert MapKeys(Numbers([]), rename) == [];
  }

  /** An event with no rollups or timers reports exactly its plain fields. */
  lemma {:induction false} FieldsOfNew(data: Dict<Value>, createdAt: Timestamp, owner: Option<Config>)
    requires NoDupKeys(data)
    ensures Fields(New(data, createdAt, owner)) == data
    ensures Fields(Add(New([], createdAt, owner), data)) == data
  {
    UpdateFresh([], data);
    assert [] + data == data;
    RenamedEmpty(RollupName);
    RenamedEmpty(TimerName);
    var none: Dict<Value> := [];
    assert Update(none, none) == none;
  }

  lemma GetNumbers(d: Dict<real>, k: string)
    ensures Get(Numbers(d), k) == if HasKey(d, k) then Some(Num(Total(d, k))) else None
  {
    if |d| > 0 {
      assert Numbers(d)[1..] == Numbers(d[1..]);
      HasKeyCons(d, k);
      HasKeyCons(Numbers(d), k);
      GetNumbers(d[1..], k);
    }
  }

  /** The entry a renaming produces for `name`, when no other accumulated name
      normalises to the same key: its own running total. */
  lemma RenamedGet(acc: Dict<real>, rename: string -> string, name: string)
    requires NoDupKeys(acc) && HasKey(acc, name)
    requires forall i :: 0 <= i < |acc| && acc[i].0 != name ==> rename(acc[i].0) != rename(name)
    ensures Get(Renamed(acc, rename), rename(name)) == Some(Num(Total(acc, name)))
  {
    var nums := Numbers(acc);
    assert NoDupKeys(nums);
    assert HasKey(nums, name);
    LastMapKeys(nums, rename, name);
    GetNumbers(acc, name);
    assert HasKey(MapKeys(nums, rename), rename(name));
  }

  /** `fields()` reports the summed total of rollup `name` under its normalised
      name, when no other rollup normalises alike and no plain field can shadow it. */
  lemma RollupTotalInFields(e: Event, name: string)
    requires NoDupKeys(e.rollups) && HasKey(e.rollups, name)
    requires forall i :: 0 <= i < |e.rollups| && e.rollups[i].0 != name ==> RollupName(e.rollups[i].0) != RollupName(name)
    ensures Get(Fields(e), RollupName(name)) == Some(Num(Total(e.rollups, name)))
  {
    RenamedGet(e.rollups, RollupName, name);
    FieldsGet(e, RollupName(name));
    PrefixesDisjoint(RollupName(name));
    assert !HasKey(TimerFields(e), RollupName(name));
  }

  /** `fields()` reports the summed milliseconds of timer `name` under its
      normalised name, when no other timer normalises alike. */
  lemma TimerTotalInFields(e: Event, name: string)
    requires NoDupKeys(e.timers) && HasKey(e.timers, name)
    requires forall i :: 0 <= i < |e.timers| && e.timers[i].0 != name ==> TimerName(e.timers[i].0) != TimerName(name)
    ensures Get(Fields(e), TimerName(name)) == Some(Num(Total(e.timers, name)))
  {
    RenamedGet(e.timers, TimerName, name);
    FieldsGet(e, TimerName(name));
  }

  /** The names `_rollup_name` leaves alone are exactly those already prefixed, so
      normalising twice is normalising once. */
  lemma RollupNameNormal(name: string)
    ensures RollupName(name) == name <==> StartsWith(name, RollupPrefix)
    ensures RollupName(RollupName(name)) == RollupName(name)
  {
  }

  lemma PrefixCancel(p: string, a: string, b: string)
    ensures p + a == p + b <==> a == b
  {
    if p + a == p + b {
      assert (p + a)[|p|..] == a && (p + b)[|p|..] == b;
    }
  }

  /** Two names share a rollup total in `fields()` exactly when they are equal or
      one is the other with "rollup." in front: `foo` and `rollup.foo` alias. */
  lemma RollupNameAliases(a: string, b: string)
    ensures RollupName(a) == RollupName(b) <==>
      || a == b
      || (a == RollupPrefix + b && !StartsWith(b, RollupPrefix))
      || (b == RollupPrefix + a && !StartsWith(a, RollupPrefix))
  {
    PrefixCancel(RollupPrefix, a, b);
    assert StartsWith(RollupPrefix + a, RollupPrefix) && StartsWith(RollupPrefix + b, RollupPrefix) by {
      assert (RollupPrefix + a)[..|RollupPrefix|] == RollupPrefix;
      assert (RollupPrefix + b)[..|RollupPrefix|] == RollupPrefix;
    }
  }

  /** The names `_timer_name` leaves alone are exactly the well-formed ones, so
      normalising twice is normalising once. */
  lemma TimerNameNormal(name: string)
    ensures TimerName(name) == name <==> StartsWith(name, TimerPrefix) && EndsWith(name, TimerSuffix)
    ensures TimerName(TimerName(name)) == TimerName(name)
  {
  }

  /** `example`, `timers.example`, `example_ms` and `timers.example_ms` all name the
      same timer field. */
  lemma TimerNameExamples()
    ensures TimerName("example") == "timers.example_ms"
    ensures TimerName("timers.example") == "timers.example_ms"
    ensures TimerName("example_ms") == "timers.example_ms"
    ensures TimerName("timers.example_ms") == "timers.example_ms"
  {
    assert "timers." + "example" == "timers.example";
    assert "timers.example" + "_ms" == "timers.example_ms";
    assert "timers." + "example_ms" == "timers.example_ms";
    DiffersAt("example", TimerPrefix, 0);
    DiffersAt("example_ms", TimerPrefix, 0);
    assert !EndsWith("timers.example", TimerSuffix);
  }

  lemma RenamedSingle(name: string, total: real, rename: string -> string)
    ensures Renamed([(name, total)], rename) == [(rename(name), Num(total))]
  {
    var entries := MapKeys(Numbers([(name, total)]), rename);
    assert entries == [(rename(name), Num(total))];
    UpdateFresh([], entries);
    assert [] + entries == entries;
  }

  /** An event whose only contents are accumulators reports their renamed totals. */
  lemma FieldsOfAccumulators(e: Event)
    requires e.data == []
    ensures Fields(e) == Update(RollupFields(e), TimerFields(e))
  {
    UpdateFresh([], RollupFields(e));
    assert [] + RollupFields(e) == RollupFields(e);
  }

  /** Two rollups of 1 on `foo` give `{'rollup.foo': 2}`; a single rollup on
      `rollup.foo` lands on the same field. */
  lemma RollupsAccumulateExample(createdAt: Timestamp, owner: Option<Config>)
    ensures var e := New([], createdAt, owner);
      Fields(AddRollupField(AddRollupField(e, "foo", 1.0), "foo", 1.0)) == [("rollup.foo", Num(2.0))]
    ensures Fields(AddRollupField(New([], createdAt, owner), "rollup.foo", 1.0)) == [("rollup.foo", Num(1.0))]
  {
    var e := New([], createdAt, owner);
    FooNames();
    FirstTotal("foo", 1.0);
    var e2 := AddRollupField(AddRollupField(e, "foo", 1.0), "foo", 1.0);
    assert e2.rollups == [("foo", 2.0)];
    RenamedSingle("foo", 2.0, RollupName);
    RollupsOnly(e2);
    FirstTotal("rollup.foo", 1.0);
    RenamedSingle("rollup.foo", 1.0, RollupName);
    RollupsOnly(AddRollupField(e, "rollup.foo", 1.0));
  }

  /** The first amount added to an empty accumulator is its only entry. */
  lemma FirstTotal(name: string, amount: real)
    ensures Accumulate([], name, amount) == [(name, amount)]
  {
    var none: Dict<real> := [];
    assert !HasKey(none, name);
  }

  /** Rollups on `foo` and `rollup.foo` are separate totals that `fields()` does
      not add together: the one inserted last is reported. */
  lemma RollupAliasNotSummed(createdAt: Timestamp, owner: Option<Config>)
    ensures var e := AddRollupField(AddRollupField(New([], createdAt, owner), "foo", 1.0), "rollup.foo", 2.0);
      && Total(e.rollups, "foo") + Total(e.rollups, "rollup.foo") == 3.0
      && Fields(e) == [("rollup.foo", Num(2.0))]
  {
    var e := New([], createdAt, owner);
    AliasRollups(e);
    AliasRenamed();
    RollupsOnly(AddRollupField(AddRollupField(e, "foo", 1.0), "rollup.foo", 2.0));
  }

  lemma AliasRollups(e: Event)
    requires e.rollups == []
    ensures var r := AddRollupField(AddRollupField(e, "foo", 1.0), "rollup.foo", 2.0).rollups;
      r == [("foo", 1.0), ("rollup.foo", 2.0)] && Total(r, "foo") == 1.0 && Total(r, "rollup.foo") == 2.0
  {
    assert "foo" != "rollup.foo";
    TwoRollups(e, "foo", "rollup.foo", 1.0, 2.0);
  }

  lemma TwoRollups(e: Event, a: string, b: string, x: real, y: real)
    requires e.rollups == [] && a != b
    ensures var r := AddRollupField(AddRollupField(e, a, x), b, y).rollups;
      r == [(a, x), (b, y)] && Total(r, a) == x && Total(r, b) == y
  {
    TwoTotals(a, b, x, y);
    TotalsOfPair(a, b, x, y);
  }

  /** Two different names added to an empty accumulator sit in insertion order. */
  lemma TwoTotals(a: string, b: string, x: real, y: real)
    requires a != b
    ensures Accumulate(Accumulate([], a, x), b, y) == [(a, x), (b, y)]
  {
    FirstTotal(a, x);
    var acc: Dict<real> := [(a, x)];
    assert !HasKey(acc, b) by {
      HasKeyCons(acc, b);
    }
    assert acc + [(b, y)] == [(a, x), (b, y)];
  }

  lemma TotalsOfPair(a: string, b: string, x: real, y: real)
    requires a != b
    ensures Total([(a, x), (b, y)], a) == x && Total([(a, x), (b, y)], b) == y
  {
    var d := [(a, x), (b, y)];
    assert d[1..] == [(b, y)];
    assert Get(d[1..], b) == Some(y);
    assert Get(d, b) == Get(d[1..], b);
  }

  lemma FooNames()
    ensures RollupName("foo") == "rollup.foo" && RollupName("rollup.foo") == "rollup.foo"
  {
    DiffersAt("foo", RollupPrefix, 3);
  }

  lemma AliasRenamed()
    ensures Renamed([("foo", 1.0), ("rollup.foo", 2.0)], RollupName) == [("rollup.foo", Num(2.0))]
  {
    FooNames();
    var entries := MapKeys(Numbers([("foo", 1.0), ("rollup.foo", 2.0)]), RollupName);
    assert entries == [("rollup.foo", Num(1.0)), ("rollup.foo", Num(2.0))];
    assert entries[1..] == [("rollup.foo", Num(2.0))];
    assert Update([], entries) == Update([("rollup.foo", Num(1.0))], [("rollup.foo", Num(2.0))]);
  }

  /** An event holding only rollups reports exactly their renamed totals. */
  lemma RollupsOnly(e: Event)
    requires e.data == [] && e.timers == []
    ensures Fields(e) == Renamed(e.rollups, RollupName)
  {
    RenamedEmpty(TimerName);
    FieldsOfAccumulators(e);
  }

  /** An event holding only timers reports exactly their renamed totals. */
  lemma TimersOnly(e: Event)
    requires e.data == [] && e.rollups == []
    ensures Fields(e) == Renamed(e.timers, TimerName)
  {
    RenamedEmpty(RollupName);
    FieldsOfAccumulators(e);
    var none: Dict<Value> := [];
    UpdateFresh(none, TimerFields(e));
    assert none + TimerFields(e) == TimerFields(e);
  }

  /** A block timed from 0 s to 5 s is reported as `{'timers.five_ms': 5000.0}`. */
  lemma TimersWorkExample(createdAt: Timestamp, owner: Option<Config>)
    ensures Fields(AddTimerField(New([], createdAt, owner), "five", 0.0, 5.0, Completed(Null)).0)
         == [("timers.five_ms", Num(5000.0))]
  {
    var e := AddTimerField(New([], createdAt, owner), "five", 0.0, 5.0, Completed(Null)).0;
    assert e.timers == [("five", 5000.0)];
    FiveName();
    RenamedSingle("five", 5000.0, TimerName);
    TimersOnly(e);
  }

  lemma FiveName()
    ensures TimerName("five") == "timers.five_ms"
  {
    DiffersAt("five", TimerPrefix, 0);
    assert !EndsWith("timers.five", TimerSuffix);
  }
}

=== FILE: facade.dfy ===
/** The module-level API of airline/__init__.py: one process-wide client slot
    (`_SKL`), filled once by `init` and emptied by `done`, with every call a
    no-op (logged in debug mode) when there is no client or no current event. */
module Airline {
  import opened Wrappers
  import opened Dict
  import opened Json
  import opened Wire
  import AirlineEvent
  import AirlineClient

  type State = Option<AirlineClient.Client>

  const AlreadyInitialized := "Library already initialized"
  const NotInitialised := "Client or Event not initialised"

  /** `_log(message)`: printed only when a client exists and is in debug mode. */
  function Log(g: State, message: string): (printed: seq<string>)
    ensures printed == [] || printed == [message]
    ensures printed != [] <==> g.Some? && g.value.config.debug
  {
    if g.Some? && g.value.config.debug then [message] else []
  }

  /** `_SKL and _SKL._event`: the guard of every context call. */
  predicate Ready(g: State) {
    g.Some? && g.value.current.Some?
  }

  /** The current event of a ready state. */
  function Current(g: State): AirlineEvent.Event
    requires Ready(g)
  {
    g.value.current.value
  }

  /** A ready state whose current event is replaced by `e`. */
  function WithEvent(g: State, e: AirlineEvent.Event): (r: State)
    requires Ready(g)
    ensures Ready(r) && Current(r) == e && r.value.config == g.value.config
  {
    Some(g.value.(current := Some(e)))
  }

  /** `init(dataset, debug)`: create the client when there is none; otherwise
      keep the existing one and print a warning, whatever the debug setting. */
  function Init(g: State, dataset: string, debug: bool): (r: Step<State, ()>)
    ensures r.emitted == [] && r.outcome == Returned(())
    ensures g.None? ==> r.state == Some(AirlineClient.Client(Config(dataset, debug), None)) && r.printed == []
    ensures g.Some? ==> r.state == g && r.printed == [AlreadyInitialized]
  {
    if g.None? then Step(Some(AirlineClient.Client(Config(dataset, debug), None)), [], [], Returned(()))
    else Step(g, [], [AlreadyInitialized], Returned(()))
  }

  /** A call that only logs because there is no client or no current event. */
  function Skip(g: State): (r: Step<State, ()>)
    ensures r.state == g && r.emitted == [] && r.outcome == Returned(())
    ensures r.printed == Log(g, NotInitialised)
  {
    Step(g, [], Log(g, NotInitialised), Returned(()))
  }

  /** `add_context(data)`. */
  function AddContext(g: State, data: Dict<Value>): (r: Step<State, ()>)
    ensures r.emitted == [] && r.outcome == Returned(())
    ensures Ready(g) ==> r.state == WithEvent(g, AirlineEvent.Add(Current(g), data)) && r.printed == []
    ensures !Ready(g) ==> r == Skip(g)
  {
    if Ready(g) then Step(WithEvent(g, AirlineEvent.Add(Current(g), data)), [], [], Returned(()))
    else Skip(g)
  }

  /** `add_context_field(name, value)`. */
  function AddContextField(g: State, name: string, value: Value): (r: Step<State, ()>)
    ensures r.emitted == [] && r.outcome == Returned(())
    ensures Ready(g) ==> r.state == WithEvent(g, AirlineEvent.AddField(Current(g), name, value)) && r.printed == []
    ensures Ready(g) ==> Get(Current(r.state).data, name) == Some(value)
    ensures !Ready(g) ==> r == Skip(g)
  {
    if Ready(g) then Step(WithEvent(g, AirlineEvent.AddField(Current(g), name, value)), [], [], Returned(()))
    else Skip(g)
  }

  /** `add_rollup_field(name, value)`. */
  function AddRollupField(g: State, name: string, amount: real): (r: Step<State, ()>)
    ensures r.emitted == [] && r.outcome == Returned(())
    ensures Ready(g) ==> r.state == WithEvent(g, AirlineEvent.AddRollupField(Current(g), name, amount)) && r.printed == []
    ensures Ready(g) ==>
      AirlineEvent.Total(Current(r.state).rollups, name) == AirlineEvent.Total(Current(g).rollups, name) + amount
    ensures !Ready(g) ==> r == Skip(g)
  {
    if Ready(g) then Step(WithEvent(g, AirlineEvent.AddRollupField(Current(g), name, amount)), [], [], Returned(()))
    else Skip(g)
  }

  /** `remove_context_field(name)`: the client has no such method, so the call
      raises whenever it gets past the guard. */
  function RemoveContextField(g: State, name: string): (r: Step<State, ()>)
    ensures r.state == g && r.emitted == []
    ensures Ready(g) <==> r.outcome == Raised(MissingAttribute("remove_context_field"))
    ensures !Ready(g) ==> r == Skip(g)
  {
    if Ready(g) then Step(g, [], [], Raised(MissingAttribute("remove_context_field")))
    else Skip(g)
  }

  /** `success()`. */
  function Success(g: State): (r: Step<State, ()>)
    ensures r.emitted == [] && r.outcome == Returned(())
    ensures Ready(g) ==> Ready(r.state) && Get(Current(r.state).data, "status") == Some(Str("SUCCESS"))
    ensures !Ready(g) ==> r == Skip(g)
  {
    AddContextField(g, "status", Str("SUCCESS"))
  }

  /** `error()`. */
  function Error(g: State): (r: Step<State, ()>)
    ensures r.emitted == [] && r.outcome == Returned(())
    ensures Ready(g) ==> Ready(r.state) && Get(Current(r.state).data, "status") == Some(Str("ERROR"))
    ensures !Ready(g) ==> r == Skip(g)
  {
    AddContextField(g, "status", Str("ERROR"))
  }

  /** One mutator of a block, called through this module.  A timed block is
      `with timer(name):` around its own mutators. */
  function ApplyOp(g: State, op: Op): (r: Step<State, ()>)
    ensures r.emitted == [] && r.outcome == Returned(())
    ensures Ready(g) ==> r.state == WithEvent(g, AirlineClient.ApplyOp(Current(g), op)) && r.printed == []
    ensures !Ready(g) ==> r.state == g
    ensures !Ready(g) ==> |r.printed| == if g.Some? && g.value.config.debug then OpCalls(op) else 0
    decreases op
  {
    match op
    case SetField(n, v) => AddContextField(g, n, v)
    case Merge(d) => AddContext(g, d)
    case Rollup(n, x) => AddRollupField(g, n, x)
    case Time(n, start, stop, inner) =>
      var ran := RunOps(g, inner);
      if Ready(g) then
        Step(WithEvent(g, AirlineEvent.AddTimerField(Current(ran.state), n, start, stop, Completed(Null)).0), [], [], Returned(()))
      else
        Step(g, [], Log(g, NotInitialised) + ran.printed, Returned(()))
  }

  /** The mutators of a block called through this module in order.  Without a
      client or a current event every call, a timed block's included, is a
      logged no-op. */
  function RunOps(g: State, ops: seq<Op>): (r: Step<State, ()>)
    ensures r.emitted == [] && r.outcome == Returned(())
    ensures Ready(g) ==> r.state == WithEvent(g, AirlineClient.Perform(Current(g), ops)) && r.printed == []
    ensures !Ready(g) ==> r.state == g
    ensures !Ready(g) ==> |r.printed| == if g.Some? && g.value.config.debug then Calls(ops) else 0
    decreases ops
  {
    if |ops| == 0 then Step(g, [], [], Returned(()))
    else
      var first := ApplyOp(g, ops[0]);
      var rest := RunOps(first.state, ops[1..]);
      Step(rest.state, [], first.printed + rest.printed, Returned(()))
  }

  /** `with timer(name): <block>`: the block runs exactly once either way, its
      mutators reaching the current event if there is one; its elapsed time is
      added to the timer `name` of the event current on entry, and its exit
      passes through. */
  function Timer(g: State, name: string, start: real, stop: real, body: Body): (r: Step<State, Value>)
    ensures r.emitted == [] && r.outcome == Propagate(body.exit)
    ensures Ready(g) ==> r.printed == [] && Ready(r.state)
    ensures Ready(g) ==>
      Current(r.state) == AirlineEvent.AddTimerField(AirlineClient.Perform(Current(g), body.ops), name, start, stop, body.exit).0
    ensures !Ready(g) ==> r.state == g && r.printed == Log(g, NotInitialised) + RunOps(g, body.ops).printed
  {
    var ran := RunOps(g, body.ops);
    if Ready(g) then
      var (e, o) := AirlineEvent.AddTimerField(Current(ran.state), name, start, stop, body.exit);
      Step(WithEvent(ran.state, e), [], [], o)
    else
      Step(g, [], Log(g, NotInitialised) + ran.printed, Propagate(body.exit))
  }

  /** `done()`: flush through the client's `done`, then empty the slot.  When the
      client's `done` raises (no current event, or colliding fields), the
      assignment `_SKL = None` is never reached and the client stays. */
  function Done(g: State, version: string): (r: Step<State, ()>)
    ensures r.printed == []
    ensures g.None? ==> r == Step(g, [], [], Returned(()))
    ensures r.outcome.Returned? ==> r.state.None?
    ensures r.outcome.Raised? ==> r.state == g && r.emitted == [] && g.Some?
    ensures g.Some? && g.value.current.None? ==> r.outcome == Raised(NoCurrentEvent)
    ensures r.emitted != [] <==> Ready(g) && AirlineClient.Send(g.value, Current(g), version).Success?
    ensures r.emitted != [] ==> r.emitted == [AirlineClient.Send(g.value, Current(g), version).value]
  {
    match g
    case None => Step(None, [], [], Returned(()))
    case Some(c) =>
      var d := AirlineClient.Done(c, version);
      if d.outcome.Raised? then Step(g, [], [], Raised(d.outcome.error))
      else Step(None, d.emitted, [], Returned(()))
  }

  /** A function decorated with `@evented()` and called: with a client, its body
      runs inside the client's `evented`; without one, the function is simply
      called and its result or exception passes straight through. */
  function Evented(g: State, body: Body, createdAt: Timestamp, start: real, stop: real, version: string)
    : (r: Step<State, Value>)
    ensures g.None? ==> r.state == g && r.emitted == [] && r.printed == [] && r.outcome == Propagate(body.exit)
    ensures g.Some? ==> r.state.Some? && r.state.value.config == g.value.config && |r.emitted| <= 1
    ensures g.Some? ==>
      var s := AirlineClient.Evented(g.value, body, createdAt, start, stop, version);
      r == Step(Some(s.state), s.emitted, s.printed, s.outcome)
  {
    match g
    case None =>
      var ran := RunOps(g, body.ops);
      Step(ran.state, [], ran.printed, Propagate(body.exit))
    case Some(c) =>
      var s := AirlineClient.Evented(c, body, createdAt, start, stop, version);
      Step(Some(s.state), s.emitted, s.printed, s.outcome)
  }

  /** `init` creates the client once: a second call, whatever its settings, keeps
      the first client and prints the warning. */
  lemma InitOnce(g: State, d1: string, b1: bool, d2: string, b2: bool)
    ensures var first := Init(g, d1, b1);
      var second := Init(first.state, d2, b2);
      && first.state.Some?
      && second.state == first.state
      && second.printed == [AlreadyInitialized]
  {
  }

  /** With a current event, each module-level mutator leaves the same client as the
      client's own method of that name. */
  lemma ForwardsToClient(g: State, op: Op)
    requires Ready(g)
    ensures op.SetField? ==> ApplyOp(g, op).state == Some(AirlineClient.AddContextField(g.value, op.name, op.value).state)
    ensures op.Merge? ==> ApplyOp(g, op).state == Some(AirlineClient.AddContext(g.value, op.data).state)
    ensures op.Rollup? ==> ApplyOp(g, op).state == Some(AirlineClient.AddRollupField(g.value, op.name, op.amount).state)
    ensures op.Time? ==>
      ApplyOp(g, op).state == Some(AirlineClient.AddTimerField(g.value, op.name, op.start, op.stop, Body(op.ops, Completed(Null))).state)
  {
  }

  /** After a `done` that returned, `init` installs a fresh client with the new
      settings and no current event. */
  lemma DoneThenInit(g: State, version: string, dataset: string, debug: bool)
    requires Done(g, version).outcome.Returned?
    ensures Init(Done(g, version).state, dataset, debug).state == Some(AirlineClient.Client(Config(dataset, debug), None))
  {
  }

  /** `init` directly followed by `done`: there is no current event to send, so
      `done` raises and the client stays installed. */
  lemma InitThenDone(dataset: string, debug: bool, version: string)
    ensures var g := Init(None, dataset, debug).state;
      var d := Done(g, version);
      d.outcome == Raised(NoCurrentEvent) && d.state == g && d.emitted == []
  {
  }

  /** The usual life of the module: `init`, one call of a decorated function, then
      `done`.  The decorated call writes at most one payload; afterwards either its
      event was sent and cleared, so `done` finds none, or its fields collide and
      `done` fails on them again.  Either way `done` raises, writes nothing and
      leaves the client installed. */
  lemma InitEventedDone(dataset: string, debug: bool, body: Body, createdAt: Timestamp,
                        start: real, stop: real, version: string)
    ensures var g := Init(None, dataset, debug).state;
      var ev := Evented(g, body, createdAt, start, stop, version);
      var d := Done(ev.state, version);
      && ev.state.Some?
      && |ev.emitted| <= 1
      && d.outcome.Raised? && d.emitted == [] && d.state == ev.state
      && (ev.emitted != [] ==> d.outcome == Raised(NoCurrentEvent))
      && (ev.emitted == [] ==> d.outcome == Raised(NestingCollision))
  {
    var c := AirlineClient.Client(Config(dataset, debug), None);
    var sent := AirlineClient.Finished(c, body, createdAt, start, stop);
    var s := AirlineClient.Evented(c, body, createdAt, start, stop, version);
    if s.emitted == [] {
      assert s.state.current == Some(sent);
      assert AirlineClient.Send(s.state, sent, version) == AirlineClient.Send(c, sent, version);
    }
  }
}

=== FILE: flatten.dfy ===
/** `dots_to_deep` from airline/client.py (copied verbatim in skyline/client.py):
    turn a dict whose keys are dotted paths into a nested tree, refusing keys that
    collide structurally.  The Python raises RuntimeError or, when a non-dict sits
    two or more levels above the new key, TypeError; the model only says `None`. */
module Flatten {
  import opened Wrappers
  import opened Strings
  import opened Dict
  import opened Json

  type Tree = map<string, Value>

  /** One turn of the loop: walk `p` from the root, creating empty dicts for
      missing intermediate keys, fail on anything that is not a dict, fail if the
      last key is already there, otherwise store `v` under it.  A dict already in
      the tree, including one the caller passed as a value, is walked into. */
  function Insert(t: Tree, p: Path, v: Value): (r: Option<Tree>)
    requires |p| >= 1
    ensures r.Some? ==> Extends(Obj(r.value), Obj(t))
    ensures r.Some? ==> Lookup(Obj(r.value), p) == Some(v)
    decreases |p|
  {
    if |p| == 1 then
      if p[0] in t then None
      else
        PutExtends(t, p[0], v);
        Some(t[p[0] := v])
    else
      var child := if p[0] in t then t[p[0]] else Obj(map[]);
      match child
      case Obj(m) =>
        (match Insert(m, p[1..], v)
         case None => None
         case Some(m') =>
           PutExtends(t, p[0], Obj(m'));
           Some(t[p[0] := Obj(m')]))
      case _ => None
  }

  /** Storing a value under a key that is new, or that only grows, loses nothing. */
  lemma PutExtends(t: Tree, k: string, v: Value)
    requires k in t ==> Extends(v, t[k])
    ensures Extends(Obj(t[k := v]), Obj(t))
  {
    forall x | x in t ensures Extends(t[k := v][x], t[x]) {
      if x != k {
        ExtendsRefl(t[x]);
      }
    }
  }

  /** The new key cannot be stored: its path is taken already, or runs through
      something that is not a dict. */
  predicate Blocked(t: Tree, p: Path) {
    || Lookup(Obj(t), p).Some?
    || exists n :: 1 <= n < |p| && LeafAt(Obj(t), p[..n]).Some?
  }

  lemma LookupStep(t: Tree, p: Path, n: nat)
    requires 1 <= n <= |p| && p[0] in t
    ensures Lookup(Obj(t), p[..n]) == Lookup(t[p[0]], p[1..][..n - 1])
  {
    assert p[..n][0] == p[0];
    assert p[..n][1..] == p[1..][..n - 1];
  }

  /** Insertion fails exactly when the path is blocked. */
  lemma {:induction false} InsertBlocked(t: Tree, p: Path, v: Value)
    requires |p| >= 1
    ensures Insert(t, p, v).None? <==> Blocked(t, p)
    decreases |p|, 1
  {
    if |p| > 1 {
      if p[0] !in t {
        InsertBlockedFresh(t, p, v);
      } else if t[p[0]].Obj? {
        InsertBlockedObj(t, p, v);
      } else {
        LookupStep(t, p, 1);
        assert LeafAt(Obj(t), p[..1]).Some?;
      }
    } else {
      assert Lookup(Obj(t), p).Some? <==> p[0] in t;
    }
  }

  /** A path whose first segment is new is never blocked, and insertion succeeds. */
  lemma {:induction false} InsertBlockedFresh(t: Tree, p: Path, v: Value)
    requires |p| > 1 && p[0] !in t
    ensures Insert(t, p, v).Some? && !Blocked(t, p)
    decreases |p|, 0
  {
    InsertBlocked(map[], p[1..], v);
    forall n | 1 <= n < |p[1..]| ensures LeafAt(Obj(map[]), p[1..][..n]).None? {
      assert p[1..][..n][0] == p[1..][0];
    }
    forall n | 1 <= n < |p| ensures LeafAt(Obj(t), p[..n]).None? {
      assert p[..n][0] == p[0];
    }
    assert !Blocked(map[], p[1..]);
  }

  /** Under an existing dict, the path is blocked exactly when its tail is
      blocked inside that dict. */
  lemma {:induction false} InsertBlockedObj(t: Tree, p: Path, v: Value)
    requires |p| > 1 && p[0] in t && t[p[0]].Obj?
    ensures Insert(t, p, v).None? <==> Blocked(t, p)
    decreases |p|, 0
  {
    var m := t[p[0]].fields;
    InsertBlocked(m, p[1..], v);
    assert Lookup(Obj(t), p) == Lookup(Obj(m), p[1..]);
    if exists n :: 1 <= n < |p| && LeafAt(Obj(t), p[..n]).Some? {
      var n :| 1 <= n < |p| && LeafAt(Obj(t), p[..n]).Some?;
      LookupStep(t, p, n);
      assert LeafAt(Obj(m), p[1..][..n - 1]).Some?;
    }
    if exists n :: 1 <= n < |p[1..]| && LeafAt(Obj(m), p[1..][..n]).Some? {
      var n :| 1 <= n < |p[1..]| && LeafAt(Obj(m), p[1..][..n]).Some?;
      LookupStep(t, p, n + 1);
      assert LeafAt(Obj(t), p[..n + 1]).Some?;
    }
  }

  /** Every object inside the tree has at least one key. */
  predicate Compact(t: Tree) {
    forall x :: x in t ==> NonEmptyObjects(t[x])
  }

  /** For a leaf value, insertion keeps every object inside the tree non-empty. */
  lemma {:induction false} InsertCompact(t: Tree, p: Path, v: Value)
    requires |p| >= 1 && IsLeaf(v) && Compact(t)
    requires Insert(t, p, v).Some?
    ensures Compact(Insert(t, p, v).value)
    decreases |p|
  {
    if |p| > 1 {
      var m := if p[0] in t then t[p[0]].fields else map[];
      InsertCompact(m, p[1..], v);
      var m' := Insert(m, p[1..], v).value;
      assert p[1] in m' by {
        assert Lookup(Obj(m'), p[1..]).Some?;
      }
    }
  }

  /** For a leaf value, the only leaf an insertion adds is the value itself, at
      the inserted path. */
  lemma {:induction false} InsertLeafOrigin(t: Tree, p: Path, v: Value, q: Path)
    requires |p| >= 1 && IsLeaf(v)
    requires Insert(t, p, v).Some?
    ensures var t' := Insert(t, p, v).value;
      LeafAt(Obj(t'), q).Some? ==>
        (q == p && LeafAt(Obj(t'), q) == Some(v)) || LeafAt(Obj(t), q) == LeafAt(Obj(t'), q)
    decreases |p|
  {
    var t' := Insert(t, p, v).value;
    if |q| == 0 {
    } else if q[0] != p[0] {
      assert Lookup(Obj(t'), q) == Lookup(Obj(t), q);
    } else if |p| == 1 {
      assert t' == t[p[0] := v];
      if |q| == 1 {
        assert q == p;
      } else {
        assert Lookup(Obj(t'), q) == Lookup(v, q[1..]);
      }
    } else {
      var m := if p[0] in t then t[p[0]].fields else map[];
      var m' := Insert(m, p[1..], v).value;
      assert t' == t[p[0] := Obj(m')];
      assert Lookup(Obj(t'), q) == Lookup(Obj(m'), q[1..]);
      if |q| > 1 {
        InsertLeafOrigin(m, p[1..], v, q[1..]);
        assert p[0] in t ==> Lookup(Obj(t), q) == Lookup(Obj(m), q[1..]);
        assert q[1..] == p[1..] ==> q == p by {
          assert q == [q[0]] + q[1..] && p == [p[0]] + p[1..];
        }
      }
    }
  }

  /** `dots_to_deep(d)`: the loop over `d`'s entries in insertion order, written
      as the state after the first `|d|` entries.  Whatever was stored stays
      findable: each entry's value is found at its dotted path, possibly grown by
      later keys when it is itself a dict. */
  function DotsToDeep(d: Dict<Value>): (r: Option<Tree>)
    ensures r.Some? ==> forall i :: 0 <= i < |d| ==> Found(r.value, Split(d[i].0), d[i].1)
    decreases |d|
  {
    if |d| == 0 then Some(map[])
    else
      var n := |d| - 1;
      match DotsToDeep(d[..n])
      case None => None
      case Some(t) =>
        var r := Insert(t, Split(d[n].0), d[n].1);
        if r.None? then None
        else
          FoundKept(d, d[..n], t, r.value);
          r
  }

  /** The entry's value, or a dict grown from it, sits at path `p`. */
  predicate Found(t: Tree, p: Path, v: Value) {
    Lookup(Obj(t), p).Some? && Extends(Lookup(Obj(t), p).value, v)
  }

  lemma FoundKept(d: Dict<Value>, prefix: Dict<Value>, t: Tree, t': Tree)
    requires |d| > 0 && prefix == d[..|d| - 1]
    requires forall i :: 0 <= i < |prefix| ==> Found(t, Split(prefix[i].0), prefix[i].1)
    requires Extends(Obj(t'), Obj(t))
    requires Lookup(Obj(t'), Split(d[|d| - 1].0)) == Some(d[|d| - 1].1)
    ensures forall i :: 0 <= i < |d| ==> Found(t', Split(d[i].0), d[i].1)
  {
    forall i | 0 <= i < |d| ensures Found(t', Split(d[i].0), d[i].1) {
      if i < |d| - 1 {
        assert prefix[i] == d[i];
        var p := Split(d[i].0);
        LookupExtends(Obj(t'), Obj(t), p);
        ExtendsTrans(Lookup(Obj(t'), p).value, Lookup(Obj(t), p).value, d[i].1);
      } else {
        ExtendsRefl(d[i].1);
      }
    }
  }

  /** Once the loop has raised, the whole call has raised. */
  lemma {:induction false} FailurePersists(d: Dict<Value>, n: nat)
    requires n <= |d|
    ensures DotsToDeep(d[..n]).None? ==> DotsToDeep(d).None?
    decreases |d|
  {
    if n < |d| {
      assert d[..|d| - 1][..n] == d[..n];
      FailurePersists(d[..|d| - 1], n);
    } else {
      assert d[..n] == d;
    }
  }

  /** If the path of entry `j` is blocked when the loop reaches it, the call fails. */
  lemma BlockedFails(d: Dict<Value>, j: nat, t: Tree)
    requires j < |d|
    requires DotsToDeep(d[..j]) == Some(t)
    requires Blocked(t, Split(d[j].0))
    ensures DotsToDeep(d).None?
  {
    var d' := d[..j + 1];
    assert d'[..j] == d[..j];
    assert d'[j] == d[j];
    InsertBlocked(t, Split(d[j].0), d[j].1);
    FailurePersists(d, j + 1);
  }

  /** A key whose path is a prefix of (or equal to) the path of an EARLIER key
      fails, whatever the values: that path is already taken. */
  lemma TakenFails(d: Dict<Value>, i: nat, j: nat)
    requires i < j < |d|
    requires Split(d[j].0) <= Split(d[i].0)
    ensures DotsToDeep(d).None?
  {
    FailurePersists(d, j);
    match DotsToDeep(d[..j])
    case None =>
    case Some(t) =>
      var pi, pj := Split(d[i].0), Split(d[j].0);
      assert d[..j][i] == d[i];
      LookupPrefix(Obj(t), pi, |pj|);
      assert pi[..|pj|] == pj;
      BlockedFails(d, j, t);
  }

  /** A key running through a non-dict value stored by an EARLIER key fails. */
  lemma LeafAboveFails(d: Dict<Value>, i: nat, j: nat)
    requires i < j < |d|
    requires Split(d[i].0) < Split(d[j].0)
    requires IsLeaf(d[i].1)
    ensures DotsToDeep(d).None?
  {
    FailurePersists(d, j);
    match DotsToDeep(d[..j])
    case None =>
    case Some(t) =>
      assert d[..j][i] == d[i];
      LeafBlocks(t, Split(d[i].0), Split(d[j].0), d[i].1);
      BlockedFails(d, j, t);
  }

  /** A leaf stored at a proper prefix of `p` blocks `p`. */
  lemma LeafBlocks(t: Tree, q: Path, p: Path, v: Value)
    requires q < p && IsLeaf(v)
    requires Found(t, q, v)
    ensures Blocked(t, p)
  {
    assert Lookup(Obj(t), q) == Some(v);
    assert p[..|q|] == q;
    assert LeafAt(Obj(t), p[..|q|]).Some?;
  }

  /** The collision rule: when one key's path is a prefix of another's and the
      shorter key holds a non-dict value, the call fails in EITHER insertion order.
      Equal paths, that is a repeated key, fail too. */
  lemma CollisionFails(d: Dict<Value>, i: nat, j: nat)
    requires i < |d| && j < |d| && i != j
    ensures Split(d[i].0) <= Split(d[j].0) && IsLeaf(d[i].1) ==> DotsToDeep(d).None?
  {
    if Split(d[i].0) <= Split(d[j].0) && IsLeaf(d[i].1) {
      if j < i {
        TakenFails(d, j, i);
      } else if Split(d[i].0) == Split(d[j].0) {
        TakenFails(d, i, j);
      } else {
        LeafAboveFails(d, i, j);
      }
    }
  }

  /** No value is a dict. */
  predicate Flat(d: Dict<Value>) {
    forall i :: 0 <= i < |d| ==> IsLeaf(d[i].1)
  }

  /** No key's path is a prefix of, or equal to, another key's path. */
  predicate PrefixFree(d: Dict<Value>) {
    forall i, j :: 0 <= i < |d| && 0 <= j < |d| && i != j ==> !(Split(d[i].0) <= Split(d[j].0))
  }

  /** Every leaf of the tree was stored by some entry of `d`, at that entry's path. */
  ghost predicate Provenance(t: Tree, d: Dict<Value>) {
    forall q :: LeafAt(Obj(t), q).Some? ==>
      exists i :: 0 <= i < |d| && Split(d[i].0) == q && d[i].1 == LeafAt(Obj(t), q).value
  }

  lemma FlatPrefix(d: Dict<Value>, n: nat)
    requires n <= |d| && Flat(d)
    ensures Flat(d[..n])
  {
    forall i | 0 <= i < n ensures IsLeaf(d[..n][i].1) {
      assert d[..n][i] == d[i];
    }
  }

  lemma PrefixFreePrefix(d: Dict<Value>, n: nat)
    requires n <= |d| && PrefixFree(d)
    ensures PrefixFree(d[..n])
  {
    forall i, j | 0 <= i < n && 0 <= j < n && i != j ensures !(Split(d[..n][i].0) <= Split(d[..n][j].0)) {
      assert d[..n][i] == d[i] && d[..n][j] == d[j];
    }
  }

  lemma EmptyHasNoLeaves(q: Path)
    ensures LeafAt(Obj(map[]), q).None?
  {
  }

  /** For flat input, the tree built so far has no empty dicts and no leaf that
      some entry did not put there. */
  lemma {:induction false} FlatShape(d: Dict<Value>)
    requires Flat(d) && DotsToDeep(d).Some?
    ensures Compact(DotsToDeep(d).value)
    ensures Provenance(DotsToDeep(d).value, d)
    decreases |d|
  {
    if |d| == 0 {
      forall q ensures LeafAt(Obj(DotsToDeep(d).value), q).None? {
        EmptyHasNoLeaves(q);
      }
    } else {
      var n := |d| - 1;
      var pre := d[..n];
      FailurePersists(d, n);
      FlatPrefix(d, n);
      FlatShape(pre);
      var t := DotsToDeep(pre).value;
      var p, v := Split(d[n].0), d[n].1;
      assert DotsToDeep(d) == Insert(t, p, v);
      InsertCompact(t, p, v);
      var t' := DotsToDeep(d).value;
      forall q | LeafAt(Obj(t'), q).Some?
        ensures exists i :: 0 <= i < |d| && Split(d[i].0) == q && d[i].1 == LeafAt(Obj(t'), q).value
      {
        InsertLeafOrigin(t, p, v, q);
        if q == p && LeafAt(Obj(t'), q) == Some(v) {
          assert Split(d[n].0) == q && d[n].1 == LeafAt(Obj(t'), q).value;
        } else {
          var i :| 0 <= i < |pre| && Split(pre[i].0) == q && pre[i].1 == LeafAt(Obj(t), q).value;
          assert pre[i] == d[i];
        }
      }
    }
  }

  /** In a tree without empty dicts, anything found at `p` has a leaf at or below `p`. */
  lemma SomeLeafBelow(t: Tree, p: Path)
    requires Compact(t) && |p| >= 1
    ensures Lookup(Obj(t), p).Some? ==> exists q :: p <= q && LeafAt(Obj(t), q).Some?
  {
    if Lookup(Obj(t), p).Some? {
      LookupPrefix(Obj(t), p, 1);
      assert p[..1] == [p[0]];
      var u := Lookup(Obj(t), p).value;
      CompactLookup(t, p);
      var q' := HasLeafBelow(u);
      LookupAppend(Obj(t), p, q');
      assert p <= p + q';
      assert LeafAt(Obj(t), p + q').Some?;
    }
  }

  /** Everything found strictly inside a tree without empty dicts has none either. */
  lemma {:induction false} CompactLookup(t: Tree, p: Path)
    requires Compact(t) && |p| >= 1
    requires Lookup(Obj(t), p).Some?
    ensures NonEmptyObjects(Lookup(Obj(t), p).value)
    decreases |p|
  {
    if |p| > 1 {
      var m := t[p[0]].fields;
      assert Lookup(Obj(t), p) == Lookup(Obj(m), p[1..]);
      CompactLookup(m, p[1..]);
    }
  }

  /** With flat, prefix-free input, the leaves stored so far stay clear of the
      path of the next key, in both directions. */
  lemma LeavesClear(d: Dict<Value>)
    requires |d| > 0 && Flat(d) && PrefixFree(d)
    requires DotsToDeep(d[..|d| - 1]).Some?
    ensures var t := DotsToDeep(d[..|d| - 1]).value;
      forall q :: LeafAt(Obj(t), q).Some? ==> !(q <= Split(d[|d| - 1].0)) && !(Split(d[|d| - 1].0) <= q)
  {
    var n := |d| - 1;
    FlatPrefix(d, n);
    FlatShape(d[..n]);
    var t := DotsToDeep(d[..n]).value;
    forall q | LeafAt(Obj(t), q).Some? ensures !(q <= Split(d[n].0)) && !(Split(d[n].0) <= q) {
      var i :| 0 <= i < n && Split(d[..n][i].0) == q && d[..n][i].1 == LeafAt(Obj(t), q).value;
      assert d[..n][i] == d[i];
    }
  }

  /** Flat, prefix-free input always converts. */
  lemma {:induction false} PrefixFreeSucceeds(d: Dict<Value>)
    requires Flat(d) && PrefixFree(d)
    ensures DotsToDeep(d).Some?
    decreases |d|
  {
    if |d| > 0 {
      var n := |d| - 1;
      FlatPrefix(d, n);
      PrefixFreePrefix(d, n);
      PrefixFreeSucceeds(d[..n]);
      FlatShape(d[..n]);
      var t := DotsToDeep(d[..n]).value;
      var p := Split(d[n].0);
      LeavesClear(d);
      ClearNotBlocked(t, p);
      InsertBlocked(t, p, d[n].1);
    }
  }

  /** A path that no leaf lies on or below is not blocked. */
  lemma ClearNotBlocked(t: Tree, p: Path)
    requires Compact(t) && |p| >= 1
    requires forall q :: LeafAt(Obj(t), q).Some? ==> !(q <= p) && !(p <= q)
    ensures !Blocked(t, p)
  {
    SomeLeafBelow(t, p);
    forall k | 1 <= k < |p| ensures LeafAt(Obj(t), p[..k]).None? {
      assert p[..k] <= p;
    }
  }

  /** Flat input that converts is prefix-free. */
  lemma SucceedsPrefixFree(d: Dict<Value>)
    requires Flat(d)
    ensures DotsToDeep(d).Some? ==> PrefixFree(d)
  {
    forall i, j | 0 <= i < |d| && 0 <= j < |d| && i != j
      ensures Split(d[i].0) <= Split(d[j].0) ==> DotsToDeep(d).None?
    {
      CollisionFails(d, i, j);
    }
  }

  /** What a flat input dict holds at the dotted name spelled by path `q`. */
  function ValueAtPath(m: map<string, Value>, q: Path): Option<Value> {
    if |q| >= 1 && (forall i :: 0 <= i < |q| ==> NoDot(q[i])) && Join(q) in m then Some(m[Join(q)])
    else None
  }

  lemma PrefixFreeNoDup(d: Dict<Value>)
    requires PrefixFree(d)
    ensures NoDupKeys(d)
  {
    forall i, j | 0 <= i < j < |d| ensures d[i].0 != d[j].0 {
      assert !(Split(d[i].0) <= Split(d[j].0));
    }
  }

  /** Every leaf sits at the path of exactly the key that holds it in the input. */
  lemma FlatLeaves(d: Dict<Value>)
    requires Flat(d) && DotsToDeep(d).Some?
    ensures forall q :: LeafAt(Obj(DotsToDeep(d).value), q) == ValueAtPath(ToMap(d), q)
  {
    SucceedsPrefixFree(d);
    PrefixFreeNoDup(d);
    FlatShape(d);
    forall q ensures LeafAt(Obj(DotsToDeep(d).value), q) == ValueAtPath(ToMap(d), q) {
      if LeafAt(Obj(DotsToDeep(d).value), q).Some? {
        LeafHasKey(d, q);
      } else if ValueAtPath(ToMap(d), q).Some? {
        KeyHasLeaf(d, q);
      }
    }
  }

  /** A leaf of the result is what its path's key holds in the input. */
  lemma LeafHasKey(d: Dict<Value>, q: Path)
    requires NoDupKeys(d) && DotsToDeep(d).Some? && Provenance(DotsToDeep(d).value, d)
    requires LeafAt(Obj(DotsToDeep(d).value), q).Some?
    ensures LeafAt(Obj(DotsToDeep(d).value), q) == ValueAtPath(ToMap(d), q)
  {
    var t := DotsToDeep(d).value;
    var i :| 0 <= i < |d| && Split(d[i].0) == q && d[i].1 == LeafAt(Obj(t), q).value;
    JoinSplit(d[i].0);
    GetAt(d, i);
  }

  /** A key of flat input holds a leaf of the result at its path. */
  lemma KeyHasLeaf(d: Dict<Value>, q: Path)
    requires Flat(d) && NoDupKeys(d)
    requires ValueAtPath(ToMap(d), q).Some?
    ensures DotsToDeep(d).Some? ==> LeafAt(Obj(DotsToDeep(d).value), q) == ValueAtPath(ToMap(d), q)
  {
    if DotsToDeep(d).Some? {
      var t := DotsToDeep(d).value;
      var i :| 0 <= i < |d| && d[i].0 == Join(q);
      SplitJoin(q);
      GetAt(d, i);
      assert Found(t, Split(d[i].0), d[i].1);
    }
  }

  /** The flat-input theorem: the call succeeds exactly when no key's path is a
      prefix of another's, and then the leaves of the result are the input's values,
      each at the path its key spells. */
  lemma DotsToDeepFlat(d: Dict<Value>)
    requires Flat(d)
    ensures DotsToDeep(d).Some? <==> PrefixFree(d)
    ensures DotsToDeep(d).Some? ==>
      forall q :: LeafAt(Obj(DotsToDeep(d).value), q) == ValueAtPath(ToMap(d), q)
  {
    SucceedsPrefixFree(d);
    if PrefixFree(d) {
      PrefixFreeSucceeds(d);
    }
    if DotsToDeep(d).Some? {
      FlatLeaves(d);
    }
  }

  /** A leaf somewhere under key `x` of a tree without empty dicts. */
  lemma LeafUnder(t: Tree, x: string) returns (q: Path)
    requires Compact(t) && x in t
    ensures |q| >= 1 && q[0] == x && LeafAt(Obj(t), q).Some?
    ensures t[x].Obj? ==> |q| >= 2
  {
    var q' := HasLeafBelow(t[x]);
    q := [x] + q';
    assert q[1..] == q';
  }

  lemma ChildLeaves(t: Tree, x: string, q: Path)
    requires x in t
    ensures LeafAt(Obj(t), [x] + q) == LeafAt(t[x], q)
  {
    assert ([x] + q)[1..] == q;
  }

  /** Trees without empty dicts are equal when they have the same leaves. */
  lemma {:induction false} SameLeavesSameTree(t1: Tree, t2: Tree)
    requires Compact(t1) && Compact(t2)
    requires forall q :: LeafAt(Obj(t1), q) == LeafAt(Obj(t2), q)
    ensures t1 == t2
    decreases Obj(t1), 1
  {
    forall x | x in t1 ensures x in t2 && t2[x] == t1[x] {
      SameChild(t1, t2, x);
    }
    forall x | x in t2 ensures x in t1 {
      var q := LeafUnder(t2, x);
      assert LeafAt(Obj(t1), q).Some?;
    }
  }

  lemma {:induction false} SameChild(t1: Tree, t2: Tree, x: string)
    requires Compact(t1) && Compact(t2) && x in t1
    requires forall q :: LeafAt(Obj(t1), q) == LeafAt(Obj(t2), q)
    ensures x in t2 && t2[x] == t1[x]
    decreases Obj(t1), 0
  {
    var q := LeafUnder(t1, x);
    assert LeafAt(Obj(t2), q).Some?;
    ChildLeaves(t1, x, []);
    if t1[x].Obj? {
      LookupPrefix(Obj(t2), q, 1);
      assert q[..1] == [x];
      ChildLeaves(t2, x, []);
      var m1, m2 := t1[x].fields, t2[x].fields;
      forall q' ensures LeafAt(Obj(m1), q') == LeafAt(Obj(m2), q') {
        ChildLeaves(t1, x, q');
        ChildLeaves(t2, x, q');
      }
      SameLeavesSameTree(m1, m2);
    } else {
      ChildLeaves(t1, x, []);
      assert [x] + [] == [x];
      assert LeafAt(t1[x], []) == Some(t1[x]);
      assert Lookup(Obj(t2), [x]) == Some(t1[x]);
    }
  }

  lemma PrefixFreeKeys(d: Dict<Value>)
    requires NoDupKeys(d)
    ensures PrefixFree(d) <==> KeysPrefixFree(ToMap(d))
  {
    var m := ToMap(d);
    if PrefixFree(d) {
      forall k1, k2 | k1 in m && k2 in m && k1 != k2 ensures !(Split(k1) <= Split(k2)) {
        var i :| 0 <= i < |d| && d[i].0 == k1;
        var j :| 0 <= j < |d| && d[j].0 == k2;
      }
    }
    if KeysPrefixFree(m) {
      forall i, j | 0 <= i < |d| && 0 <= j < |d| && i != j ensures !(Split(d[i].0) <= Split(d[j].0)) {
        assert HasKey(d, d[i].0) && HasKey(d, d[j].0);
      }
    }
  }

  predicate KeysPrefixFree(m: map<string, Value>) {
    forall k1, k2 :: k1 in m && k2 in m && k1 != k2 ==> !(Split(k1) <= Split(k2))
  }

  /** For flat input, the result depends only on the dict's contents, not on the
      order its keys were inserted in. */
  lemma OrderIndependent(d1: Dict<Value>, d2: Dict<Value>)
    requires Flat(d1) && Flat(d2) && NoDupKeys(d1) && NoDupKeys(d2)
    requires ToMap(d1) == ToMap(d2)
    ensures DotsToDeep(d1) == DotsToDeep(d2)
  {
    PrefixFreeKeys(d1);
    PrefixFreeKeys(d2);
    DotsToDeepFlat(d1);
    DotsToDeepFlat(d2);
    if DotsToDeep(d1).Some? {
      FlatShape(d1);
      FlatShape(d2);
      SameLeavesSameTree(DotsToDeep(d1).value, DotsToDeep(d2).value);
    }
  }

  /** Keys without dots come through unchanged: the result is the dict itself. */
  lemma {:induction false} NoDotsIdentity(d: Dict<Value>)
    requires NoDupKeys(d)
    requires forall i :: 0 <= i < |d| ==> NoDot(d[i].0)
    ensures DotsToDeep(d) == Some(ToMap(d))
    decreases |d|
  {
    if |d| > 0 {
      var n := |d| - 1;
      var pre, e := d[..n], d[n];
      assert NoDupKeys(pre) by {
        forall i, j | 0 <= i < j < n ensures pre[i].0 != pre[j].0 {
          assert pre[i] == d[i] && pre[j] == d[j];
        }
      }
      forall i | 0 <= i < n ensures NoDot(pre[i].0) {
        assert pre[i] == d[i];
      }
      NoDotsIdentity(pre);
      LastFresh(d);
      assert d == pre + [e];
      ToMapAppend(d, pre, e);
      NoDotsStep(pre, ToMap(pre), e);
    }
  }

  /** One more fresh, dot-free key is stored at the top level. */
  lemma NoDotsStep(pre: Dict<Value>, t: Tree, e: (string, Value))
    requires DotsToDeep(pre) == Some(t)
    requires NoDot(e.0) && e.0 !in t
    ensures DotsToDeep(pre + [e]) == Some(t[e.0 := e.1])
  {
    SplitSingleDotFree(e.0);
    DotsToDeepStep(pre, e);
  }

  /** One more entry: the loop's next turn. */
  lemma DotsToDeepStep(d: Dict<Value>, e: (string, Value))
    ensures DotsToDeep(d + [e])
         == if DotsToDeep(d).None? then None else Insert(DotsToDeep(d).value, Split(e.0), e.1)
  {
    assert (d + [e])[..|d|] == d;
  }

  lemma PathAB()
    ensures Split("a.b") == ["a", "b"]
  {
    assert "a" + "." + "b" == "a.b";
    SplitTwo("a", "b");
  }

  lemma PathAC()
    ensures Split("a.c") == ["a", "c"]
  {
    assert "a" + "." + "c" == "a.c";
    SplitTwo("a", "c");
  }

  lemma PathABC()
    ensures Split("a.b.c") == ["a", "b", "c"]
  {
    assert "a" + "." + "b" + "." + "c" == "a.b.c";
    SplitThree("a", "b", "c");
  }

  /** `{'a.b': 1, 'c': 2}` nests the dotted key and keeps the plain one. */
  lemma ExampleTwoLevel()
    ensures DotsToDeep([("a.b", Num(1.0)), ("c", Num(2.0))])
         == Some(map["a" := Obj(map["b" := Num(1.0)]), "c" := Num(2.0)])
  {
    var t := map["a" := Obj(map["b" := Num(1.0)])];
    FirstTwoLevel();
    SecondPlain([("a.b", Num(1.0))], t, "c", Num(2.0));
  }

  lemma FirstTwoLevel()
    ensures DotsToDeep([("a.b", Num(1.0))]) == Some(map["a" := Obj(map["b" := Num(1.0)])])
  {
    PathAB();
    DotsToDeepStep([], ("a.b", Num(1.0)));
    assert [] + [("a.b", Num(1.0))] == [("a.b", Num(1.0))];
    assert ["a", "b"][1..] == ["b"];
  }

  /** `{'a.b.c': 1, 'c': 2}`: a key three levels deep. */
  lemma ExampleThreeLevel()
    ensures DotsToDeep([("a.b.c", Num(1.0)), ("c", Num(2.0))])
         == Some(map["a" := Obj(map["b" := Obj(map["c" := Num(1.0)])]), "c" := Num(2.0)])
  {
    var t := map["a" := Obj(map["b" := Obj(map["c" := Num(1.0)])])];
    FirstThreeLevel();
    SecondPlain([("a.b.c", Num(1.0))], t, "c", Num(2.0));
  }

  lemma FirstThreeLevel()
    ensures DotsToDeep([("a.b.c", Num(1.0))]) == Some(map["a" := Obj(map["b" := Obj(map["c" := Num(1.0)])])])
  {
    PathABC();
    DotsToDeepStep([], ("a.b.c", Num(1.0)));
    assert [] + [("a.b.c", Num(1.0))] == [("a.b.c", Num(1.0))];
    var p := ["a", "b", "c"];
    assert p[1..] == ["b", "c"] && p[1..][1..] == ["c"];
  }

  /** A second, dot-free key that is new is added at the top level. */
  lemma SecondPlain(first: Dict<Value>, t: Tree, k: string, v: Value)
    requires |first| == 1 && DotsToDeep(first) == Some(t)
    requires NoDot(k) && k !in t
    ensures DotsToDeep(first + [(k, v)]) == Some(t[k := v])
  {
    SplitSingleDotFree(k);
    DotsToDeepStep(first, (k, v));
  }

  /** A plain key and a dotted key below it collide, in either order. */
  lemma ExampleCollision()
    ensures DotsToDeep([("a", Num(1.0)), ("a.b", Num(1.0)), ("c", Num(2.0))]).None?
    ensures DotsToDeep([("a.b", Num(1.0)), ("a", Num(1.0)), ("c", Num(2.0))]).None?
  {
    SplitSingleDotFree("a");
    PathAB();
    var d1 := [("a", Num(1.0)), ("a.b", Num(1.0)), ("c", Num(2.0))];
    var d2 := [("a.b", Num(1.0)), ("a", Num(1.0)), ("c", Num(2.0))];
    assert ["a"] <= ["a", "b"];
    CollisionFails(d1, 0, 1);
    CollisionFails(d2, 1, 0);
  }

  /** Collisions two levels down, in either order. */
  lemma ExampleDeepCollision()
    ensures DotsToDeep([("a.b.c", Num(1.0)), ("a.b", Num(1.0))]).None?
    ensures DotsToDeep([("a.b", Num(1.0)), ("a.b.c", Num(1.0))]).None?
  {
    PathAB();
    PathABC();
    assert ["a", "b"] <= ["a", "b", "c"];
    CollisionFails([("a.b.c", Num(1.0)), ("a.b", Num(1.0))], 1, 0);
    CollisionFails([("a.b", Num(1.0)), ("a.b.c", Num(1.0))], 0, 1);
  }

  /** A single key without dots is stored as it is. */
  lemma SingleKey(k: string, v: Value)
    requires NoDot(k)
    ensures DotsToDeep([(k, v)]) == Some(map[k := v])
  {
    NoDotsIdentity([(k, v)]);
    assert [(k, v)][1..] == [];
  }

  lemma LookupTwo(t: Tree, a: string, b: string)
    requires a in t && t[a].Obj? && b in t[a].fields
    ensures Lookup(Obj(t), [a, b]) == Some(t[a].fields[b])
  {
    assert [a, b][1..] == [b] && [b][1..] == [];
    assert Lookup(Obj(t), [a, b]) == Lookup(t[a], [b]);
    assert Lookup(t[a], [b]) == Lookup(t[a].fields[b], []);
  }

  lemma InsertTwo(t: Tree, a: string, c: string, v: Value)
    requires a in t && t[a].Obj? && c !in t[a].fields
    ensures Insert(t, [a, c], v) == Some(t[a := Obj(t[a].fields[c := v])])
  {
    assert [a, c][1..] == [c];
  }

  /** A dict value is walked into: `{'a': {'b': 1}, 'a.b.c': 1}` fails because
      `a.b` is a number. */
  lemma ExampleDictValueCollision()
    ensures DotsToDeep([("a", Obj(map["b" := Num(1.0)])), ("a.b.c", Num(1.0))]).None?
  {
    var e0, e1 := ("a", Obj(map["b" := Num(1.0)])), ("a.b.c", Num(1.0));
    PathABC();
    SingleKey("a", e0.1);
    var t := map["a" := e0.1];
    var p := ["a", "b", "c"];
    assert p[..2] == ["a", "b"];
    LookupTwo(t, "a", "b");
    assert LeafAt(Obj(t), p[..2]).Some?;
    assert [e0, e1][..1] == [e0];
    BlockedFails([e0, e1], 1, t);
  }

  /** With dict values the outcome depends on insertion order: a dict value
      stored first is walked into by a later dotted key... */
  lemma DictValueFirstSucceeds()
    ensures DotsToDeep([("a", Obj(map["b" := Num(1.0)])), ("a.c", Num(2.0))])
         == Some(map["a" := Obj(map["b" := Num(1.0), "c" := Num(2.0)])])
  {
    PathAC();
    assert NoDot("a") && "b" != "c";
    DictThenDotted("a", "b", "c", "a.c", Num(1.0), Num(2.0));
  }

  lemma DictThenDotted(a: string, b: string, c: string, k: string, x: Value, y: Value)
    requires NoDot(a) && b != c && Split(k) == [a, c]
    ensures DotsToDeep([(a, Obj(map[b := x])), (k, y)]) == Some(map[a := Obj(map[b := x, c := y])])
  {
    var e0, e1 := (a, Obj(map[b := x])), (k, y);
    SingleKey(a, e0.1);
    var t := map[a := e0.1];
    SecondUnder([e0], t, k, a, c, y);
    assert [e0] + [e1] == [e0, e1];
    assert t[a := Obj(t[a].fields[c := y])] == map[a := Obj(map[b := x, c := y])];
  }

  /** A second key `a.c` under an existing dict `a` without `c` is added inside it. */
  lemma SecondUnder(first: Dict<Value>, t: Tree, k: string, a: string, c: string, v: Value)
    requires DotsToDeep(first) == Some(t)
    requires Split(k) == [a, c]
    requires a in t && t[a].Obj? && c !in t[a].fields
    ensures DotsToDeep(first + [(k, v)]) == Some(t[a := Obj(t[a].fields[c := v])])
  {
    InsertTwo(t, a, c, v);
    DotsToDeepStep(first, (k, v));
  }
  /** ...while the same two entries the other way round fail, because the plain
      key finds its name taken by the dict the dotted key created. */
  lemma DictValueLastFails()
    ensures DotsToDeep([("a.c", Num(2.0)), ("a", Obj(map["b" := Num(1.0)]))]).None?
  {
    SplitSingleDotFree("a");
    PathAC();
    assert ["a"] <= ["a", "c"];
    TakenFails([("a.c", Num(2.0)), ("a", Obj(map["b" := Num(1.0)]))], 0, 1);
  }
}

=== FILE: json.dfy ===
/** JSON-like field values: what an event may carry and what `dots_to_deep` builds.
    Nested objects are maps because the model does not render JSON text, so the
    order of keys inside a nested object never matters to it. */
module Json {
  import opened Wrappers

  datatype Value =
    | Null
    | Bool(b: bool)
    | Num(n: real)
    | Str(s: string)
    | Arr(items: seq<Value>)
    | Obj(fields: map<string, Value>)

  type Path = seq<string>

  /** A value `dots_to_deep` never walks into: anything but a dict. */
  predicate IsLeaf(v: Value) {
    !v.Obj?
  }

  /** The value reached from `v` by following the keys of `p` through nested objects. */
  function Lookup(v: Value, p: Path): Option<Value>
    decreases |p|
  {
    if |p| == 0 then Some(v)
    else match v
      case Obj(m) => if p[0] in m then Lookup(m[p[0]], p[1..]) else None
      case _ => None
  }

  /** The leaf reached from `v` along `q`, if `q` ends on one. */
  function LeafAt(v: Value, q: Path): (r: Option<Value>)
    ensures r.Some? ==> Lookup(v, q) == r && IsLeaf(r.value)
    ensures Lookup(v, q).Some? && IsLeaf(Lookup(v, q).value) ==> r == Lookup(v, q)
  {
    var found := Lookup(v, q);
    if found.Some? && IsLeaf(found.value) then found else None
  }

  /** `big` is `small` with possibly more keys added inside its objects: nothing of
      `small` was removed or replaced. */
  predicate Extends(big: Value, small: Value)
    decreases small
  {
    match small
    case Obj(m) =>
      && big.Obj?
      && forall x :: x in m ==> x in big.fields && Extends(big.fields[x], m[x])
    case _ => big == small
  }

  /** Every object reachable from `v` has at least one key. */
  predicate NonEmptyObjects(v: Value)
    decreases v
  {
    match v
    case Obj(m) => |m| > 0 && forall x :: x in m ==> NonEmptyObjects(m[x])
    case _ => true
  }

  lemma {:induction false} ExtendsRefl(v: Value)
    ensures Extends(v, v)
    decreases v
  {
    match v
    case Obj(m) =>
      forall x | x in m ensures Extends(m[x], m[x]) {
        ExtendsRefl(m[x]);
      }
    case _ =>
  }

  lemma {:induction false} ExtendsTrans(a: Value, b: Value, c: Value)
    requires Extends(a, b) && Extends(b, c)
    ensures Extends(a, c)
    decreases c
  {
    match c
    case Obj(m) =>
      forall x | x in m ensures x in a.fields && Extends(a.fields[x], m[x]) {
        ExtendsTrans(a.fields[x], b.fields[x], m[x]);
      }
    case _ =>
  }

  /** What can be looked up in a value can still be looked up in any extension of
      it, and what is found there extends what was found before. */
  lemma {:induction false} LookupExtends(big: Value, small: Value, p: Path)
    requires Extends(big, small)
    requires Lookup(small, p).Some?
    ensures Lookup(big, p).Some?
    ensures Extends(Lookup(big, p).value, Lookup(small, p).value)
    decreases |p|
  {
    if |p| > 0 {
      LookupExtends(big.fields[p[0]], small.fields[p[0]], p[1..]);
    }
  }

  /** A path that reaches something passes through objects all the way. */
  lemma {:induction false} LookupPrefix(v: Value, p: Path, n: nat)
    requires n <= |p|
    requires Lookup(v, p).Some?
    ensures Lookup(v, p[..n]).Some?
    ensures n < |p| ==> Lookup(v, p[..n]).value.Obj?
    decreases |p|
  {
    if n > 0 {
      assert p[..n][1..] == p[1..][..n - 1];
      LookupPrefix(v.fields[p[0]], p[1..], n - 1);
    }
  }

  /** Looking up `p + q` is looking up `q` in what `p` reaches. */
  lemma {:induction false} LookupAppend(v: Value, p: Path, q: Path)
    ensures Lookup(v, p + q) == if Lookup(v, p).Some? then Lookup(Lookup(v, p).value, q) else None
    decreases |p|
  {
    if |p| > 0 {
      assert (p + q)[0] == p[0];
      assert (p + q)[1..] == p[1..] + q;
      if v.Obj? && p[0] in v.fields {
        LookupAppend(v.fields[p[0]], p[1..], q);
      }
    } else {
      assert p + q == q;
    }
  }

  /** An object whose objects are all non-empty has a leaf somewhere below it. */
  lemma {:induction false} HasLeafBelow(v: Value) returns (q: Path)
    requires NonEmptyObjects(v)
    ensures Lookup(v, q).Some? && IsLeaf(Lookup(v, q).value)
    ensures v.Obj? ==> |q| > 0
    decreases v
  {
    match v
    case Obj(m) =>
      var x :| x in m;
      var q' := HasLeafBelow(m[x]);
      q := [x] + q';
      assert q[1..] == q';
    case _ =>
      q := [];
  }
}

=== FILE: skyline_client.dfy ===
/** The client of skyline/client.py: the older client, with no `start`, no
    timers and no `attach_exception`.  Its `evented` writes the exception into
    the event itself and re-raises it unchanged. */
module SkylineClient {
  import opened Wrappers
  import opened Strings
  import opened Dict
  import opened Json
  import opened Wire
  import opened SkylineEvent

  datatype Client = Client(config: Config, current: Option<Event>)

  const NoEventFound := "No event found"
  const EventAlreadyCreated := "Event already created"

  /** `log(message)`: printed only in debug mode. */
  function Log(c: Client, message: string): (printed: seq<string>)
    ensures printed == [] || printed == [message]
    ensures printed != [] <==> c.config.debug
  {
    if c.config.debug then [message] else []
  }

  /** `new_event(data)`: an event owned by this client. */
  function NewEvent(c: Client, data: Dict<Value>, createdAt: Timestamp): (e: Event)
    ensures e.dataset == c.config.dataset && e.owner == Some(c.config) && e.rollups == []
    ensures NoDupKeys(data) ==> Fields(e) == data
  {
    var e := New(data, createdAt, Some(c.config));
    assert NoDupKeys(data) ==> Fields(e) == data by {
      if NoDupKeys(data) { FieldsOfNew(data, createdAt, Some(c.config)); }
    }
    e
  }

  /** `send(ev)` up to the `print`. */
  function Send(c: Client, e: Event, version: string): (r: Result<Payload, Error>)
    ensures r.Success? <==> Flatten.DotsToDeep(Fields(e)).Some?
    ensures r.Success? ==> r.value.dataset == e.dataset && r.value.time == EventTime(e.createdAt)
    ensures r.Success? ==> (r.value.indent == Some(2) <==> c.config.debug)
    ensures r.Success? ==> r.value.client == ClientPrefix + version
    ensures r.Success? ==> Some(r.value.data) == Flatten.DotsToDeep(Fields(e))
  {
    BuildPayload(e.createdAt, e.dataset, Fields(e), c.config.debug, version)
  }

  /** `done()`: send the current event, then forget it. */
  function Done(c: Client, version: string): (r: Step<Client, ()>)
    ensures r.printed == [] && r.state.config == c.config
    ensures c.current.None? ==> r == Step(c, [], [], Raised(NoCurrentEvent))
    ensures r.outcome.Returned? <==> c.current.Some? && Send(c, c.current.value, version).Success?
    ensures r.outcome.Returned? ==>
      r.state.current.None? && r.emitted == [Send(c, c.current.value, version).value]
    ensures r.outcome.Raised? ==> r.state == c && r.emitted == []
  {
    match c.current
    case None => Step(c, [], [], Raised(NoCurrentEvent))
    case Some(e) =>
      match Send(c, e, version)
      case Failure(err) => Step(c, [], [], Raised(err))
      case Success(p) => Step(c.(current := None), [p], [], Returned(()))
  }

  /** `add_context_field(name, value)`. */
  function AddContextField(c: Client, name: string, value: Value): (r: Step<Client, ()>)
    ensures r.emitted == [] && r.outcome == Returned(()) && r.state.config == c.config
    ensures c.current.Some? ==> r.printed == [] && r.state.current == Some(AddField(c.current.value, name, value))
    ensures c.current.None? ==> r.state == c && r.printed == Log(c, NoEventFound)
  {
    match c.current
    case Some(e) => Step(c.(current := Some(AddField(e, name, value))), [], [], Returned(()))
    case None => Step(c, [], Log(c, NoEventFound), Returned(()))
  }

  /** `add_context(data)`. */
  function AddContext(c: Client, data: Dict<Value>): (r: Step<Client, ()>)
    ensures r.emitted == [] && r.outcome == Returned(()) && r.state.config == c.config
    ensures c.current.Some? ==> r.printed == [] && r.state.current == Some(Add(c.current.value, data))
    ensures c.current.None? ==> r.state == c && r.printed == Log(c, NoEventFound)
  {
    match c.current
    case Some(e) => Step(c.(current := Some(Add(e, data))), [], [], Returned(()))
    case None => Step(c, [], Log(c, NoEventFound), Returned(()))
  }

  /** `add_rollup_field(name, value)`. */
  function AddRollupField(c: Client, name: string, amount: real): (r: Step<Client, ()>)
    ensures r.emitted == [] && r.outcome == Returned(()) && r.state.config == c.config
    ensures c.current.Some? ==> r.printed == [] && r.state.current == Some(SkylineEvent.AddRollupField(c.current.value, name, amount))
    ensures c.current.None? ==> r.state == c && r.printed == Log(c, NoEventFound)
  {
    match c.current
    case Some(e) => Step(c.(current := Some(SkylineEvent.AddRollupField(e, name, amount))), [], [], Returned(()))
    case None => Step(c, [], Log(c, NoEventFound), Returned(()))
  }

  /** What one mutator does to an event.  The client has no `add_timer_field`,
      so a timed block leaves the event as it was; `Perform` stops before one and
      `BlockExit` raises the `AttributeError` it causes. */
  function ApplyOp(e: Event, op: Op): (r: Event)
    ensures r.dataset == e.dataset && r.createdAt == e.createdAt && r.owner == e.owner
    ensures WellFormed(e) ==> WellFormed(r)
    ensures op.SetField? ==> r.rollups == e.rollups && Get(r.data, op.name) == Some(op.value)
    ensures op.SetField? ==> forall k :: k != op.name ==> Get(r.data, k) == Get(e.data, k)
    ensures op.Merge? ==> r.rollups == e.rollups
    ensures op.Merge? ==>
      forall k :: Get(r.data, k) == if HasKey(op.data, k) then Last(op.data, k) else Get(e.data, k)
    ensures op.Rollup? ==> r.data == e.data
    ensures op.Rollup? ==>
      AirlineEvent.Total(r.rollups, op.name) == AirlineEvent.Total(e.rollups, op.name) + op.amount
    ensures op.Rollup? ==> forall k :: k != op.name ==> Get(r.rollups, k) == Get(e.rollups, k)
    ensures op.Time? ==> r == e
  {
    match op
    case SetField(n, v) => AddField(e, n, v)
    case Merge(d) => Add(e, d)
    case Rollup(n, x) => SkylineEvent.AddRollupField(e, n, x)
    case Time(_, _, _, _) => e
  }

  /** The mutators of a block applied to an event in order, up to its first timed
      block: that one raises, which ends the block. */
  function Perform(e: Event, ops: seq<Op>): (r: Event)
    ensures r.dataset == e.dataset && r.createdAt == e.createdAt && r.owner == e.owner
    ensures WellFormed(e) ==> WellFormed(r)
    decreases |ops|
  {
    if |ops| == 0 || ops[0].Time? then e else Perform(ApplyOp(e, ops[0]), ops[1..])
  }

  /** Nothing after a block's first timed block reaches the event. */
  lemma {:induction false} StopsAtTimer(e: Event, a: seq<Op>, t: Op, b: seq<Op>)
    requires !OpensTimer(a) && t.Time?
    ensures Perform(e, a + [t] + b) == Perform(e, a)
    decreases |a|
  {
    var ops := a + [t] + b;
    if |a| == 0 {
      assert ops[0] == t;
    } else {
      OpensTimerCons(a);
      assert ops[0] == a[0];
      assert ops[1..] == a[1..] + [t] + b;
      StopsAtTimer(ApplyOp(e, a[0]), a[1..], t, b);
    }
  }

  /** How a block ends under this client: a timed block inside it raises the
      `AttributeError` for `add_timer_field`, which ends the block; otherwise
      the block ends as it says. */
  function BlockExit(body: Body): (x: Exit)
    ensures OpensTimer(body.ops) ==> x == Threw(MissingMethod("add_timer_field"))
    ensures !OpensTimer(body.ops) ==> x == body.exit
  {
    if OpensTimer(body.ops) then Threw(MissingMethod("add_timer_field")) else body.exit
  }

  /** The `except Exception` clause: `status`, `exception.message` and
      `exception.type` written into the event. */
  function Annotate(e: Event, x: Exc): (r: Event)
    ensures r == e.(data := r.data)
    ensures Get(r.data, "status") == Some(Str("ERROR"))
    ensures Get(r.data, "exception.message") == Some(Str(x.message))
    ensures Get(r.data, "exception.type") == Some(Str(x.className))
    ensures forall k :: k != "status" && k != "exception.message" && k != "exception.type" ==>
      Get(r.data, k) == Get(e.data, k)
  {
    var e1 := AddField(e, "status", Str("ERROR"));
    var e2 := AddField(e1, "exception.message", Str(x.message));
    AddField(e2, "exception.type", Str(x.className))
  }

  /** The event `evented` hands to `done` when it created the event itself: the
      block's mutators applied, the exception written in when the block raised an
      `Exception`, and the elapsed milliseconds (unrounded) as `duration_ms`. */
  function Finished(c: Client, body: Body, createdAt: Timestamp, start: real, stop: real): (e: Event)
    ensures e.dataset == c.config.dataset && e.owner == Some(c.config)
    ensures Get(e.data, "duration_ms") == Some(Num((stop - start) * 1000.0))
    ensures BlockExit(body).Threw? && BlockExit(body).exc.isException ==>
      && Get(e.data, "status") == Some(Str("ERROR"))
      && Get(e.data, "exception.message") == Some(Str(BlockExit(body).exc.message))
      && Get(e.data, "exception.type") == Some(Str(BlockExit(body).exc.className))
    ensures var w := Perform(NewEvent(c, [], createdAt), body.ops);
      && e.rollups == w.rollups
      && forall k :: k != "duration_ms" && k != "status" && k != "exception.message" && k != "exception.type" ==>
        Get(e.data, k) == Get(w.data, k)
  {
    var worked := Perform(NewEvent(c, [], createdAt), body.ops);
    var exit := BlockExit(body);
    var annotated :=
      if exit.Threw? && exit.exc.isException then Annotate(worked, exit.exc) else worked;
    AddField(annotated, "duration_ms", Num((stop - start) * 1000.0))
  }

  /** `with client.evented(): <block>`.  Entered with no current event, it opens
      one, runs the block and sends the `Finished` event once (if its fields
      convert); the block's result or exception then passes through unchanged,
      and an exception raised by `done` replaces it.  Entered with an event
      already current, the local `event` is never bound, so the `except` or
      `finally` clause raises `UnboundLocalError` and nothing is sent. */
  function Evented(c: Client, body: Body, createdAt: Timestamp, start: real, stop: real, version: string)
    : (r: Step<Client, Value>)
    ensures r.state.config == c.config
    ensures c.current.Some? ==>
      && r.outcome == Raised(UnboundEvent) && r.emitted == []
      && r.state.current == Some(Perform(c.current.value, body.ops))
      && r.printed == Log(c, EventAlreadyCreated)
    ensures c.current.None? ==>
      var sent := Finished(c, body, createdAt, start, stop);
      && r.printed == []
      && (r.emitted != [] <==> Send(c, sent, version).Success?)
      && (r.emitted != [] ==> r.emitted == [Send(c, sent, version).value] && r.state.current.None?)
      && (r.emitted != [] ==> r.outcome == Propagate(BlockExit(body)))
      && (r.emitted == [] ==> r.outcome == Raised(NestingCollision) && r.state.current == Some(sent))
  {
    if c.current.Some? then
      Step(c.(current := Some(Perform(c.current.value, body.ops))), [], Log(c, EventAlreadyCreated), Raised(UnboundEvent))
    else
      Close(c, Finished(c, body, createdAt, start, stop), Propagate(BlockExit(body)), version)
  }

  /** The `finally` clause of `evented` when it opened the event itself: `done()`
      on the annotated event.  The block's result or exception survives unless
      `done` raises. */
  function Close(c: Client, sent: Event, pending: Outcome<Value>, version: string): (r: Step<Client, Value>)
    ensures r.printed == [] && r.state.config == c.config
    ensures r.emitted != [] <==> Send(c, sent, version).Success?
    ensures r.emitted != [] ==> r.emitted == [Send(c, sent, version).value]
    ensures r.emitted != [] ==> r.state.current.None? && r.outcome == pending
    ensures r.emitted == [] ==> r.outcome == Raised(NestingCollision) && r.state.current == Some(sent)
  {
    var d := Done(c.(current := Some(sent)), version);
    Step(d.state, d.emitted, [], if d.outcome.Raised? then Raised(d.outcome.error) else pending)
  }

  /** The event `evented` sends reports the `duration_ms` it wrote: no rollup can
      shadow it. */
  lemma FinishedDuration(c: Client, body: Body, createdAt: Timestamp, start: real, stop: real)
    ensures Get(Fields(Finished(c, body, createdAt, start, stop)), "duration_ms") == Some(Num((stop - start) * 1000.0))
  {
    DiffersAt("duration_ms", RollupPrefix, 0);
    DiffersAt("duration_ms", TimerPrefix, 0);
    PlainFieldReported(Finished(c, body, createdAt, start, stop), "duration_ms");
  }

  /** On the error path it also reports the three exception fields it wrote. */
  lemma FinishedException(c: Client, body: Body, createdAt: Timestamp, start: real, stop: real)
    requires BlockExit(body).Threw? && BlockExit(body).exc.isException
    ensures var sent := Finished(c, body, createdAt, start, stop);
      && Get(Fields(sent), "status") == Some(Str("ERROR"))
      && Get(Fields(sent), "exception.message") == Some(Str(BlockExit(body).exc.message))
      && Get(Fields(sent), "exception.type") == Some(Str(BlockExit(body).exc.className))
  {
    DiffersAt("status", RollupPrefix, 1);
    DiffersAt("status", TimerPrefix, 0);
    DiffersAt("exception.message", RollupPrefix, 0);
    DiffersAt("exception.message", TimerPrefix, 0);
    DiffersAt("exception.type", RollupPrefix, 0);
    DiffersAt("exception.type", TimerPrefix, 0);
    var sent := Finished(c, body, createdAt, start, stop);
    PlainFieldReported(sent, "status");
    PlainFieldReported(sent, "exception.message");
    PlainFieldReported(sent, "exception.type");
  }

  /** `event.send()` on an event this client created writes exactly the payload
      of the client's own `send(event)`. */
  lemma EventSendIsClientSend(c: Client, e: Event, version: string)
    requires e.owner == Some(c.config)
    ensures SkylineEvent.Send(e, version) == Send(c, e, version)
  {
  }

  /** A field whose dotted name splits into `path` and whose value is not a dict
      sits at `path` in the converted data. */
  lemma FieldAtPath(fields: Dict<Value>, data: Flatten.Tree, name: string, path: Path)
    requires Split(name) == path
    requires Get(fields, name).Some? && IsLeaf(Get(fields, name).value)
    requires forall i :: 0 <= i < |fields| ==> Flatten.Found(data, Split(fields[i].0), fields[i].1)
    ensures Lookup(Obj(data), path) == Get(fields, name)
  {
    var v := Get(fields, name).value;
    var i :| 0 <= i < |fields| && fields[i] == (name, v);
    assert Flatten.Found(data, Split(fields[i].0), fields[i].1);
  }

  /** A sent payload has each non-dict field at the path its dotted name spells. */
  lemma SentField(c: Client, e: Event, version: string, name: string, path: Path)
    requires Send(c, e, version).Success?
    requires Split(name) == path
    requires Get(Fields(e), name).Some? && IsLeaf(Get(Fields(e), name).value)
    ensures Lookup(Obj(Send(c, e, version).value.data), path) == Get(Fields(e), name)
  {
    FieldAtPath(Fields(e), Send(c, e, version).value.data, name, path);
  }

  lemma PlainPaths()
    ensures Split("duration_ms") == ["duration_ms"] && Split("status") == ["status"]
  {
    assert NoDot("duration_ms") && NoDot("status");
    SplitSingleDotFree("duration_ms");
    SplitSingleDotFree("status");
  }

  lemma ExceptionMessagePath()
    ensures Split("exception.message") == ["exception", "message"]
  {
    assert "exception.message" == "exception" + "." + "message";
    SplitTwo("exception", "message");
  }

  lemma ExceptionTypePath()
    ensures Split("exception.type") == ["exception", "type"]
  {
    assert "exception.type" == "exception" + "." + "type";
    SplitTwo("exception", "type");
  }

  /** A sent payload carries each non-dict field at the path its name spells. */
  lemma SentLeaf(c: Client, e: Event, version: string, name: string, path: Path, v: Value)
    requires Send(c, e, version).Success?
    requires Split(name) == path && Get(Fields(e), name) == Some(v) && IsLeaf(v)
    ensures Lookup(Obj(Send(c, e, version).value.data), path) == Some(v)
  {
    SentField(c, e, version, name, path);
  }

  /** A sent payload whose event reports the three exception fields carries
      `status` at the top level and the message and class name under `exception`. */
  lemma ErrorPayload(c: Client, e: Event, x: Exc, version: string)
    requires Get(Fields(e), "status") == Some(Str("ERROR"))
    requires Get(Fields(e), "exception.message") == Some(Str(x.message))
    requires Get(Fields(e), "exception.type") == Some(Str(x.className))
    ensures var r := Send(c, e, version);
      r.Success? ==>
        && Lookup(Obj(r.value.data), ["status"]) == Some(Str("ERROR"))
        && Lookup(Obj(r.value.data), ["exception", "message"]) == Some(Str(x.message))
        && Lookup(Obj(r.value.data), ["exception", "type"]) == Some(Str(x.className))
  {
    if Send(c, e, version).Success? {
      PlainPaths();
      SentLeaf(c, e, version, "status", ["status"], Str("ERROR"));
      ExceptionMessagePath();
      SentLeaf(c, e, version, "exception.message", ["exception", "message"], Str(x.message));
      ExceptionTypePath();
      SentLeaf(c, e, version, "exception.type", ["exception", "type"], Str(x.className));
    }
  }

  /** On the error path the payload `evented` builds reports the exception. */
  lemma FinishedErrorPayload(c: Client, body: Body, createdAt: Timestamp, start: real, stop: real, version: string)
    requires BlockExit(body).Threw? && BlockExit(body).exc.isException
    ensures var r := Send(c, Finished(c, body, createdAt, start, stop), version);
      r.Success? ==>
        && Lookup(Obj(r.value.data), ["status"]) == Some(Str("ERROR"))
        && Lookup(Obj(r.value.data), ["exception", "message"]) == Some(Str(BlockExit(body).exc.message))
        && Lookup(Obj(r.value.data), ["exception", "type"]) == Some(Str(BlockExit(body).exc.className))
  {
    FinishedException(c, body, createdAt, start, stop);
    ErrorPayload(c, Finished(c, body, createdAt, start, stop), BlockExit(body).exc, version);
  }

  /** A sent payload carries a reported `duration_ms` at the top level. */
  lemma SentDuration(c: Client, e: Event, version: string)
    requires Get(Fields(e), "duration_ms").Some? && IsLeaf(Get(Fields(e), "duration_ms").value)
    ensures var r := Send(c, e, version);
      r.Success? ==> Lookup(Obj(r.value.data), ["duration_ms"]) == Get(Fields(e), "duration_ms")
  {
    if Send(c, e, version).Success? {
      PlainPaths();
      SentField(c, e, version, "duration_ms", ["duration_ms"]);
    }
  }

  /** What `evented` sends when it opened the event itself: the client's dataset
      and `duration_ms` at the top level of `data`. */
  lemma EventedPayload(c: Client, body: Body, createdAt: Timestamp, start: real, stop: real, version: string)
    requires c.current.None?
    ensures var r := Evented(c, body, createdAt, start, stop, version);
      r.emitted != [] ==>
        && r.emitted[0].dataset == c.config.dataset
        && Lookup(Obj(r.emitted[0].data), ["duration_ms"]) == Some(Num((stop - start) * 1000.0))
  {
    FinishedPayload(c, body, createdAt, start, stop, version);
  }

  /** The payload of the event `evented` sends, when its fields convert, carries
      the measured `duration_ms` at the top level. */
  lemma FinishedPayload(c: Client, body: Body, createdAt: Timestamp, start: real, stop: real, version: string)
    ensures var r := Send(c, Finished(c, body, createdAt, start, stop), version);
      r.Success? ==> Lookup(Obj(r.value.data), ["duration_ms"]) == Some(Num((stop - start) * 1000.0))
  {
    FinishedDuration(c, body, createdAt, start, stop);
    SentDuration(c, Finished(c, body, createdAt, start, stop), version);
  }
}

=== FILE: skyline_event.dfy ===
/** The wide event of skyline/event.py: the older event with plain and rollup
    fields only.  Its `_rollup_name` also leaves "timers."-prefixed names alone,
    and its `_timer_name` is never called. */
module SkylineEvent {
  import opened Wrappers
  import opened Strings
  import opened Dict
  import opened Json
  import opened Wire
  import AirlineEvent

  const TimerPrefix := AirlineEvent.TimerPrefix
  const RollupPrefix := AirlineEvent.RollupPrefix

  /** `_data` and `_rollup_fields`, the dataset, `created_at`, and the owning
      client's settings (`_client`), if any. */
  datatype Event = Event(
    data: Dict<Value>,
    rollups: Dict<real>,
    dataset: string,
    createdAt: Timestamp,
    owner: Option<Config>)

  /** Every dict of the event is a proper dict. */
  predicate WellFormed(e: Event) {
    NoDupKeys(e.data) && NoDupKeys(e.rollups)
  }

  /** `Event(data, created_at, client)`. */
  function New(data: Dict<Value>, createdAt: Timestamp, owner: Option<Config>): (e: Event)
    ensures owner.None? ==> e.dataset == ""
    ensures owner.Some? ==> e.dataset == owner.value.dataset
    ensures e.owner == owner && e.createdAt == createdAt && e.rollups == []
    ensures forall k :: Get(e.data, k) == Last(data, k)
    ensures WellFormed(e)
  {
    var dataset := if owner.Some? then owner.value.dataset else "";
    Add(Event([], [], dataset, createdAt, owner), data)
  }

  /** `add(data)`. */
  function Add(e: Event, data: Dict<Value>): (r: Event)
    ensures r == e.(data := r.data)
    ensures forall k :: Get(r.data, k) == if HasKey(data, k) then Last(data, k) else Get(e.data, k)
    ensures WellFormed(e) ==> WellFormed(r)
  {
    UpdateKeepsNoDup(e.data, data);
    e.(data := Update(e.data, data))
  }

  /** `add_field(name, value)`. */
  function AddField(e: Event, name: string, value: Value): (r: Event)
    ensures r == e.(data := r.data)
    ensures Get(r.data, name) == Some(value)
    ensures forall k :: k != name ==> Get(r.data, k) == Get(e.data, k)
    ensures WellFormed(e) ==> WellFormed(r)
  {
    SetKeepsNoDup(e.data, name, value);
    e.(data := Set(e.data, name, value))
  }

  /** `add_rollup_field(name, value)`: `_rollup_fields[name] += value`. */
  function AddRollupField(e: Event, name: string, amount: real): (r: Event)
    ensures r == e.(rollups := r.rollups)
    ensures AirlineEvent.Total(r.rollups, name) == AirlineEvent.Total(e.rollups, name) + amount
    ensures forall k :: k != name ==> Get(r.rollups, k) == Get(e.rollups, k)
    ensures WellFormed(e) ==> WellFormed(r)
  {
    e.(rollups := AirlineEvent.Accumulate(e.rollups, name, amount))
  }

  /** `_rollup_name`: prefix "rollup." unless the name already starts with
      "rollup." or "timers.". */
  function RollupName(name: string): (r: string)
    ensures StartsWith(r, RollupPrefix) || StartsWith(r, TimerPrefix)
    ensures EndsWith(r, name)
    ensures r == name || r == RollupPrefix + name
  {
    if StartsWith(name, RollupPrefix) || StartsWith(name, TimerPrefix) then name else RollupPrefix + name
  }

  /** `_timer_name`: the same normaliser as the airline event's, defined but never
      called here.  Its results are exactly the names it leaves alone, so applying
      it twice is applying it once. */
  function TimerName(name: string): (r: string)
    ensures StartsWith(r, TimerPrefix) && EndsWith(r, AirlineEvent.TimerSuffix)
    ensures r == name <==> StartsWith(name, TimerPrefix) && EndsWith(name, AirlineEvent.TimerSuffix)
  {
    AirlineEvent.TimerNameNormal(name);
    AirlineEvent.TimerName(name)
  }

  /** `rollup_fields()`. */
  function RollupFields(e: Event): (r: Dict<Value>)
    ensures NoDupKeys(r)
    ensures forall k :: HasKey(r, k) ==> StartsWith(k, RollupPrefix) || StartsWith(k, TimerPrefix)
  {
    AirlineEvent.Renamed(e.rollups, RollupName)
  }

  /** `fields()`: `{**data, **rollup_fields()}`. */
  function Fields(e: Event): Dict<Value> {
    Update(e.data, RollupFields(e))
  }

  /** `send()`: hand the event to its client, or raise without one. */
  function Send(e: Event, version: string): (r: Result<Payload, Error>)
    ensures e.owner.None? ==> r == Failure(NoClient)
    ensures e.owner.Some? ==> (r.Success? <==> Flatten.DotsToDeep(Fields(e)).Some?)
    ensures e.owner.Some? && r.Failure? ==> r.error == NestingCollision
    ensures r.Success? ==>
      && r.value.time == EventTime(e.createdAt) && r.value.dataset == e.dataset
      && r.value.client == ClientPrefix + version
      && Some(r.value.data) == Flatten.DotsToDeep(Fields(e))
      && (r.value.indent.Some? <==> e.owner.value.debug)
  {
    match e.owner
    case None => Failure(NoClient)
    case Some(c) => BuildPayload(e.createdAt, e.dataset, Fields(e), c.debug, version)
  }

  /** The merge order of `fields()`: a rollup field overrides a plain field of the
      same name. */
  lemma FieldsGet(e: Event, k: string)
    ensures Get(Fields(e), k) == if HasKey(RollupFields(e), k) then Get(RollupFields(e), k) else Get(e.data, k)
  {
    LastIsGet(RollupFields(e), k);
  }

  /** A plain field whose name starts with neither prefix is reported as written. */
  lemma PlainFieldReported(e: Event, name: string)
    requires !StartsWith(name, RollupPrefix) && !StartsWith(name, TimerPrefix)
    ensures Get(Fields(e), name) == Get(e.data, name)
  {
    FieldsGet(e, name);
  }

  /** The names this `_rollup_name` leaves alone are exactly those with either
      prefix, so normalising twice is normalising once. */
  lemma RollupNameNormal(name: string)
    ensures RollupName(name) == name <==> StartsWith(name, RollupPrefix) || StartsWith(name, TimerPrefix)
    ensures RollupName(RollupName(name)) == RollupName(name)
  {
  }

  /** The two `_rollup_name`s agree except on "timers."-prefixed names, which the
      skyline event reports as they are and the airline event prefixes again. */
  lemma RollupNameVersusAirline(name: string)
    ensures RollupName(name) == AirlineEvent.RollupName(name) <==> !StartsWith(name, TimerPrefix)
  {
    AirlineEvent.PrefixesDisjoint(name);
    if StartsWith(name, TimerPrefix) {
      assert |AirlineEvent.RollupName(name)| == |RollupPrefix| + |name|;
    }
  }

  /** `fields()` reports the summed total of rollup `name` under its normalised
      name, when no other rollup normalises alike. */
  lemma RollupTotalInFields(e: Event, name: string)
    requires NoDupKeys(e.rollups) && HasKey(e.rollups, name)
    requires forall i :: 0 <= i < |e.rollups| && e.rollups[i].0 != name ==> RollupName(e.rollups[i].0) != RollupName(name)
    ensures Get(Fields(e), RollupName(name)) == Some(Num(AirlineEvent.Total(e.rollups, name)))
  {
    AirlineEvent.RenamedGet(e.rollups, RollupName, name);
    FieldsGet(e, RollupName(name));
  }

  /** An event with no rollups reports exactly its plain fields. */
  lemma FieldsOfNew(data: Dict<Value>, createdAt: Timestamp, owner: Option<Config>)
    requires NoDupKeys(data)
    ensures Fields(New(data, createdAt, owner)) == data
  {
    UpdateFresh([], data);
    assert [] + data == data;
    AirlineEvent.RenamedEmpty(RollupName);
  }

  /** A rollup named "timers.x" keeps its name in `fields()`, so it can collide
      with nothing but a plain field of that name. */
  lemma TimerNamedRollupExample(createdAt: Timestamp, owner: Option<Config>)
    ensures Fields(AddRollupField(New([], createdAt, owner), "timers.db_ms", 4.0)) == [("timers.db_ms", Num(4.0))]
  {
    var e0 := New([], createdAt, owner);
    assert e0.data == [];
    AirlineEvent.FirstTotal("timers.db_ms", 4.0);
    var e := AddRollupField(e0, "timers.db_ms", 4.0);
    assert StartsWith("timers.db_ms", TimerPrefix);
    AirlineEvent.RenamedSingle("timers.db_ms", 4.0, RollupName);
    RollupsOnly(e);
  }

  /** An event holding only rollups reports exactly their renamed totals. */
  lemma RollupsOnly(e: Event)
    requires e.data == []
    ensures Fields(e) == RollupFields(e)
  {
    var none: Dict<Value> := [];
    UpdateFresh(none, RollupFields(e));
    assert none + RollupFields(e) == RollupFields(e);
  }
}

=== FILE: skyline_facade.dfy ===
/** The module-level API of skyline/__init__.py: one process-wide client slot
    (`_ARL`), filled once by `init` and emptied by `done`, with every call a
    no-op (logged in debug mode) when there is no client or no current event. */
module Skyline {
  import opened Wrappers
  import opened Dict
  import opened Json
  import opened Wire
  import SkylineEvent
  import AirlineEvent
  import SkylineClient

  type State = Option<SkylineClient.Client>

  const AlreadyInitialized := "Library already initialized"
  const NotInitialised := "Client or Event not initialised"

  /** `_log(message)`: printed only when a client exists and is in debug mode. */
  function Log(g: State, message: string): (printed: seq<string>)
    ensures printed == [] || printed == [message]
    ensures printed != [] <==> g.Some? && g.value.config.debug
  {
    if g.Some? && g.value.config.debug then [message] else []
  }

  /** `_ARL and _ARL._event`: the guard of every context call. */
  predicate Ready(g: State) {
    g.Some? && g.value.current.Some?
  }

  /** The current event of a ready state. */
  function Current(g: State): SkylineEvent.Event
    requires Ready(g)
  {
    g.value.current.value
  }

  /** A ready state whose current event is replaced by `e`. */
  function WithEvent(g: State, e: SkylineEvent.Event): (r: State)
    requires Ready(g)
    ensures Ready(r) && Current(r) == e && r.value.config == g.value.config
  {
    Some(g.value.(current := Some(e)))
  }

  /** `init(dataset, debug)`: create the client when there is none; otherwise
      keep the existing one and print a warning, whatever the debug setting. */
  function Init(g: State, dataset: string, debug: bool): (r: Step<State, ()>)
    ensures r.emitted == [] && r.outcome == Returned(())
    ensures g.None? ==> r.state == Some(SkylineClient.Client(Config(dataset, debug), None)) && r.printed == []
    ensures g.Some? ==> r.state == g && r.printed == [AlreadyInitialized]
  {
    if g.None? then Step(Some(SkylineClient.Client(Config(dataset, debug), None)), [], [], Returned(()))
    else Step(g, [], [AlreadyInitialized], Returned(()))
  }

  /** A call that only logs because there is no client or no current event. */
  function Skip(g: State): (r: Step<State, ()>)
    ensures r.state == g && r.emitted == [] && r.outcome == Returned(())
    ensures r.printed == Log(g, NotInitialised)
  {
    Step(g, [], Log(g, NotInitialised), Returned(()))
  }

  /** `add_context(data)`. */
  function AddContext(g: State, data: Dict<Value>): (r: Step<State, ()>)
    ensures r.emitted == [] && r.outcome == Returned(())
    ensures Ready(g) ==> r.state == WithEvent(g, SkylineEvent.Add(Current(g), data)) && r.printed == []
    ensures !Ready(g) ==> r == Skip(g)
  {
    if Ready(g) then Step(WithEvent(g, SkylineEvent.Add(Current(g), data)), [], [], Returned(()))
    else Skip(g)
  }

  /** `add_context_field(name, value)`. */
  function AddContextField(g: State, name: string, value: Value): (r: Step<State, ()>)
    ensures r.emitted == [] && r.outcome == Returned(())
    ensures Ready(g) ==> r.state == WithEvent(g, SkylineEvent.AddField(Current(g), name, value)) && r.printed == []
    ensures Ready(g) ==> Get(Current(r.state).data, name) == Some(value)
    ensures !Ready(g) ==> r == Skip(g)
  {
    if Ready(g) then Step(WithEvent(g, SkylineEvent.AddField(Current(g), name, value)), [], [], Returned(()))
    else Skip(g)
  }

  /** `add_rollup_field(name, value)`. */
  function AddRollupField(g: State, name: string, amount: real): (r: Step<State, ()>)
    ensures r.emitted == [] && r.outcome == Returned(())
    ensures Ready(g) ==> r.state == WithEvent(g, SkylineEvent.AddRollupField(Current(g), name, amount)) && r.printed == []
    ensures Ready(g) ==>
      AirlineEvent.Total(Current(r.state).rollups, name) == AirlineEvent.Total(Current(g).rollups, name) + amount
    ensures !Ready(g) ==> r == Skip(g)
  {
    if Ready(g) then Step(WithEvent(g, SkylineEvent.AddRollupField(Current(g), name, amount)), [], [], Returned(()))
    else Skip(g)
  }

  /** `remove_context_field(name)`: the client has no such method, so the call
      raises whenever it gets past the guard. */
  function RemoveContextField(g: State, name: string): (r: Step<State, ()>)
    ensures r.state == g && r.emitted == []
    ensures Ready(g) <==> r.outcome == Raised(MissingAttribute("remove_context_field"))
    ensures !Ready(g) ==> r == Skip(g)
  {
    if Ready(g) then Step(g, [], [], Raised(MissingAttribute("remove_context_field")))
    else Skip(g)
  }

  /** `success()`. */
  function Success(g: State): (r: Step<State, ()>)
    ensures r.emitted == [] && r.outcome == Returned(())
    ensures Ready(g) ==> Ready(r.state) && Get(Current(r.state).data, "status") == Some(Str("SUCCESS"))
    ensures !Ready(g) ==> r == Skip(g)
  {
    AddContextField(g, "status", Str("SUCCESS"))
  }

  /** `error()`. */
  function Error(g: State): (r: Step<State, ()>)
    ensures r.emitted == [] && r.outcome == Returned(())
    ensures Ready(g) ==> Ready(r.state) && Get(Current(r.state).data, "status") == Some(Str("ERROR"))
    ensures !Ready(g) ==> r == Skip(g)
  {
    AddContextField(g, "status", Str("ERROR"))
  }

  /** One mutator of a block, called through this module.  A timed block is
      `with timer(name):` around its own mutators: with a current event it
      raises before they run, as `Timer` does. */
  function ApplyOp(g: State, op: Op): (r: Step<State, ()>)
    ensures r.emitted == []
    ensures Ready(g) ==> r.state == WithEvent(g, SkylineClient.ApplyOp(Current(g), op)) && r.printed == []
    ensures Ready(g) ==> (r.outcome.Raised? <==> op.Time?)
    ensures Ready(g) && op.Time? ==> r.outcome == Raised(MissingAttribute("add_timer_field"))
    ensures !Ready(g) ==> r.state == g && r.outcome == Returned(())
    ensures !Ready(g) ==> |r.printed| == if g.Some? && g.value.config.debug then OpCalls(op) else 0
    decreases op
  {
    match op
    case SetField(n, v) => AddContextField(g, n, v)
    case Merge(d) => AddContext(g, d)
    case Rollup(n, x) => AddRollupField(g, n, x)
    case Time(_, _, _, inner) =>
      if Ready(g) then Step(g, [], [], Raised(MissingAttribute("add_timer_field")))
      else
        var ran := RunOps(g, inner);
        Step(g, [], Log(g, NotInitialised) + ran.printed, Returned(()))
  }

  /** The mutators of a block called through this module in order, until one
      raises.  With a current event that is the first timed block; without a
      client or a current event every call is a logged no-op and none raises. */
  function RunOps(g: State, ops: seq<Op>): (r: Step<State, ()>)
    ensures r.emitted == []
    ensures Ready(g) ==> r.state == WithEvent(g, SkylineClient.Perform(Current(g), ops)) && r.printed == []
    ensures Ready(g) ==> (r.outcome.Raised? <==> OpensTimer(ops))
    ensures Ready(g) && OpensTimer(ops) ==> r.outcome == Raised(MissingAttribute("add_timer_field"))
    ensures !Ready(g) ==> r.state == g && r.outcome == Returned(())
    ensures !Ready(g) ==> |r.printed| == if g.Some? && g.value.config.debug then Calls(ops) else 0
    decreases ops
  {
    if |ops| == 0 then Step(g, [], [], Returned(()))
    else
      OpensTimerCons(ops);
      var first := ApplyOp(g, ops[0]);
      if first.outcome.Raised? then Step(first.state, [], first.printed, first.outcome)
      else
        var rest := RunOps(first.state, ops[1..]);
        Step(rest.state, [], first.printed + rest.printed, rest.outcome)
  }

  /** `with timer(name): <block>`.  With a current event the generator calls
      `add_timer_field` on the event, which the skyline event does not have: the
      `with` statement raises before the block runs, and nothing changes.
      Without one, the block runs once and its exit passes through. */
  function Timer(g: State, name: string, body: Body): (r: Step<State, Value>)
    ensures r.emitted == []
    ensures Ready(g) ==> r == Step(g, [], [], Raised(MissingAttribute("add_timer_field")))
    ensures !Ready(g) ==> r.state == g && r.outcome == Propagate(body.exit)
    ensures !Ready(g) ==> r.printed == Log(g, NotInitialised) + RunOps(g, body.ops).printed
  {
    if Ready(g) then Step(g, [], [], Raised(MissingAttribute("add_timer_field")))
    else
      var ran := RunOps(g, body.ops);
      Step(g, [], Log(g, NotInitialised) + ran.printed, Propagate(body.exit))
  }

  /** `done()`: flush through the client's `done`, then empty the slot.  When the
      client's `done` raises (no current event, or colliding fields), the
      assignment `_ARL = None` is never reached and the client stays. */
  function Done(g: State, version: string): (r: Step<State, ()>)
    ensures r.printed == []
    ensures g.None? ==> r == Step(g, [], [], Returned(()))
    ensures r.outcome.Returned? ==> r.state.None?
    ensures r.outcome.Raised? ==> r.state == g && r.emitted == [] && g.Some?
    ensures g.Some? && g.value.current.None? ==> r.outcome == Raised(NoCurrentEvent)
    ensures r.emitted != [] <==> Ready(g) && SkylineClient.Send(g.value, Current(g), version).Success?
    ensures r.emitted != [] ==> r.emitted == [SkylineClient.Send(g.value, Current(g), version).value]
  {
    match g
    case None => Step(None, [], [], Returned(()))
    case Some(c) =>
      var d := SkylineClient.Done(c, version);
      if d.outcome.Raised? then Step(g, [], [], Raised(d.outcome.error))
      else Step(None, d.emitted, [], Returned(()))
  }

  /** A function decorated with `@evented()` and called: with a client, its body
      runs inside the client's `evented`; without one, the function is simply
      called and its result or exception passes straight through. */
  function Evented(g: State, body: Body, createdAt: Timestamp, start: real, stop: real, version: string)
    : (r: Step<State, Value>)
    ensures g.None? ==> r.state == g && r.emitted == [] && r.printed == [] && r.outcome == Propagate(body.exit)
    ensures g.Some? ==> r.state.Some? && r.state.value.config == g.value.config && |r.emitted| <= 1
    ensures g.Some? ==>
      var s := SkylineClient.Evented(g.value, body, createdAt, start, stop, version);
      r == Step(Some(s.state), s.emitted, s.printed, s.outcome)
  {
    match g
    case None =>
      var ran := RunOps(g, body.ops);
      Step(ran.state, [], ran.printed, Propagate(body.exit))
    case Some(c) =>
      var s := SkylineClient.Evented(c, body, createdAt, start, stop, version);
      Step(Some(s.state), s.emitted, s.printed, s.outcome)
  }

  /** `init` creates the client once: a second call, whatever its settings, keeps
      the first client and prints the warning. */
  lemma InitOnce(g: State, d1: string, b1: bool, d2: string, b2: bool)
    ensures var first := Init(g, d1, b1);
      var second := Init(first.state, d2, b2);
      && first.state.Some?
      && second.state == first.state
      && second.printed == [AlreadyInitialized]
  {
  }

  /** With a current event, each module-level mutator leaves the same client as the
      client's own method of that name. */
  lemma ForwardsToClient(g: State, op: Op)
    requires Ready(g)
    ensures op.SetField? ==> ApplyOp(g, op).state == Some(SkylineClient.AddContextField(g.value, op.name, op.value).state)
    ensures op.Merge? ==> ApplyOp(g, op).state == Some(SkylineClient.AddContext(g.value, op.data).state)
    ensures op.Rollup? ==> ApplyOp(g, op).state == Some(SkylineClient.AddRollupField(g.value, op.name, op.amount).state)
    ensures op.Time? ==> ApplyOp(g, op) == Step(g, [], [], Raised(MissingAttribute("add_timer_field")))
  {
  }

  /** After a `done` that returned, `init` installs a fresh client with the new
      settings and no current event. */
  lemma DoneThenInit(g: State, version: string, dataset: string, debug: bool)
    requires Done(g, version).outcome.Returned?
    ensures Init(Done(g, version).state, dataset, debug).state == Some(SkylineClient.Client(Config(dataset, debug), None))
  {
  }

  /** `init` directly followed by `done`: there is no current event to send, so
      `done` raises and the client stays installed. */
  lemma InitThenDone(dataset: string, debug: bool, version: string)
    ensures var g := Init(None, dataset, debug).state;
      var d := Done(g, version);
      d.outcome == Raised(NoCurrentEvent) && d.state == g && d.emitted == []
  {
  }

  /** The usual life of the module: `init`, one call of a decorated function, then
      `done`.  The decorated call writes at most one payload; afterwards either its
      event was sent and cleared, so `done` finds none, or its fields collide and
      `done` fails on them again.  Either way `done` raises, writes nothing and
      leaves the client installed. */
  lemma InitEventedDone(dataset: string, debug: bool, body: Body, createdAt: Timestamp,
                        start: real, stop: real, version: string)
    ensures var g := Init(None, dataset, debug).state;
      var ev := Evented(g, body, createdAt, start, stop, version);
      var d := Done(ev.state, version);
      && ev.state.Some?
      && |ev.emitted| <= 1
      && d.outcome.Raised? && d.emitted == [] && d.state == ev.state
      && (ev.emitted != [] ==> d.outcome == Raised(NoCurrentEvent))
      && (ev.emitted == [] ==> d.outcome == Raised(NestingCollision))
  {
    var c := SkylineClient.Client(Config(dataset, debug), None);
    var sent := SkylineClient.Finished(c, body, createdAt, start, stop);
    var s := SkylineClient.Evented(c, body, createdAt, start, stop, version);
    if s.emitted == [] {
      assert s.state.current == Some(sent);
      assert SkylineClient.Send(s.state, sent, version) == SkylineClient.Send(c, sent, version);
    }
  }

  /** The skyline timer never records anything: with a current event it raises
      and leaves the event as it was, and without one there is nothing to record
      into. */
  lemma TimerNeverTimes(g: State, name: string, body: Body)
    ensures Timer(g, name, body).state == g
    ensures Ready(g) <==> Timer(g, name, body).outcome == Raised(MissingAttribute("add_timer_field"))
  {
    if !Ready(g) {
      assert Propagate(body.exit) != Raised(MissingAttribute("add_timer_field"));
    }
  }
}

=== FILE: strings.dfy ===
/** String helpers mirroring the Python `str` methods the logger relies on:
    `startswith`, `endswith` and `split('.')`. */
module Strings {

  predicate StartsWith(s: string, prefix: string) {
    |prefix| <= |s| && s[..|prefix|] == prefix
  }

  predicate EndsWith(s: string, suffix: string) {
    |suffix| <= |s| && s[|s| - |suffix|..] == suffix
  }

  predicate NoDot(s: string) {
    forall i :: 0 <= i < |s| ==> s[i] != '.'
  }

  /** Python's `s.split('.')`: every '.' separates two segments, so the result has
      one more segment than `s` has dots, and segments may be empty. */
  function Split(s: string): (parts: seq<string>)
    ensures |parts| >= 1
    ensures forall i :: 0 <= i < |parts| ==> NoDot(parts[i])
  {
    if |s| == 0 then [""]
    else if s[0] == '.' then [""] + Split(s[1..])
    else
      var rest := Split(s[1..]);
      [[s[0]] + rest[0]] + rest[1..]
  }

  /** `'.'.join(parts)`. */
  function Join(parts: seq<string>): string
    requires |parts| >= 1
  {
    if |parts| == 1 then parts[0] else parts[0] + "." + Join(parts[1..])
  }

  /** Splitting loses nothing: joining the segments back gives the key. */
  lemma {:induction false} JoinSplit(s: string)
    ensures Join(Split(s)) == s
  {
    if |s| == 0 {
    } else if s[0] == '.' {
      JoinSplit(s[1..]);
      assert s == [s[0]] + s[1..];
    } else {
      var rest := Split(s[1..]);
      JoinSplit(s[1..]);
      if |rest| == 1 {
        assert s == [s[0]] + s[1..];
      } else {
        assert Join(rest) == rest[0] + "." + Join(rest[1..]);
        assert Join(Split(s)) == [s[0]] + rest[0] + "." + Join(rest[1..]);
        assert s == [s[0]] + s[1..];
      }
    }
  }

  /** Two keys with the same segments are the same key. */
  lemma SplitInjective(a: string, b: string)
    ensures Split(a) == Split(b) ==> a == b
  {
    JoinSplit(a);
    JoinSplit(b);
  }

  /** A key without dots is a single segment, and only such a key is. */
  lemma SplitSingle(s: string)
    ensures NoDot(s) <==> Split(s) == [s]
  {
    SplitSingleDotFree(s);
    assert Split(s) == [s] ==> NoDot(Split(s)[0]);
  }

  lemma {:induction false} SplitSingleDotFree(s: string)
    ensures NoDot(s) ==> Split(s) == [s]
  {
    if |s| > 0 && NoDot(s) {
      assert NoDot(s[1..]) by {
        forall i | 0 <= i < |s[1..]| ensures s[1..][i] != '.' {
          assert s[1..][i] == s[i + 1];
        }
      }
      SplitSingleDotFree(s[1..]);
      assert s == [s[0]] + s[1..];
    }
  }

  /** Splitting inverts joining, as long as no segment holds a dot. */
  lemma {:induction false} SplitJoin(parts: seq<string>)
    requires |parts| >= 1
    requires forall i :: 0 <= i < |parts| ==> NoDot(parts[i])
    ensures Split(Join(parts)) == parts
  {
    if |parts| == 1 {
      SplitSingle(parts[0]);
    } else {
      SplitJoin(parts[1..]);
      SplitPrefixDot(parts[0], Join(parts[1..]));
    }
  }

  /** Splitting `a + "." + b` for a dot-free `a` puts `a` in front of the segments of `b`. */
  lemma {:induction false} SplitPrefixDot(a: string, b: string)
    requires NoDot(a)
    ensures Split(a + "." + b) == [a] + Split(b)
  {
    if |a| == 0 {
      assert a + "." + b == ['.'] + b;
      assert (['.'] + b)[1..] == b;
    } else {
      var s := a + "." + b;
      assert s[0] == a[0];
      assert s[1..] == a[1..] + "." + b;
      assert NoDot(a[1..]) by {
        forall i | 0 <= i < |a[1..]| ensures a[1..][i] != '.' {
          assert a[1..][i] == a[i + 1];
        }
      }
      SplitPrefixDot(a[1..], b);
      assert [a[0]] + a[1..] == a;
    }
  }

  lemma SplitTwo(a: string, b: string)
    requires NoDot(a) && NoDot(b)
    ensures Split(a + "." + b) == [a, b]
  {
    SplitPrefixDot(a, b);
    SplitSingle(b);
  }

  lemma SplitThree(a: string, b: string, c: string)
    requires NoDot(a) && NoDot(b) && NoDot(c)
    ensures Split(a + "." + b + "." + c) == [a, b, c]
  {
    var bc := b + "." + c;
    assert a + "." + b + "." + c == a + "." + bc;
    SplitPrefixDot(a, bc);
    SplitTwo(b, c);
    assert [a] + [b, c] == [a, b, c];
  }

  /** A string differing from `prefix` at some position does not start with it. */
  lemma DiffersAt(s: string, prefix: string, i: nat)
    requires i < |prefix| && (i >= |s| || s[i] != prefix[i])
    ensures !StartsWith(s, prefix)
  {
    if |prefix| <= |s| {
      assert s[..|prefix|][i] == s[i];
    }
  }
}

=== FILE: wire.dfy ===
/** What the client, the events and the module-level facade share: the client's
    settings, the timestamps events carry, the exceptions that can escape, and the
    payload record `Client.send` writes out (airline/client.py:81-98, and the same
    lines at skyline/client.py:61-78). */
module Wire {
  import opened Wrappers
  import opened Strings
  import opened Dict
  import opened Json
  import opened Flatten

  /** The two settings a client is constructed with. */
  datatype Config = Config(dataset: string, debug: bool)

  /** An event's `created_at`: its `isoformat()` text, and whether it carries no
      time zone (`tzinfo is None`). */
  datatype Timestamp = Timestamp(iso: string, naive: bool)

  /** An exception raised by user code: its class name, its `str()`, and whether
      it derives from `Exception` (the `except Exception` clauses) or only from
      `BaseException`, as `KeyboardInterrupt` does. */
  datatype Exc = Exc(className: string, message: string, isException: bool)

  /** What can escape from the modelled operations. */
  datatype Error =
    | Thrown(exc: Exc)                 // an exception that ended a block of user code, re-raised unchanged
    | NestingCollision                 // `dots_to_deep` rejected the fields
    | NoClient                         // "Can't send, no client!"
    | NoCurrentEvent                   // `send(None)`: None has no `created_at`
    | UnboundEvent                     // the local `event` in `evented` was never bound
    | MissingAttribute(name: string)   // a call to a method the object does not have

  datatype Outcome<T> = Returned(value: T) | Raised(error: Error)

  /** The result of one call: the state it leaves, the payloads written to stderr
      and the lines printed to stdout meanwhile, and how the call ended. */
  datatype Step<S, T> = Step(state: S, emitted: seq<Payload>, printed: seq<string>, outcome: Outcome<T>)

  /** How a block of user code (the body of a `with`, or a wrapped function) ended. */
  datatype Exit = Completed(result: Value) | Threw(exc: Exc)

  /** The mutators user code calls while an event is open.  `Time` is a timed
      block, `with timer(name):` or `with add_timer_field(name):`, whose own
      mutators are `ops`; the clock reads `start` on entry and `stop` on exit. */
  datatype Op =
    | SetField(name: string, value: Value)       // add_context_field(name, value)
    | Merge(data: Dict<Value>)                   // add_context(data)
    | Rollup(name: string, amount: real)         // add_rollup_field(name, value)
    | Time(name: string, start: real, stop: real, ops: seq<Op>)

  /** The mutator calls a block makes: one per mutator, plus those inside each
      timed block. */
  function Calls(ops: seq<Op>): nat
    decreases ops
  {
    if |ops| == 0 then 0 else OpCalls(ops[0]) + Calls(ops[1..])
  }

  function OpCalls(op: Op): nat
    decreases op
  {
    match op
    case Time(_, _, _, inner) => 1 + Calls(inner)
    case _ => 1
  }

  /** Whether a block opens a timed block of its own. */
  predicate OpensTimer(ops: seq<Op>) {
    exists i :: 0 <= i < |ops| && ops[i].Time?
  }

  lemma OpensTimerCons(ops: seq<Op>)
    requires |ops| > 0
    ensures OpensTimer(ops) <==> ops[0].Time? || OpensTimer(ops[1..])
  {
    if OpensTimer(ops) && !ops[0].Time? {
      var i :| 0 <= i < |ops| && ops[i].Time?;
      assert ops[1..][i - 1] == ops[i];
    }
    if OpensTimer(ops[1..]) {
      var i :| 0 <= i < |ops[1..]| && ops[1..][i].Time?;
      assert ops[i + 1] == ops[1..][i];
    }
  }

  /** The `AttributeError` raised by a call to a method the object does not
      have.  Its message is modelled as the method's name. */
  function MissingMethod(name: string): Exc {
    Exc("AttributeError", name, true)
  }

  /** A block of user code: the mutators it calls, in order, and how it ends. */
  datatype Body = Body(ops: seq<Op>, exit: Exit)

  /** A block's exit as seen by whoever called it: its result, or its exception. */
  function Propagate(exit: Exit): (o: Outcome<Value>)
    ensures exit.Completed? <==> o.Returned?
    ensures o.Returned? ==> o.value == exit.result
    ensures o.Raised? ==> o.error == Thrown(exit.exc)
  {
    match exit
    case Completed(v) => Returned(v)
    case Threw(e) => Raised(Thrown(e))
  }

  /** The record `send` serialises: four keys, plus the indentation `json.dumps`
      is given. */
  datatype Payload = Payload(time: string, dataset: string, client: string, data: Tree, indent: Option<nat>)

  const ClientPrefix := "airline/"

  /** The event time: the ISO text, with "Z" appended exactly when the timestamp
      is naive. */
  function EventTime(at: Timestamp): (s: string)
    ensures StartsWith(s, at.iso)
    ensures |s| == |at.iso| + (if at.naive then 1 else 0)
    ensures at.naive ==> EndsWith(s, "Z")
  {
    if at.naive then at.iso + "Z" else at.iso
  }

  /** `Client.send(ev)` up to the `print`: the payload for an event with the given
      creation time, dataset and merged fields, written by a client whose debug
      flag is `debug`.  It fails exactly when `dots_to_deep` does. */
  function BuildPayload(createdAt: Timestamp, dataset: string, fields: Dict<Value>, debug: bool, version: string)
    : (r: Result<Payload, Error>)
    ensures r.Success? <==> DotsToDeep(fields).Some?
    ensures r.Failure? ==> r.error == NestingCollision
    ensures r.Success? ==>
      && r.value.time == EventTime(createdAt)
      && r.value.dataset == dataset
      && r.value.client == ClientPrefix + version
      && Some(r.value.data) == DotsToDeep(fields)
      && (forall i :: 0 <= i < |fields| ==> Found(r.value.data, Split(fields[i].0), fields[i].1))
      && (r.value.indent.Some? <==> debug)
      && (debug ==> r.value.indent == Some(2))
  {
    match DotsToDeep(fields)
    case None => Failure(NestingCollision)
    case Some(data) =>
      Success(Payload(EventTime(createdAt), dataset, ClientPrefix + version, data, if debug then Some(2) else None))
  }

  /** For flat fields the payload's `data` holds every field, and nothing else, at
      the path its dotted name spells. */
  lemma PayloadLeaves(createdAt: Timestamp, dataset: string, fields: Dict<Value>, debug: bool, version: string)
    requires Flat(fields)
    requires BuildPayload(createdAt, dataset, fields, debug, version).Success?
    ensures var data := BuildPayload(createdAt, dataset, fields, debug, version).value.data;
      forall q :: LeafAt(Obj(data), q) == ValueAtPath(ToMap(fields), q)
  {
    DotsToDeepFlat(fields);
  }
}

=== FILE: wrappers.dfy ===
/** Option and Result, the failure-carrying wrappers the rest of the model uses. */
module Wrappers {

  datatype Option<+T> = None | Some(value: T)

  datatype Result<+R, +E> = Success(value: R) | Failure(error: E)
}
